=== FILE: README.md ===
# Rocket Pool indexer: incremental accounting model

A Dafny model of the accounting core of the Rocket Pool mainnet subgraph. The
subgraph reacts to Rocket Pool contract events and calls. Each handler updates
a store of entities:

- stakers and their rETH balances;
- nodes, minipools and node timezones;
- network and per-participant balance checkpoints, which form forward-linked
  chains;
- RPL stake transactions;
- RPL reward claims and reward intervals.

The model makes the store one immutable `State` record: a map from id to record
per entity type, plus the protocol entity. Every handler is a pure function
from a state to the next state. BigInt arithmetic is unbounded `int`.
`BigInt.div` is `TDiv`, which rounds toward zero. `ONE_ETHER_IN_WEI` is
`S = 10^18`.

Contract reads become parameters, such as `BalancesReads`, `PricesReads`,
`RewardsReads` and `StakeReading`. So does the reward interval id prefix.

The modules follow the source files:

| module | models |
|---|---|
| `FixedPoint` | truncating division and 18-decimal fixed-point products |
| `GeneralUtilities` | event ids, composite checkpoint ids, rETH contract balance, id lists without duplicates |
| `Entities` | the entities of the store |
| `StakerAccounting` | balance changes, staker balances, rewards since the previous checkpoint, running reward totals |
| `NetworkBalances` | the balances handler and its staker loop |
| `RETHTransfers` | rETH transfers |
| `NodeStaking` | RPL staking, slashing and withdrawal transactions |
| `DAONodeTrusted` | unbonded-minipool counters of trusted nodes |
| `NodeManager` | node registration and timezone changes |
| `MinipoolManager` | the minipool life cycle and a node's average fee |
| `NodeAccounting` | new-minipool RPL bounds, node totals, fee metadata, running-total coercion |
| `Ranking` | the claimed-RPL ranking of nodes |
| `RewardsPool` | RPL reward claims and reward intervals |
| `NetworkPrices` | the prices handler and its node loop |
| `Indexer` | event dispatch and the store invariants every handler keeps |

Three facts about the code shape the model:

- The claim handler keeps, per claim, only the interval's total and average claim and the claiming node's `totalClaimedRPLRewards` (`src/mappings/rocketRewardsPoolMapping.ts:162-188`). It keeps no per-class totals, counts or averages.
- A trusted-node claim is recognised by asking the trusted-node DAO whether the claiming address is a valid member, not by comparing the claiming contract with an address (`src/mappings/rocketRewardsPoolMapping.ts:252-277`).
- The staking handlers and the claim handler have no check for an event already indexed (`src/mappings/rocketNodeStakingMapping.ts:27-118`, `src/mappings/rocketRewardsPoolMapping.ts:36-200`), so a redelivered event counts twice (`NodeStaking.SlashingRedeliveredCountsTwice`). The balances, prices and transfer handlers return early on an indexed event id and are idempotent (`NetworkBalances.BalancesUpdatedIdempotent`, `RETHTransfers.TransferIdempotent`).

Where the source is evidently wrong, the model carries two versions. The one
named `…AsWritten` models the code as it stands. The corrected one is what
`Indexer.Apply` dispatches to (see "## Findings").

## Model

| member | source | states |
|---|---|---|
| FixedPoint.TDiv | src/utilities/stakerutilities.ts:97-100 | BigInt division truncates toward zero: the quotient's magnitude is the quotient of the magnitudes, it is negative only when the operands' signs differ, and it is floor division for a non-negative dividend and positive divisor |
| FixedPoint.FixedMulMonotoneInRate | src/utilities/stakerutilities.ts:97-100 | valuing a non-negative rETH amount at a higher exchange rate never gives a smaller ETH value |
| FixedPoint.DivBetween | src/mappings/rocketMinipoolManagerMapping.ts:270-279 | an integer average of n terms bracketed by n·lo and n·hi lies in [lo, hi] |
| GeneralUtilities.EventEntityIdRoundTrip | src/utilities/generalutilities.ts:17-19 | splitting an event id at its first dash recovers the hash and the log index |
| GeneralUtilities.EventEntityIdInjective | src/utilities/generalutilities.ts:17-19 | distinct (hash, log index) pairs get distinct ids, so the "already indexed" checks only match the same event |
| GeneralUtilities.ParseDecimalRoundTrip | src/utilities/generalutilities.ts:17-19 | the decimal text of a log index reads back as the same number |
| GeneralUtilities.CompositeIdInjective | src/mappings/rocketNetworkBalancesMapping.ts:155-156 | the per-participant checkpoints taken at one network checkpoint get distinct ids |
| GeneralUtilities.AppendIfAbsent | src/mappings/rocketNodeManager.ts:41-43 | appending an id only when it is absent yields a list holding exactly the old ids and the new one, with no duplicates if there were none |
| GeneralUtilities.GetRocketETHBalance | src/utilities/generalutilities.ts:24-36 | the rETH contract's ETH is total collateral minus the deposit pool excess, never below zero |
| GeneralUtilities.RocketETHBalanceMonotone | src/utilities/generalutilities.ts:24-36 | the rETH contract balance never falls when collateral rises or the excess falls, and moves by at most the sum of those two changes; the same computation is repeated at src/mappings/rocketNetworkBalancesMapping.ts:177-183, and both sites use this one definition |
| StakerAccounting.ChangeStakerBalances | src/utilities/stakerutilities.ts:79-102 | a credit adds the amount; a debit subtracts it, or zeroes the balance if it exceeds it; the ETH balance is the new rETH balance at the rate, or 0; the zero address is left unchanged |
| StakerAccounting.CreditThenDebitRestores | src/utilities/stakerutilities.ts:79-102 | receiving an amount and sending it back restores a non-negative rETH balance |
| StakerAccounting.TransferConservesRETH | src/utilities/stakerutilities.ts:79-102 | a transfer the sender can afford moves exactly the amount: the two rETH balances keep their sum, except that the zero address neither pays nor receives, so a mint adds the amount and a burn removes it |
| StakerAccounting.GetStakerBalance | src/utilities/stakerutilities.ts:107-150 | current balances are valued at the current rate; previous balances come from the last checkpoint, or are the current ones when there is none; every value is clamped at zero |
| StakerAccounting.EthRewardsSincePreviousCheckpointAsWritten | src/utilities/stakerutilities.ts:155-235 | no reward without a previous rETH balance or an ETH balance change; with no movement the reward is the ETH change; rETH sent away is added back at the previous rate; rETH received is taken off at the previous rate, and its value change between the two rates is added again |
| StakerAccounting.EthRewardsSincePreviousCheckpoint | src/utilities/stakerutilities.ts:155-235 | the same guard; the reward is the ETH balance change less the principal moved in, or plus the principal moved out, valued at the previous rate |
| StakerAccounting.AsWrittenRewardCountsReceivedGainTwice | src/utilities/stakerutilities.ts:193-230 | the code as written exceeds the corrected reward by exactly the rate gain on received rETH, and agrees with it when nothing was received |
| StakerAccounting.ReceivedRETHDoubleCountExample | src/utilities/stakerutilities.ts:193-230 | 100 rETH held and 100 received at rate 1.0, rate rising to 1.1: the code reports 30 ETH, the corrected reward 20 |
| StakerAccounting.RewardAtStableRateExcludesPrincipal | src/utilities/stakerutilities.ts:155-235 | at an unchanged rate the code as written treats rETH moved in or out as principal, not reward |
| StakerAccounting.RewardFollowsExchangeRate | src/utilities/stakerutilities.ts:155-235 | a staker who moved nothing earns a reward with the sign of the rate change |
| StakerAccounting.PartialExitExample | src/utilities/stakerutilities.ts:155-235 | a worked partial exit: 40 of 100 rETH leave, the rate goes from 1.1 to 1.2, and the reward is 6 ETH |
| StakerAccounting.AccrueReward | src/utilities/stakerutilities.ts:258-269 | the reward adds to the running total; the first nonzero reward raises the lifetime flag, and the flag is never lowered |
| StakerAccounting.AccruedRewardsAddUp | src/utilities/stakerutilities.ts:253-273 | over any run of checkpoints the total is the initial total plus the sum of the rewards, and the flag is raised exactly when some reward was nonzero or it was already raised |
| StakerAccounting.UpdateNetworkStakerBalanceCheckpoint | src/utilities/stakerutilities.ts:278-302 | the network checkpoint adds the staker's running total, and counts the staker if it holds rETH and if it ever accrued a reward |
| StakerAccounting.HandleEthRewardsSincePreviousCheckpoint | src/utilities/stakerutilities.ts:253-273 | the staker accrues the reward, then that updated staker is rolled into the network checkpoint |
| NetworkBalances.ProcessStaker | src/mappings/rocketNetworkBalancesMapping.ts:128-171 | an ineligible staker is skipped; an eligible one keeps its rETH, has its ETH balance revalued at the checkpoint's rate, adds the corrected reward since its previous snapshot to its running total, raises its lifetime flag on a nonzero reward, and links to a new snapshot of its current ETH and rETH balances and total; the network checkpoint rolls up the updated staker |
| NetworkBalances.GenerateStakerBalanceCheckpointsEffect | src/mappings/rocketNetworkBalancesMapping.ts:115-172 | the staker loop moves no rETH; only the three staker counters of the network checkpoint change; skipped stakers are untouched; each eligible staker links to its own checkpoint `networkId - stakerId` |
| NetworkBalances.NewCheckpointIdsBelongToEligible | src/mappings/rocketNetworkBalancesMapping.ts:128-171 | every staker checkpoint the loop writes is `networkId - k` for an eligible listed staker k |
| NetworkBalances.StakerLoopTotals | src/mappings/rocketNetworkBalancesMapping.ts:115-172 | over a staker list without repeats, the loop adds to each counter exactly the sum over the eligible listed stakers: their reward totals, how many hold rETH, and how many ever accrued a reward |
| NetworkBalances.StakerLoopUpdatesEachStaker | src/mappings/rocketNetworkBalancesMapping.ts:115-172 | over a staker list without repeats, each eligible listed staker whose previous snapshot the loop does not overwrite ends the loop exactly as one iteration on the initial store makes it: revalued, credited with its reward, and linked to its own snapshot |
| NetworkBalances.FallBackToPreviousTotals | src/mappings/rocketNetworkBalancesMapping.ts:84-90 | a reward total or rewarded-staker count the loop left at zero takes the previous checkpoint's value, and a nonzero one is kept; so the result is zero exactly when both are zero, and no other field changes |
| NetworkBalances.AverageGuardOnlyAdmitsZeroTotal | src/mappings/rocketNetworkBalancesMapping.ts:93-97 | under every reading of its operators, the guard admits only a zero total over a positive count |
| NetworkBalances.AverageStakerETHRewardsAsWritten | src/mappings/rocketNetworkBalancesMapping.ts:93-99 | as written, the average is assigned only under that guard |
| NetworkBalances.AverageAsWrittenNeverReportsRewards | src/mappings/rocketNetworkBalancesMapping.ts:93-99 | as written, a nonzero reward total never produces a nonzero average |
| NetworkBalances.AverageAsWrittenCounterexample | src/mappings/rocketNetworkBalancesMapping.ts:93-99 | a reward total of 10 over 2 stakers gives an average of 0 as written, where 5 is intended |
| NetworkBalances.AverageStakerETHRewards | src/mappings/rocketNetworkBalancesMapping.ts:92-99 | the corrected average is the truncated quotient of the total over the counted stakers whenever some staker is counted; otherwise nothing changes |
| NetworkBalances.HandleBalancesUpdated | src/mappings/rocketNetworkBalancesMapping.ts:18-108 | corrected (it uses `AverageStakerETHRewards` for the average and the corrected `StakerAccounting.EthRewardsSincePreviousCheckpoint` for each staker's reward): an indexed event is ignored; otherwise a new checkpoint follows the previous one, the previous one links forward to it, the protocol names it last, and stakers keep their holdings; the checkpoint records the rate, the deposit pool balance, the rETH contract balance and the event's block; for a staker list without repeats, it counts the listed stakers holding rETH, its reward total and rewarded count are the sums over the eligible listed stakers or, when zero, the previous checkpoint's, and the average is their truncated quotient when some staker is counted |
| NetworkBalances.BalancesUpdatedUpdatesEachStaker | src/mappings/rocketNetworkBalancesMapping.ts:18-172 | for a balances event not yet indexed, the stakers the loop skips are unchanged, and for a staker list without repeats every eligible listed staker whose previous snapshot the loop does not overwrite is revalued at the new rate, credited with its reward since that snapshot and given its snapshot of the new checkpoint, as `ProcessStaker` states |
| NetworkBalances.BalancesUpdatedIdempotent | src/mappings/rocketNetworkBalancesMapping.ts:26-27 | handling the same balances event twice equals handling it once |
| NetworkBalances.BalancesUpdatedKeepsChain | src/mappings/rocketNetworkBalancesMapping.ts:57-71 | the network staker checkpoints stay a well-formed forward-linked chain whose only tip is the protocol's last checkpoint |
| RETHTransfers.LoadOrCreateStaker | src/utilities/stakerutilities.ts:41-74 | a stored staker is loaded; otherwise a new staker with zero balances is created |
| RETHTransfers.HandleTransfer | src/mappings/rocketTokenRETHMapping.ts:27-113 | an indexed transfer is ignored; otherwise it is recorded, the sender is debited and the receiver credited from their loaded states, and both appear once in the protocol's staker list; on a self-transfer the credit is what remains |
| RETHTransfers.TransferConservesIndexedRETH | src/mappings/rocketTokenRETHMapping.ts:97-105 | between two distinct non-zero stakers, a transfer the sender can afford leaves their total rETH unchanged |
| RETHTransfers.TransferIdempotent | src/mappings/rocketTokenRETHMapping.ts:33-34 | re-delivering a transfer changes nothing |
| NodeStaking.UpdateNodeRPLBalances | src/mappings/rocketNodeStakingMapping.ts:123-147 | the stake figures come from the contract; the slashed tally grows exactly when a positive amount is slashed, by that amount; nothing else changes |
| NodeStaking.HandleStakeEvent | src/mappings/rocketNodeStakingMapping.ts:27-118 | an unindexed node leaves the state unchanged; otherwise the transaction is stored under the event id with its truncated ETH value, and only that node's balances change |
| NodeStaking.SlashingRedeliveredCountsTwice | src/mappings/rocketNodeStakingMapping.ts:69-118 | with no already-indexed check, a slashing delivered twice is tallied twice |
| DAONodeTrusted.HandleIncrementMemberUnbondedValidatorCount | src/mappings/rocketDAONodeTrustedMapping.ts:11-30 | only a call from the minipool manager, for an indexed node, adds one to that node's unbonded counter |
| DAONodeTrusted.HandleDecrementMemberUnbondedValidatorCount | src/mappings/rocketDAONodeTrustedMapping.ts:35-52 | only a call from an indexed minipool, for an indexed node, subtracts one, never going below zero |
| DAONodeTrusted.IncrementThenDecrementRestores | src/mappings/rocketDAONodeTrustedMapping.ts:11-52 | an increment followed by a decrement restores a non-negative counter |
| NodeManager.TimezoneId | src/mappings/rocketNodeManager.ts:96-101 | the reported timezone, or "UNKNOWN" when none is reported |
| NodeManager.HandleNodeRegister | src/mappings/rocketNodeManager.ts:10-49 | a known node is ignored; otherwise the node is created in its timezone, that timezone counts one more node, and the protocol lists the node once |
| NodeManager.RegisterKeepsTimezoneCounts | src/mappings/rocketNodeManager.ts:10-49 | registration keeps every timezone's count equal to the number of nodes in it |
| NodeManager.MoveBetweenTimezones | src/mappings/rocketNodeManager.ts:64-86 | for distinct timezones, the old one counts one node fewer, never below zero, and the new one, created if missing, counts one more; reporting the same timezone leaves a count of at least one unchanged; other timezones are unchanged |
| NodeManager.MoveBetweenTimezonesAsWritten | src/mappings/rocketNodeManager.ts:64-90 | as written, both timezones are loaded before either is saved and the new one is saved last: for distinct timezones this is the corrected move; for the same timezone its count grows by one |
| NodeManager.HandleNodeTimezoneChangedAsWritten | src/mappings/rocketNodeManager.ts:54-91 | as written, the counts move but the node keeps its old timezone; nothing but the timezones changes |
| NodeManager.HandleNodeTimezoneChanged | src/mappings/rocketNodeManager.ts:54-91 | corrected: the node moves to the reported timezone along with its count |
| NodeManager.TimezoneChangeKeepsTimezoneCounts | src/mappings/rocketNodeManager.ts:54-91 | the corrected change keeps every timezone's count equal to the number of nodes in it |
| NodeManager.TimezoneChangeAsWrittenCounterexample | src/mappings/rocketNodeManager.ts:64-90 | as written, a lone node moving from "A" to "B" leaves "A" counting no node while the node still says "A" |
| NodeManager.SameTimezoneAsWrittenCounterexample | src/mappings/rocketNodeManager.ts:64-90 | a lone node in "A" reporting "A" again leaves "A" counting 2 nodes as written, where the corrected change keeps 1 |
| MinipoolManager.AverageFeeForActiveMinipools | src/mappings/rocketMinipoolManagerMapping.ts:230-281 | the node's average fee is the truncated mean fee of its active minipools, or 0 when there are none |
| MinipoolManager.AverageFeeWithinActiveFees | src/mappings/rocketMinipoolManagerMapping.ts:230-281 | the average fee lies between the smallest and the largest active fee |
| MinipoolManager.AverageFeeExample | src/mappings/rocketMinipoolManagerMapping.ts:230-281 | active fees of 5% and 15%, plus a finalised 20%, average to 10% |
| MinipoolManager.DestroyLeavesTally | src/mappings/rocketMinipoolManagerMapping.ts:244-268 | destroying an active minipool removes exactly its fee and one count from the tally |
| MinipoolManager.HandleMinipoolCreated | src/mappings/rocketMinipoolManagerMapping.ts:18-63 | a known minipool or an unknown node is ignored; otherwise the minipool is stored with the current fee, joins its node's list once, and the node's stake figures and average fee are refreshed |
| MinipoolManager.HandleMinipoolDestroyedAsWritten | src/mappings/rocketMinipoolManagerMapping.ts:68-99 | as written, the average is recomputed before the destroyed time is set, so it still includes the destroyed minipool; the stake figures are refreshed as in the corrected handler, and no other node or minipool changes |
| MinipoolManager.HandleMinipoolDestroyed | src/mappings/rocketMinipoolManagerMapping.ts:68-99 | corrected: the destroyed time is set first, and the average excludes the destroyed minipool |
| MinipoolManager.DestroyAsWrittenCounterexample | src/mappings/rocketMinipoolManagerMapping.ts:88-94 | with fees 10 and 30, destroying the second gives an average of 20 as written, where 10 is intended |
| MinipoolManager.HandleIncrementNodeStakingMinipoolCount | src/mappings/rocketMinipoolManagerMapping.ts:104-123 | the calling minipool records its staking time, and its node counts one more staking minipool |
| MinipoolManager.HandleDecrementNodeStakingMinipoolCount | src/mappings/rocketMinipoolManagerMapping.ts:128-151 | the calling minipool records its withdrawable time; its node counts one more withdrawable minipool and one fewer staking minipool, never below zero |
| MinipoolManager.HandleFinalisedAsWritten | src/mappings/rocketMinipoolManagerMapping.ts:156-185 | as written, the withdrawable count is overwritten with the finalised count minus one, and the average fee is taken over the minipools as saved before the call, so it still counts the finalised one; the stake figures are refreshed as in the corrected handler, and no other node or minipool changes |
| MinipoolManager.HandleFinalised | src/mappings/rocketMinipoolManagerMapping.ts:156-185 | corrected: one minipool moves from withdrawable (never below zero) to finalised, and the average excludes it |
| MinipoolManager.FinalisedAsWrittenCounterexample | src/mappings/rocketMinipoolManagerMapping.ts:170-174 | with three withdrawable and none finalised, finalising one leaves 0 withdrawable as written, where 2 are intended |
| MinipoolManager.FinaliseAverageAsWrittenCounterexample | src/mappings/rocketMinipoolManagerMapping.ts:164-179 | with active fees 10 and 30, finalising the second leaves an average of 20 as written, where 10 is intended |
| MinipoolManager.TransitionsKeepCountersNonNegative | src/mappings/rocketMinipoolManagerMapping.ts:104-185 | every minipool transition keeps the node's counters non-negative |
| NodeAccounting.RPLForNewMinipool | src/utilities/nodeutilities.ts:25-54 | deposit times ratio divided by price, truncated, and 0 when any factor is 0 |
| NodeAccounting.NewMinipoolBoundsOrdered | src/utilities/nodeutilities.ts:25-54 | the minimum RPL bound never exceeds the maximum |
| NodeAccounting.NewMinipoolBoundFallsWithPrice | src/utilities/nodeutilities.ts:25-54 | a dearer RPL never raises the RPL required |
| NodeAccounting.AddNode | src/utilities/nodeutilities.ts:60-103 | one more registered node, and each of the node's quantities added to its total |
| NodeAccounting.AddNodesIsSum | src/utilities/nodeutilities.ts:60-103 | folding nodes in adds one registration per node, and the per-field sum for each quantity |
| NodeAccounting.AddNodesOrderIndependent | src/utilities/nodeutilities.ts:60-103 | the network totals do not depend on the order in which nodes are folded |
| NodeAccounting.UpdateMinipoolMetadataWithNodeAsWritten | src/utilities/nodeutilities.ts:108-127 | as written, a positive node fee is divided by S, truncated, before it is added, so a fee below S adds nothing; the node is counted exactly when its fee is positive; the minimum and maximum RPL are always added |
| NodeAccounting.UpdateMinipoolMetadataWithNode | src/utilities/nodeutilities.ts:108-127 | corrected: a positive node fee is added in wei and counted once; the RPL bounds are always added |
| NodeAccounting.ApplyMinipoolMetadataAsWritten | src/utilities/nodeutilities.ts:133-152 | as written, with a positive count and total the network fee is the truncated total over the count, scaled by S, hence a multiple of S; otherwise the fee is unchanged; the RPL totals are copied and nothing else changes |
| NodeAccounting.ApplyMinipoolMetadata | src/utilities/nodeutilities.ts:133-152 | corrected: the network fee is the mean node fee when some node has one; the RPL totals are copied |
| NodeAccounting.AddMetadataFeeBounds | src/utilities/nodeutilities.ts:108-127 | the fee total stays between count times the smallest fee and count times the largest |
| NodeAccounting.AddMetadataCountsPositiveFees | src/utilities/nodeutilities.ts:113-116 | the count grows exactly when some node has a positive fee |
| NodeAccounting.NetworkFeeWithinNodeFees | src/utilities/nodeutilities.ts:138-147 | the corrected network fee lies between the smallest and the largest positive node fee |
| NodeAccounting.NetworkFeeAsWrittenIgnoresSubEtherFees | src/utilities/nodeutilities.ts:113-116 | as written, fees below one ether never change the network fee |
| NodeAccounting.NetworkFeeCounterexample | src/utilities/nodeutilities.ts:113-147 | one node at a 10% fee: the network fee stays 0 as written, where 10% is intended |
| NodeAccounting.CoerceRunningTotals | src/utilities/nodeutilities.ts:157-188 | with a previous checkpoint, each of claimed RPL, slashed RPL and finalised minipools left at zero takes the previous checkpoint's value clamped at zero, and a nonzero one is kept; without one nothing changes; every other field is untouched |
| NodeAccounting.CoerceRunningTotalsIdempotent | src/utilities/nodeutilities.ts:157-188 | coercing twice against the same previous checkpoint equals coercing once |
| Ranking.RanksBeforeTotalPreorder | src/mappings/rocketRewardsPoolMapping.ts:305-308 | the intended comparator (more claimed RPL first, then earlier block, compared exactly) is total and transitive |
| Ranking.LoadNodes | src/mappings/rocketRewardsPoolMapping.ts:286-300 | exactly the listed ids that load contribute their nodes; with keyed nodes and distinct ids, the loaded nodes are distinct |
| Ranking.InsertKeepsSorted | src/mappings/rocketRewardsPoolMapping.ts:305-308 | inserting into a list sorted by the intended comparator keeps it sorted |
| Ranking.SortByRank | src/mappings/rocketRewardsPoolMapping.ts:305-308 | the result is a permutation of the loaded nodes, sorted by the intended comparator |
| Ranking.AssignRanks | src/mappings/rocketRewardsPoolMapping.ts:311-323 | the node at position i of the sorted list gets rank i + 1; nothing else changes |
| Ranking.SaveNodes | src/mappings/rocketRewardsPoolMapping.ts:318-319 | saving writes each ranked node under its id and leaves every other node alone |
| Ranking.UpdateRPLClaimedRewardRank | src/mappings/rocketRewardsPoolMapping.ts:283-325 | an empty id list changes nothing; with keyed nodes the node ids are kept |
| Ranking.RankUpdateOnlySetsRanks | src/mappings/rocketRewardsPoolMapping.ts:283-325 | unlisted nodes are untouched; listed nodes change only their rank, which lies in 1..N for N loaded nodes |
| Ranking.RankUpdateIsDense | src/mappings/rocketRewardsPoolMapping.ts:311-323 | every rank 1..N is held by a listed node |
| Ranking.RankUpdateIsOrdered | src/mappings/rocketRewardsPoolMapping.ts:305-323 | under the intended comparator, listed nodes get distinct ranks; a lower rank means the node ranks before the other; more RPL claimed means a lower rank |
| RewardsPool.ClaimerType | src/mappings/rocketRewardsPoolMapping.ts:231-278 | PDAO when the claim contract is the protocol DAO's; else trusted node when the address is a valid member; else regular node when the address is an indexed node; stated as three iffs |
| RewardsPool.ClaimerTypeIsFirstQualifying | src/mappings/rocketRewardsPoolMapping.ts:231-278 | a claim is rejected exactly when it qualifies for no class; otherwise it gets exactly one class, one it qualifies for, and the first in the order PDAO, trusted node, regular node among those it qualifies for |
| RewardsPool.CloseInterval | src/mappings/rocketRewardsPoolMapping.ts:96-105 | closing marks the interval closed at the block time and changes nothing else; its actual duration is the elapsed time when the close is not before the start, and the nominal duration when it is |
| RewardsPool.ChooseInterval | src/mappings/rocketRewardsPoolMapping.ts:85-130 | a rollover happens exactly when no interval is indexed or its start time differs from the pool's; without one the indexed interval stays active and nothing is closed; with one the new interval is open, empty, starts at the pool's start time and links back to the indexed interval, which, when there is one, is closed and links forward to the new one |
| RewardsPool.CloseIntervalIdempotent | src/mappings/rocketRewardsPoolMapping.ts:96-105 | closing an interval twice at the same time equals closing it once |
| RewardsPool.CloseIntervalDurationNonNegative | src/mappings/rocketRewardsPoolMapping.ts:99-105 | with a non-negative nominal duration the recorded duration is non-negative, and it never exceeds the elapsed time when the close is not before the start |
| RewardsPool.ClaimETHAmount | src/mappings/rocketRewardsPoolMapping.ts:143-148 | the ETH value is amount times price over S, truncated, or 0 when the price is not positive |
| RewardsPool.AddClaimToIntervalAsWritten | src/mappings/rocketRewardsPoolMapping.ts:170-188 | as written, the total grows by the amount and the claim is appended; with a positive total and earlier claims, the average is the new total over the number of earlier claims, truncated; on the first claim the average is left unchanged |
| RewardsPool.AddClaimToInterval | src/mappings/rocketRewardsPoolMapping.ts:170-188 | corrected: the average is the truncated new total over the claim count including this claim |
| RewardsPool.AverageClaimAsWrittenCounterexample | src/mappings/rocketRewardsPoolMapping.ts:176-188 | claims of 10 and 20 average to 30 as written, where 15 is intended |
| RewardsPool.AverageClaimWithinClaims | src/mappings/rocketRewardsPoolMapping.ts:170-188 | after positive claims within [lo, hi], the total is their sum and the corrected average lies in [lo, hi] |
| RewardsPool.CreditClaimingNode | src/mappings/rocketRewardsPoolMapping.ts:162-168 | an indexed claimer's claimed total grows by the amount; every other node is unchanged |
| RewardsPool.HandleRPLTokensClaimed | src/mappings/rocketRewardsPoolMapping.ts:36-200 | corrected (its average comes from `AddClaimToInterval`): an unrecognised claim changes nothing; otherwise the claim is stored with its class and ETH value, and only claims, nodes, intervals and the protocol's last interval change |
| RewardsPool.ClaimKeepsOneOpenInterval | src/mappings/rocketRewardsPoolMapping.ts:90-129 | intervals stay keyed by id, and only the protocol's last interval can be open |
| RewardsPool.RolloverLinksIntervals | src/mappings/rocketRewardsPoolMapping.ts:90-129 | on a rollover the old interval is closed and linked forward; the new interval links back, holds just this claim, and becomes the last |
| RewardsPool.FirstClaimOpensInterval | src/mappings/rocketRewardsPoolMapping.ts:90-129 | a recognised claim with no indexed interval opens the first one: open, with no previous interval, starting at the pool's start time, holding just this claim and its amount, and named last by the protocol; no other interval changes |
| RewardsPool.ClaimJoinsCurrentInterval | src/mappings/rocketRewardsPoolMapping.ts:170-195 | without a rollover the claim joins the last interval: its total grows by the amount, the claim id is appended, and the protocol is unchanged |
| RewardsPool.ClaimCreditsNode | src/mappings/rocketRewardsPoolMapping.ts:162-198 | the claiming node gains exactly the amount; every other node changes only its rank |
| NetworkPrices.NewMinipoolBounds | src/mappings/rocketNetworkPricesMapping.ts:190-232 | both bounds are deposit times ratio over price, truncated, and ordered when the ratios are ordered; both are 0 at a zero price or deposit |
| NetworkPrices.FoldNode | src/mappings/rocketNetworkPricesMapping.ts:131-182 | an unloaded id is skipped; otherwise the refreshed node is added to the totals and metadata, snapshotted under `checkpoint - node`, and linked to that snapshot; a rank-1 node sets the highest-ranked snapshot |
| NetworkPrices.GenerateNodeBalanceCheckpointsComputes | src/mappings/rocketNetworkPricesMapping.ts:108-185 | the loop's totals and metadata are those of the refreshed listed nodes, and its highest-ranked snapshot is the last rank-1 node's |
| NetworkPrices.NodeTotalsOrderIndependent | src/mappings/rocketNetworkPricesMapping.ts:108-185 | the totals do not depend on the order of the protocol's node list |
| NetworkPrices.RefreshedNodesPermutation | src/mappings/rocketNetworkPricesMapping.ts:131-138 | permuting the id list permutes the loaded nodes |
| NetworkPrices.NodeSnapshotsLinked | src/mappings/rocketNetworkPricesMapping.ts:164-181 | each loaded node gets its own snapshot of its refreshed state and links to it; unlisted nodes and snapshots are untouched |
| NetworkPrices.HandlePricesUpdated | src/mappings/rocketNetworkPricesMapping.ts:25-102 | corrected (its fee comes from `UpdateMinipoolMetadataWithNode`): an indexed event is ignored; otherwise a checkpoint with the price, fee and RPL bounds follows the previous one, which links forward to it; the protocol names it last and the node ids are kept |
| NetworkPrices.PricesUpdatedKeepsChain | src/mappings/rocketNetworkPricesMapping.ts:62-96 | the network node checkpoints stay a well-formed forward-linked chain |
| NetworkPrices.PricesUpdatedTotals | src/mappings/rocketNetworkPricesMapping.ts:75-93 | registered nodes equal the loaded count; each total is its field's sum over the refreshed nodes, except that a claimed, slashed or finalised sum of zero takes the previous node checkpoint's value clamped at zero |
| NetworkPrices.PricesUpdatedFeeWithinNodeFees | src/mappings/rocketNetworkPricesMapping.ts:75-93 | the recorded network fee lies between the smallest and the largest positive node fee |
| Indexer.SameTimezonesKeepCounts | src/mappings/rocketNodeManager.ts:54-91 | node changes that keep every node's timezone keep the timezone counts exact |
| Indexer.ClaimKeepsNodePlaces | src/mappings/rocketRewardsPoolMapping.ts:162-198 | a claim keeps every node's key, id and timezone |
| Indexer.ApplyKeepsConsistent | src/mappings/rocketNodeManager.ts:10-49 | every event preserves the store invariants the ranking and the folds rely on: keyed nodes, each node listed exactly once, minipools owned by indexed nodes, exact timezone counts, well-formed checkpoint chains, at most one open interval |
| Indexer.ApplyAllKeepsConsistent | src/mappings/rocketNodeManager.ts:10-49 | every history of events preserves those invariants |
| Indexer.ReachableClaimRanksAllNodes | src/mappings/rocketRewardsPoolMapping.ts:197-198 | after any history, a recognised claim keeps the node keys and gives every indexed node a rank between 1 and the number of listed nodes |

## Left out

- Entity factory failures and `null` loads that can only follow one: the factory is not part of this model. The model assumes it always succeeds and zeroes every field it is not given. `src/mappings/rocketRewardsPoolMapping.ts:122` is an example of a guard that is never taken.
- Contract reads become parameters of the handlers. These include exchange rates, balances, the RPL price, DAO settings, trusted-node membership and each node's effective, minimum and maximum stake (`PricesReads.stakeOf`). Any reverted call is not modelled.
- The reward interval id prefix `ROCKETPOOL_RPL_REWARD_INTERVAL_ID_PREFIX` is a parameter (`intervalIdPrefix`), because `generalconstants.ts` is not part of this model.
- Store visibility: the source loads only entities that have been saved, and saves at the end of a handler. The model treats every write as immediately visible to later reads in the same handler. Three differences follow. In `handleMinipoolCreated`, the new minipool is saved after the node's average fee is computed (`src/mappings/rocketMinipoolManagerMapping.ts:52-61`); the model lets that average see the new minipool. In `handleIncrementNodeFinalisedMinipoolCount`, the finalised time is not saved before the average is computed (`src/mappings/rocketMinipoolManagerMapping.ts:164-179`); `MinipoolManager.HandleFinalisedAsWritten` keeps the finalised minipool in the average, as the code does, and the corrected `HandleFinalised` leaves it out (see "## Findings"). In `handleNodeTimezoneChanged`, the old and new timezones are separate copies (`src/mappings/rocketNodeManager.ts:64-90`), so reporting the same timezone adds one to its count; `NodeManager.MoveBetweenTimezonesAsWritten` models those copies, and the corrected `MoveBetweenTimezones` leaves the count unchanged (see "## Findings").
- `src/mappings/rocketNetworkBalancesMapping.ts:27,125,152` call staker utilities whose signatures differ from the `stakerutilities.ts` shown. The model follows the utilities shown. The grand-total update for the previous checkpoint and the protocol (line 125) is not part of this model.
- Ranking.SortByRank: the source's comparator returns a BigInt difference converted with `toI32()` (`src/mappings/rocketRewardsPoolMapping.ts:306-307`). Claimed totals are in wei, so practically every difference of claimed totals lies outside the 32-bit range, and what `toI32()` does then is defined by the graph-ts library, which is not part of this model. The model does not model that conversion: every ranking member uses the intended comparator, which compares the two BigInts exactly. It also sorts ties of equal claimed total and equal block in an engine-defined order. The model uses the exact comparator. Ties take the order insertion sort gives them, and `RankUpdateIsOrdered` says nothing about the relative rank of tied nodes.
- `protocol.activeStakers` is iterated by the balances handler but written by no modelled handler. The model iterates it as given.
- The smoothing-pool mapping (`src/mappings/rocketSmoothingPool.ts`) is outside the modelled core.
- Saves write each entity under its own `id`. The model writes under the key it was loaded from. The two coincide whenever nodes are stored under their own ids (`Entities.NodesKeyed`), which `Indexer.ApplyAllKeepsConsistent` shows always holds.
- The `staker === null` guards, and the `minipool.node == null` and `nodeId == null` checks, are subsumed by map membership.
- `src/mappings/rocketNodeStakingMapping.ts:81` tests `amount === BigInt.fromI32(0)`, which compares object identity with a freshly built value and is never true. So the model has no zero-amount guard, and a zero-amount staking event stores a transaction.
- NetworkBalances.HandleBalancesUpdated: the staker-loop sums are stated only for a `protocol.activeStakers` list without repeats. With a repeat, a staker's reward would be counted once per occurrence, and no sum is promised.
- NetworkBalances.StakerLoopUpdatesEachStaker (and BalancesUpdatedUpdatesEachStaker): the per-staker result is stated only for a staker whose previous snapshot id is not `networkId - j` for another listed staker j. The loop writes those ids, so such a staker would read a snapshot written earlier in the same loop. That can only happen if a snapshot id of a balances event not yet indexed is already in the store.
- NetworkBalances.HandleBalancesUpdated composes the corrected `AverageStakerETHRewards`, not the guard as written, and the corrected `StakerAccounting.EthRewardsSincePreviousCheckpoint` for each staker's reward, not `getETHRewardsSincePreviousStakerBalanceCheckpoint` as written (`src/mappings/rocketNetworkBalancesMapping.ts:144-151`). So a staker that received rETH accrues its rate gain once, and the reward total and average differ from the code's by that gain (`StakerAccounting.AsWrittenRewardCountsReceivedGainTwice`).
- NetworkPrices.HandlePricesUpdated composes the corrected `UpdateMinipoolMetadataWithNode` and `ApplyMinipoolMetadata`, not the division by S as written.
- RewardsPool.HandleRPLTokensClaimed composes the corrected `AddClaimToInterval`, not the average over the earlier claims as written.
- NodeManager.HandleNodeTimezoneChanged and MinipoolManager.HandleFinalised likewise are the corrected handlers that `Indexer.Apply` dispatches to.

## Findings

| source | as written | input that shows it | evidently intended | confidence | as-written member | corrected member |
|---|---|---|---|---|---|---|
| src/mappings/rocketMinipoolManagerMapping.ts:170-174 | the withdrawable count is set to the finalised count minus one | 3 withdrawable, 0 finalised, one finalisation | withdrawable drops by one, to 2 (the comment above the line says so) | high, not executed | MinipoolManager.HandleFinalisedAsWritten, MinipoolManager.FinalisedAsWrittenCounterexample | MinipoolManager.HandleFinalised |
| src/mappings/rocketNetworkBalancesMapping.ts:93-99 | the guard `total != 0 && count ? 0 : count >= 1` is false whenever the total is nonzero | total reward 10 over 2 stakers with rewards | average 5 = total / count when count >= 1 | high, not executed | NetworkBalances.AverageStakerETHRewardsAsWritten, NetworkBalances.AverageAsWrittenCounterexample, NetworkBalances.AverageAsWrittenNeverReportsRewards | NetworkBalances.AverageStakerETHRewards |
| src/mappings/rocketMinipoolManagerMapping.ts:88-94 | the average fee is recomputed before the destroyed time is set, so it still includes the destroyed minipool | active minipools with fees 10 and 30; the second is destroyed | average 10 over the minipool still active | high, not executed | MinipoolManager.HandleMinipoolDestroyedAsWritten, MinipoolManager.DestroyAsWrittenCounterexample | MinipoolManager.HandleMinipoolDestroyed |
| src/utilities/nodeutilities.ts:113-116 | each node's average fee is divided by 10^18 before it is summed; every fee below one ether truncates to 0, so the node is still counted but adds 0 to the fee total; with only sub-ether fees the total stays 0 and the network fee is never set | one node with an average fee of 0.1 ether (10^17 wei) | network average fee 10^17 | high, not executed | NodeAccounting.UpdateMinipoolMetadataWithNodeAsWritten, NodeAccounting.NetworkFeeAsWrittenIgnoresSubEtherFees, NodeAccounting.NetworkFeeCounterexample | NodeAccounting.UpdateMinipoolMetadataWithNode, NodeAccounting.NetworkFeeWithinNodeFees |
| src/mappings/rocketNodeManager.ts:64-90 | the timezone counts move but `node.timezone` is never reassigned | a lone node in timezone "A" moves to "B" | the node's timezone becomes "B", so each timezone counts the nodes in it | medium, not executed | NodeManager.HandleNodeTimezoneChangedAsWritten, NodeManager.TimezoneChangeAsWrittenCounterexample | NodeManager.HandleNodeTimezoneChanged, NodeManager.TimezoneChangeKeepsTimezoneCounts |
| src/mappings/rocketRewardsPoolMapping.ts:176-188 | the average is computed before the claim is appended, so it divides by the previous claim count and is skipped on the first claim | claims of 10 then 20 in a fresh interval | average 15 = 30 / 2 | high, not executed | RewardsPool.AddClaimToIntervalAsWritten, RewardsPool.AverageClaimAsWrittenCounterexample | RewardsPool.AddClaimToInterval, RewardsPool.AverageClaimWithinClaims |
| src/mappings/rocketMinipoolManagerMapping.ts:164-179 | the finalised time is set on the loaded minipool but not saved before the average fee reloads the node's minipools, so the average still counts the finalised minipool | active minipools with fees 10 and 30; the second is finalised | average 10 over the minipool still active (the comment says finalising changes the average) | medium, not executed | MinipoolManager.HandleFinalisedAsWritten, MinipoolManager.FinaliseAverageAsWrittenCounterexample | MinipoolManager.HandleFinalised |
| src/mappings/rocketNodeManager.ts:64-90 | the old and new timezones are loaded as separate copies and the new copy is saved last, so a change to the same timezone adds one to its count | a lone node in "A", counted 1, reports "A" again | the count stays 1 | medium, not executed | NodeManager.MoveBetweenTimezonesAsWritten, NodeManager.SameTimezoneAsWrittenCounterexample | NodeManager.MoveBetweenTimezones, NodeManager.TimezoneChangeKeepsTimezoneCounts |
| src/utilities/stakerutilities.ts:193-230 | for a staker that received rETH, the balance change less the received rETH at the previous rate already includes that rETH's rate gain, and the code adds the gain again | 100 rETH held and 100 received at rate 1.0; the rate rises to 1.1 and the 200 rETH are worth 220 ETH | a reward of 20 ETH (10 on each holding): the comments mean the received rETH's gain to be counted once | medium, not executed | StakerAccounting.EthRewardsSincePreviousCheckpointAsWritten, StakerAccounting.AsWrittenRewardCountsReceivedGainTwice, StakerAccounting.ReceivedRETHDoubleCountExample | StakerAccounting.EthRewardsSincePreviousCheckpoint |

=== FILE: dao_node_trusted.dfy ===
/** Unbonded validators of trusted nodes
    (src/mappings/rocketDAONodeTrustedMapping.ts): the minipool manager and
    minipools move a node's unbonded-minipool counter up and down. */
module DAONodeTrusted {
  import opened FixedPoint
  import opened Entities

  /** handleIncrementMemberUnbondedValidatorCount: only a call from the
      minipool manager, for an indexed node, counts one more unbonded
      minipool. */
  function HandleIncrementMemberUnbondedValidatorCount(state: State, from: string, minipoolManager: string, nodeId: string)
    : (r: State)
    ensures from != minipoolManager || nodeId !in state.nodes ==> r == state
    ensures from == minipoolManager && nodeId in state.nodes ==>
      r.nodes == state.nodes[nodeId := state.nodes[nodeId].(
        stakingUnbondedMinipools := state.nodes[nodeId].stakingUnbondedMinipools + 1)]
    ensures r == state.(nodes := r.nodes)
  {
    if from != minipoolManager || nodeId !in state.nodes then state
    else
      var node := state.nodes[nodeId];
      state.(nodes := state.nodes[nodeId := node.(stakingUnbondedMinipools := node.stakingUnbondedMinipools + 1)])
  }

  /** handleDecrementMemberUnbondedValidatorCount: only a call from an
      indexed minipool, for an indexed node, counts one fewer unbonded
      minipool, never fewer than zero. */
  function HandleDecrementMemberUnbondedValidatorCount(state: State, from: string, nodeId: string): (r: State)
    ensures from !in state.minipools || nodeId !in state.nodes ==> r == state
    ensures from in state.minipools && nodeId in state.nodes ==>
      && nodeId in r.nodes
      && r.nodes[nodeId].stakingUnbondedMinipools >= 0
      && r.nodes[nodeId].stakingUnbondedMinipools >= state.nodes[nodeId].stakingUnbondedMinipools - 1
      && (state.nodes[nodeId].stakingUnbondedMinipools >= 1 ==>
            r.nodes[nodeId].stakingUnbondedMinipools == state.nodes[nodeId].stakingUnbondedMinipools - 1)
      && (state.nodes[nodeId].stakingUnbondedMinipools < 1 ==> r.nodes[nodeId].stakingUnbondedMinipools == 0)
      && r.nodes == state.nodes[nodeId := state.nodes[nodeId].(stakingUnbondedMinipools := r.nodes[nodeId].stakingUnbondedMinipools)]
    ensures r == state.(nodes := r.nodes)
  {
    if from !in state.minipools || nodeId !in state.nodes then state
    else
      var node := state.nodes[nodeId];
      state.(nodes := state.nodes[nodeId := node.(stakingUnbondedMinipools := Max0(node.stakingUnbondedMinipools - 1))])
  }

  /** An increment from the manager followed by a decrement from a minipool
      restores a non-negative counter. */
  lemma {:induction false} IncrementThenDecrementRestores(state: State, minipoolManager: string, minipool: string, nodeId: string)
    requires nodeId in state.nodes && minipool in state.minipools
    requires state.nodes[nodeId].stakingUnbondedMinipools >= 0
    ensures var up := HandleIncrementMemberUnbondedValidatorCount(state, minipoolManager, minipoolManager, nodeId);
      HandleDecrementMemberUnbondedValidatorCount(up, minipool, nodeId).nodes == state.nodes
  {
    var up := HandleIncrementMemberUnbondedValidatorCount(state, minipoolManager, minipoolManager, nodeId);
    assert up.nodes[nodeId].stakingUnbondedMinipools == state.nodes[nodeId].stakingUnbondedMinipools + 1;
    assert up.nodes[nodeId].(stakingUnbondedMinipools := state.nodes[nodeId].stakingUnbondedMinipools) == state.nodes[nodeId];
  }
}

=== FILE: entities.dfy ===
/** The indexed entities of the accounting engine and the id->record store
    that holds them. Every BigInt field is an unbounded `int`; nullable
    references are `Option`s. */
module Entities {
  import opened Wrappers
  import opened GeneralUtilities

  /** The protocol singleton: the heads of the checkpoint chains, the active
      reward interval, and the participant id lists. */
  datatype Protocol = Protocol(
    lastNetworkStakerBalanceCheckPoint: Option<string>,
    lastNetworkNodeBalanceCheckPoint: Option<string>,
    lastRPLRewardInterval: Option<string>,
    stakers: seq<string>,
    activeStakers: seq<string>,
    nodes: seq<string>)

  /** The protocol entity as it is created on first need. */
  const InitialProtocol := Protocol(None, None, None, [], [], [])

  datatype Staker = Staker(
    id: string,
    rETHBalance: int,
    ethBalance: int,
    totalETHRewards: int,
    hasAccruedETHRewardsDuringLifecycle: bool,
    lastBalanceCheckpoint: Option<string>,
    block: int,
    blockTime: int)

  /** A staker as the entity factory creates it: no balance, no rewards. */
  function NewStaker(id: string, block: int, blockTime: int): Staker {
    Staker(id, 0, 0, 0, false, None, block, blockTime)
  }

  /** Snapshot of one staker taken at one network staker balance checkpoint. */
  datatype StakerBalanceCheckpoint = StakerBalanceCheckpoint(
    id: string,
    stakerId: string,
    networkCheckpointId: string,
    ethBalance: int,
    rETHBalance: int,
    totalETHRewards: int,
    block: int,
    blockTime: int)

  datatype NetworkStakerBalanceCheckpoint = NetworkStakerBalanceCheckpoint(
    id: string,
    previousCheckpointId: Option<string>,
    nextCheckpointId: Option<string>,
    stakerETHWaitingInDepositPool: int,
    stakerETHInRocketETHContract: int,
    rETHExchangeRate: int,
    totalStakerETHRewards: int,
    totalStakersWithETHRewards: int,
    stakersWithAnRETHBalance: int,
    averageStakerETHRewards: int,
    block: int,
    blockTime: int)

  datatype RocketETHTransaction = RocketETHTransaction(
    id: string,
    from: string,
    to: string,
    amount: int,
    block: int,
    blockTime: int)

  datatype Node = Node(
    id: string,
    timezone: string,
    rplStaked: int,
    effectiveRPLStaked: int,
    minimumEffectiveRPL: int,
    maximumEffectiveRPL: int,
    totalRPLSlashed: int,
    totalClaimedRPLRewards: int,
    averageFeeForActiveMinipools: int,
    queuedMinipools: int,
    stakingMinipools: int,
    stakingUnbondedMinipools: int,
    withdrawableMinipools: int,
    totalFinalizedMinipools: int,
    minipools: seq<string>,
    totalRPLClaimedRewardsRank: int,
    lastNodeBalanceCheckpoint: Option<string>,
    block: int,
    blockTime: int)

  /** A node as the entity factory creates it at registration. */
  function NewNode(id: string, timezone: string, block: int, blockTime: int): Node {
    Node(id, timezone, 0, 0, 0, 0, 0, 0, 0, 0, 0, 0, 0, 0, [], 0, None, block, blockTime)
  }

  /** A minipool; a time of 0 means "has not happened". */
  datatype Minipool = Minipool(
    id: string,
    node: string,
    fee: int,
    stakingBlockTime: int,
    withdrawableBlockTime: int,
    finalizedBlockTime: int,
    destroyedBlockTime: int)

  datatype NetworkNodeTimezone = NetworkNodeTimezone(
    id: string,
    totalRegisteredNodes: int,
    block: int,
    blockTime: int)

  datatype NodeRPLStakeTransactionType = Staked | Slashed | Withdrawal

  datatype NodeRPLStakeTransaction = NodeRPLStakeTransaction(
    id: string,
    node: string,
    amount: int,
    ethAmount: int,
    transactionType: NodeRPLStakeTransactionType,
    block: int,
    blockTime: int)

  /** The network-wide node running totals a node checkpoint accumulates. */
  datatype NodeTotals = NodeTotals(
    nodesRegistered: int,
    rplStaked: int,
    effectiveRPLStaked: int,
    totalRPLSlashed: int,
    totalClaimedRPLRewards: int,
    queuedMinipools: int,
    stakingMinipools: int,
    stakingUnbondedMinipools: int,
    withdrawableMinipools: int,
    totalFinalizedMinipools: int)

  const ZeroTotals := NodeTotals(0, 0, 0, 0, 0, 0, 0, 0, 0, 0)

  datatype NetworkNodeBalanceCheckpoint = NetworkNodeBalanceCheckpoint(
    id: string,
    previousCheckpointId: Option<string>,
    nextCheckpointId: Option<string>,
    totals: NodeTotals,
    averageFeeForActiveMinipools: int,
    minimumEffectiveRPL: int,
    maximumEffectiveRPL: int,
    minimumEffectiveRPLNewMinipool: int,
    maximumEffectiveRPLNewMinipool: int,
    rplPriceInETH: int,
    newMinipoolFee: int,
    checkpointWithHighestRPLRewardsRank: Option<string>,
    block: int,
    blockTime: int)

  /** Snapshot of one node taken at one network node balance checkpoint. */
  datatype NodeBalanceCheckpoint = NodeBalanceCheckpoint(
    id: string,
    networkCheckpointId: string,
    node: Node,
    block: int,
    blockTime: int)

  datatype RPLRewardClaimerType = PDAO | TrustedNode | RegularNode

  datatype RPLRewardInterval = RPLRewardInterval(
    id: string,
    previousIntervalId: Option<string>,
    nextIntervalId: Option<string>,
    claimableRewards: int,
    intervalStartTime: int,
    intervalDuration: int,
    intervalDurationActual: int,
    intervalClosedTime: Option<int>,
    isClosed: bool,
    totalRPLClaimed: int,
    averageRPLClaimed: int,
    rplRewardClaims: seq<string>,
    block: int,
    blockTime: int)

  datatype RPLRewardClaim = RPLRewardClaim(
    id: string,
    claimer: string,
    claimerType: RPLRewardClaimerType,
    amount: int,
    ethAmount: int,
    block: int,
    blockTime: int)

  /** The entity store: one id->record map per entity kind, plus the
      protocol singleton. */
  datatype State = State(
    protocol: Protocol,
    stakers: map<string, Staker>,
    stakerCheckpoints: map<string, StakerBalanceCheckpoint>,
    networkStakerCheckpoints: map<string, NetworkStakerBalanceCheckpoint>,
    rethTransactions: map<string, RocketETHTransaction>,
    nodes: map<string, Node>,
    minipools: map<string, Minipool>,
    timezones: map<string, NetworkNodeTimezone>,
    nodeStakeTransactions: map<string, NodeRPLStakeTransaction>,
    networkNodeCheckpoints: map<string, NetworkNodeBalanceCheckpoint>,
    nodeCheckpoints: map<string, NodeBalanceCheckpoint>,
    rewardIntervals: map<string, RPLRewardInterval>,
    rewardClaims: map<string, RPLRewardClaim>)

  /** The transaction hash, log index, block number and block time of the
      event being handled. */
  datatype EventInfo = EventInfo(txHash: string, logIndex: nat, block: int, blockTime: int) {

    /** The id of the entities rooted at this event. */
    function Id(): string {
      EventEntityId(txHash, logIndex)
    }
  }

  /** Every entity is stored under its own id. */
  ghost predicate NodesKeyed(nodes: map<string, Node>) {
    forall k :: k in nodes ==> nodes[k].id == k
  }
}

=== FILE: fixed_point.dfy ===
/** Arbitrary-precision integer arithmetic as the indexer performs it: BigInt
    division truncates toward zero, and wei-denominated products are scaled
    back by the fixed-point constant ONE_ETHER_IN_WEI. */
module FixedPoint {

  /** ONE_ETHER_IN_WEI: one ether expressed in wei, the fixed-point scale. */
  const S: int := 1_000_000_000_000_000_000

  function Abs(x: int): nat {
    if x < 0 then -x else x
  }

  /** The clamp the handlers apply after a subtraction ("if < 0 then 0"). */
  function Max0(x: int): (r: int)
    ensures r >= 0 && r >= x
    ensures r == x || r == 0
  {
    if x < 0 then 0 else x
  }

  /** BigInt.div: the quotient is rounded toward zero (unlike Dafny's `/`,
      whose remainder is never negative). */
  function TDiv(a: int, b: int): (q: int)
    requires b != 0
    ensures a >= 0 && b > 0 ==> q == a / b
    ensures Abs(q) == Abs(a) / Abs(b)
    ensures q < 0 ==> (a < 0) != (b < 0)
  {
    var m := Abs(a) / Abs(b);
    assert m >= 0 by { DivNonNeg(Abs(a), Abs(b)); }
    if (a < 0) == (b < 0) then m else -m
  }

  lemma DivNonNeg(x: nat, y: nat)
    requires y > 0
    ensures x / y >= 0
  {
  }

  /** `x.times(y).div(ONE_ETHER_IN_WEI)`: the product of two fixed-point
      quantities, e.g. an rETH amount valued at an exchange rate. */
  function FixedMul(x: int, y: int): int {
    TDiv(x * y, S)
  }

  lemma MulLeMonotone(a: int, b: int, c: int)
    requires 0 <= c && a <= b
    ensures a * c <= b * c
  {
  }

  /** Euclidean division by a positive divisor is monotone. */
  lemma DivMonotone(a: int, b: int, d: int)
    requires a <= b && d > 0
    ensures a / d <= b / d
  {
    var qa, qb := a / d, b / d;
    assert d * qa <= a;
    assert b < d * (qb + 1);
    MulStrictCancel(qa, qb + 1, d);
  }

  /** Cancelling a positive factor from a strict inequality. */
  lemma MulStrictCancel(x: int, y: int, d: int)
    requires d > 0 && d * x < d * y
    ensures x < y
  {
    if x >= y {
      MulLeMonotone(y, x, d);
    }
  }

  /** Truncating division of a non-negative numerator is monotone. */
  lemma TDivMonotone(a: int, b: int, d: int)
    requires 0 <= a <= b && d > 0
    ensures 0 <= TDiv(a, d) <= TDiv(b, d)
  {
    DivMonotone(a, b, d);
  }

  /** Valuing a non-negative amount at a higher rate never yields less. */
  lemma {:induction false} FixedMulMonotoneInRate(amount: int, rate1: int, rate2: int)
    requires amount >= 0 && 0 <= rate1 <= rate2
    ensures 0 <= FixedMul(amount, rate1) <= FixedMul(amount, rate2)
  {
    MulLeMonotone(rate1, rate2, amount);
    assert amount * rate1 <= amount * rate2;
    TDivMonotone(amount * rate1, amount * rate2, S);
  }

  /** A quotient of a value bracketed by `n * lo` and `n * hi` lies in [lo, hi]:
      an integer average lies between the smallest and the largest term. */
  lemma DivBetween(sum: int, n: int, lo: int, hi: int)
    requires n > 0 && sum >= 0
    requires n * lo <= sum <= n * hi
    ensures lo <= sum / n <= hi
  {
    var q := sum / n;
    assert n * q <= sum < n * (q + 1);
    MulStrictCancel(lo, q + 1, n);
    MulStrictCancel(q, hi + 1, n);
  }

  /** Sum of a sequence of amounts, first to last. */
  function Sum(xs: seq<int>): int {
    if |xs| == 0 then 0 else xs[0] + Sum(xs[1..])
  }
}

=== FILE: general_utilities.dfy ===
/** Shared helpers (src/utilities/generalutilities.ts): identifiers of indexed
    entities, the duplicate-free id lists the protocol keeps, and the staker
    ETH held by the rETH contract. */
module GeneralUtilities {
  import opened Wrappers

  /** ZERO_ADDRESS_STRING: the hexadecimal text of the zero address. */
  const ZERO_ADDRESS: string := "0x0000000000000000000000000000000000000000"

  predicate IsDigit(c: char) {
    '0' <= c <= '9'
  }

  predicate AllDigits(s: string) {
    forall i :: 0 <= i < |s| ==> IsDigit(s[i])
  }

  function DigitValue(c: char): nat
    requires IsDigit(c)
  {
    (c as int) - ('0' as int)
  }

  function DigitChar(d: nat): (c: char)
    requires d < 10
    ensures IsDigit(c) && DigitValue(c) == d
  {
    "0123456789"[d]
  }

  /** BigInt.toString(): the decimal text of a non-negative number. */
  function DecimalString(n: nat): (s: string)
    ensures |s| >= 1 && AllDigits(s)
  {
    if n < 10 then [DigitChar(n)] else DecimalString(n / 10) + [DigitChar(n % 10)]
  }

  /** Reads decimal text back as a number. */
  function ParseDecimal(s: string): nat
    requires AllDigits(s)
  {
    if |s| == 0 then 0 else 10 * ParseDecimal(s[..|s| - 1]) + DigitValue(s[|s| - 1])
  }

  /** The decimal text of a log index reads back as the same number. */
  lemma {:induction false} ParseDecimalRoundTrip(n: nat)
    ensures ParseDecimal(DecimalString(n)) == n
  {
    if n >= 10 {
      var s := DecimalString(n);
      assert s[..|s| - 1] == DecimalString(n / 10);
      ParseDecimalRoundTrip(n / 10);
    }
  }

  /** Position of the first occurrence of `c` in `s`, if any. */
  function IndexOf(s: string, c: char): (r: Option<nat>)
    ensures r.Some? ==> r.value < |s| && s[r.value] == c && c !in s[..r.value]
    ensures r.None? <==> c !in s
  {
    if |s| == 0 then None
    else if s[0] == c then Some(0)
    else
      match IndexOf(s[1..], c)
      case None => None
      case Some(i) =>
        assert s[..i + 1] == [s[0]] + s[1..][..i];
        Some(i + 1)
  }

  /** Splits `s` at its first `c` into the text before and the text after. */
  function SplitAtFirst(s: string, c: char): Option<(string, string)> {
    match IndexOf(s, c)
    case None => None
    case Some(i) => Some((s[..i], s[i + 1..]))
  }

  /** extractIdForEntity: `txHash + "-" + logIndex`, the id of every
      event-rooted entity. */
  function EventEntityId(txHash: string, logIndex: nat): string {
    txHash + "-" + DecimalString(logIndex)
  }

  /** A transaction hash written in hexadecimal never contains a dash, so the
      first dash of an event id separates the hash from the log index. */
  lemma EventEntityIdRoundTrip(txHash: string, logIndex: nat)
    requires '-' !in txHash
    ensures SplitAtFirst(EventEntityId(txHash, logIndex), '-') == Some((txHash, DecimalString(logIndex)))
    ensures ParseDecimal(DecimalString(logIndex)) == logIndex
  {
    var id := EventEntityId(txHash, logIndex);
    assert id[|txHash|] == '-';
    var k := IndexOf(id, '-').value;
    assert k == |txHash|;
    assert id[..k] == txHash;
    assert id[k + 1..] == DecimalString(logIndex);
    ParseDecimalRoundTrip(logIndex);
  }

  /** Distinct events (transaction hash, log index) get distinct ids. */
  lemma EventEntityIdInjective(h1: string, i1: nat, h2: string, i2: nat)
    requires '-' !in h1 && '-' !in h2
    ensures EventEntityId(h1, i1) == EventEntityId(h2, i2) <==> h1 == h2 && i1 == i2
  {
    EventEntityIdRoundTrip(h1, i1);
    EventEntityIdRoundTrip(h2, i2);
  }

  /** `checkpointId + " - " + participantId`: the id of a per-participant
      checkpoint taken at a network checkpoint. */
  function CompositeId(checkpointId: string, participantId: string): string {
    checkpointId + " - " + participantId
  }

  /** The per-participant checkpoints of one network checkpoint get distinct ids. */
  lemma CompositeIdInjective(checkpointId: string, p1: string, p2: string)
    ensures CompositeId(checkpointId, p1) == CompositeId(checkpointId, p2) <==> p1 == p2
  {
    var prefix := checkpointId + " - ";
    if CompositeId(checkpointId, p1) == CompositeId(checkpointId, p2) {
      assert p1 == CompositeId(checkpointId, p1)[|prefix|..];
      assert p2 == CompositeId(checkpointId, p2)[|prefix|..];
    }
  }

  predicate NoDuplicates<T(==)>(xs: seq<T>) {
    forall i, j :: 0 <= i < j < |xs| ==> xs[i] != xs[j]
  }

  /** A list without repeats splits into a head that its tail does not hold
      and a tail without repeats. */
  lemma NoDuplicatesTail<T>(xs: seq<T>)
    requires |xs| > 0 && NoDuplicates(xs)
    ensures NoDuplicates(xs[1..]) && xs[0] !in xs[1..]
  {
    var rest := xs[1..];
    forall i, j | 0 <= i < j < |rest| ensures rest[i] != rest[j] {
      assert rest[i] == xs[i + 1] && rest[j] == xs[j + 1];
    }
    forall i | 0 <= i < |rest| ensures rest[i] != xs[0] {
      assert rest[i] == xs[i + 1];
    }
  }

  /** `if (xs.indexOf(x) == -1) xs.push(x)`: the id lists of the protocol and
      of a node never hold an id twice. */
  function AppendIfAbsent(xs: seq<string>, x: string): (r: seq<string>)
    ensures x in r
    ensures forall y :: y in r <==> y in xs || y == x
    ensures |xs| <= |r| <= |xs| + 1 && r[..|xs|] == xs
    ensures NoDuplicates(xs) ==> NoDuplicates(r)
  {
    if x in xs then xs else xs + [x]
  }

  /** getRocketETHBalance: the rETH contract holds the total collateral minus
      the excess deposit pool balance, never less than zero. */
  function GetRocketETHBalance(depositPoolExcess: int, rocketETHTotalCollateral: int): (r: int)
    ensures r >= 0
    ensures rocketETHTotalCollateral >= depositPoolExcess ==> r == rocketETHTotalCollateral - depositPoolExcess
    ensures rocketETHTotalCollateral < depositPoolExcess ==> r == 0
  {
    var held := rocketETHTotalCollateral - depositPoolExcess;
    if held < 0 then 0 else held
  }

  /** More collateral, or less excess in the deposit pool, never lowers the
      ETH attributed to the rETH contract. */
  lemma RocketETHBalanceMonotone(excess1: int, collateral1: int, excess2: int, collateral2: int)
    requires excess2 <= excess1 && collateral1 <= collateral2
    ensures GetRocketETHBalance(excess1, collateral1) <= GetRocketETHBalance(excess2, collateral2)
    ensures GetRocketETHBalance(excess2, collateral2) - GetRocketETHBalance(excess1, collateral1)
            <= (collateral2 - collateral1) + (excess1 - excess2)
  {
  }
}

=== FILE: indexer.dfy ===
/** The indexer as a whole: every event the mappings subscribe to, handled
    by the corresponding handler, and the store invariants that every
    handler keeps. The invariants are what the ranking and the checkpoint
    folds rely on: nodes are stored under their own ids, the protocol lists
    each indexed node exactly once, and the checkpoint and interval chains
    are well formed. */
module Indexer {
  import opened Wrappers
  import opened GeneralUtilities
  import opened Entities
  import opened NodeAccounting
  import opened NetworkBalances
  import opened RETHTransfers
  import opened NodeStaking
  import opened DAONodeTrusted
  import opened NodeManager
  import opened MinipoolManager
  import opened Ranking
  import opened RewardsPool
  import opened NetworkPrices

  /** The events, each with the block data and the contract reads its
      handler uses. */
  datatype Event =
    | RocketETHTransfer(info: EventInfo, from: string, to: string, amount: int, exchangeRate: int)
    | BalancesUpdated(info: EventInfo, balances: BalancesReads)
    | PricesUpdated(info: EventInfo, rplPrice: int, prices: PricesReads)
    | NodeRegistered(info: EventInfo, nodeId: string, timezone: Option<string>)
    | NodeTimezoneLocationChanged(info: EventInfo, nodeId: string, timezone: Option<string>)
    | StakeTransaction(info: EventInfo, stakeEvent: StakeEvent, rplPrice: int, stakeBalances: StakeBalances)
    | MinipoolCreated(minipoolId: string, nodeId: string, fee: int, reading: StakeReading)
    | MinipoolDestroyed(minipoolId: string, nodeId: string, reading: StakeReading, blockTime: int)
    | StakingMinipoolCountIncremented(from: string, blockTime: int)
    | StakingMinipoolCountDecremented(from: string, blockTime: int)
    | FinalisedMinipoolCountIncremented(from: string, blockTime: int, reading: StakeReading)
    | UnbondedValidatorCountIncremented(from: string, minipoolManager: string, nodeId: string)
    | UnbondedValidatorCountDecremented(from: string, nodeId: string)
    | RPLTokensClaimed(info: EventInfo, claim: ClaimEvent, rewards: RewardsReads, intervalIdPrefix: string)

  /** The store before any event: the protocol entity and nothing else. */
  const EmptyState := State(InitialProtocol, map[], map[], map[], map[], map[], map[], map[], map[], map[], map[], map[], map[])

  /** Dispatches one event to its handler. */
  function Apply(state: State, e: Event): State {
    match e
    case RocketETHTransfer(info, from, to, amount, exchangeRate) => HandleTransfer(state, info, from, to, amount, exchangeRate)
    case BalancesUpdated(info, balances) => HandleBalancesUpdated(state, info, balances)
    case PricesUpdated(info, rplPrice, prices) => HandlePricesUpdated(state, info, rplPrice, prices)
    case NodeRegistered(info, nodeId, timezone) => HandleNodeRegister(state, info, nodeId, timezone)
    case NodeTimezoneLocationChanged(info, nodeId, timezone) => HandleNodeTimezoneChanged(state, info, nodeId, timezone)
    case StakeTransaction(info, stakeEvent, rplPrice, stakeBalances) => HandleStakeEvent(state, info, stakeEvent, rplPrice, stakeBalances)
    case MinipoolCreated(minipoolId, nodeId, fee, reading) => HandleMinipoolCreated(state, minipoolId, nodeId, fee, reading)
    case MinipoolDestroyed(minipoolId, nodeId, reading, blockTime) =>
      HandleMinipoolDestroyed(state, minipoolId, nodeId, reading, blockTime)
    case StakingMinipoolCountIncremented(from, blockTime) => HandleIncrementNodeStakingMinipoolCount(state, from, blockTime)
    case StakingMinipoolCountDecremented(from, blockTime) => HandleDecrementNodeStakingMinipoolCount(state, from, blockTime)
    case FinalisedMinipoolCountIncremented(from, blockTime, reading) => HandleFinalised(state, from, blockTime, reading)
    case UnbondedValidatorCountIncremented(from, minipoolManager, nodeId) =>
      HandleIncrementMemberUnbondedValidatorCount(state, from, minipoolManager, nodeId)
    case UnbondedValidatorCountDecremented(from, nodeId) => HandleDecrementMemberUnbondedValidatorCount(state, from, nodeId)
    case RPLTokensClaimed(info, claim, rewards, intervalIdPrefix) =>
      HandleRPLTokensClaimed(state, info, claim, rewards, intervalIdPrefix)
  }

  /** Handles the events in order. */
  function ApplyAll(state: State, events: seq<Event>): State
    decreases |events|
  {
    if |events| == 0 then state else ApplyAll(Apply(state, events[0]), events[1..])
  }

  /** The protocol lists exactly the indexed nodes, each once. */
  ghost predicate NodesListed(state: State) {
    && NoDuplicates(state.protocol.nodes)
    && (forall k :: k in state.protocol.nodes <==> k in state.nodes)
  }

  /** Every minipool belongs to an indexed node. */
  ghost predicate MinipoolsOwned(state: State) {
    forall m :: m in state.minipools ==> state.minipools[m].node in state.nodes
  }

  /** The store invariants every handler keeps. */
  ghost predicate Consistent(state: State) {
    && NodesKeyed(state.nodes)
    && NodesListed(state)
    && MinipoolsOwned(state)
    && TimezonesCountNodes(state.nodes, state.timezones)
    && StakerChainWellFormed(state.protocol, state.networkStakerCheckpoints)
    && NodeChainWellFormed(state.protocol, state.networkNodeCheckpoints)
    && IntervalLedgerWellFormed(state)
  }

  /** Two node maps over the same ids whose nodes sit in the same
      timezones agree with the same timezone counts. */
  lemma {:induction false} SameTimezonesKeepCounts(nodes: map<string, Node>, nodes': map<string, Node>, timezones: map<string, NetworkNodeTimezone>)
    requires TimezonesCountNodes(nodes, timezones)
    requires nodes'.Keys == nodes.Keys
    requires forall k :: k in nodes ==> nodes'[k].timezone == nodes[k].timezone
    ensures TimezonesCountNodes(nodes', timezones)
  {
    forall tz | tz in timezones ensures timezones[tz].totalRegisteredNodes == |NodesIn(nodes', tz)| {
      assert NodesIn(nodes', tz) == NodesIn(nodes, tz);
    }
  }

  /** The empty store is consistent. */
  lemma EmptyStateConsistent()
    ensures Consistent(EmptyState)
  {
  }

  /** A handler that changes nodes only in place, keeping each node's id and
      timezone, and touches neither minipool owners, the protocol, the
      timezones nor the chains, keeps the store consistent. */
  lemma {:induction false} InPlaceNodeChangeKeepsConsistent(state: State, r: State)
    requires Consistent(state)
    requires r.nodes.Keys == state.nodes.Keys
    requires forall k :: k in state.nodes ==> r.nodes[k].id == state.nodes[k].id && r.nodes[k].timezone == state.nodes[k].timezone
    requires forall m :: m in r.minipools ==> m in state.minipools && r.minipools[m].node == state.minipools[m].node
    requires r.protocol == state.protocol && r.timezones == state.timezones
    requires r.networkStakerCheckpoints == state.networkStakerCheckpoints
    requires r.networkNodeCheckpoints == state.networkNodeCheckpoints
    requires r.rewardIntervals == state.rewardIntervals
    ensures Consistent(r)
  {
    SameTimezonesKeepCounts(state.nodes, r.nodes, state.timezones);
  }

  /** Minipool creation adds a minipool owned by an indexed node. */
  lemma {:induction false} MinipoolCreatedKeepsConsistent(state: State, minipoolId: string, nodeId: string, fee: int, reading: StakeReading)
    requires Consistent(state)
    ensures Consistent(HandleMinipoolCreated(state, minipoolId, nodeId, fee, reading))
  {
    var r := HandleMinipoolCreated(state, minipoolId, nodeId, fee, reading);
    if minipoolId !in state.minipools && nodeId in state.nodes {
      SameTimezonesKeepCounts(state.nodes, r.nodes, state.timezones);
    }
  }

  /** A price update refreshes stake figures and snapshot links only. */
  lemma {:induction false} PricesUpdatedKeepsConsistent(state: State, event: EventInfo, rplPrice: int, chain: PricesReads)
    requires Consistent(state)
    ensures Consistent(HandlePricesUpdated(state, event, rplPrice, chain))
  {
    var r := HandlePricesUpdated(state, event, rplPrice, chain);
    PricesUpdatedKeepsChain(state, event, rplPrice, chain);
    var id := event.Id();
    if id !in state.networkNodeCheckpoints {
      var bounds := NewMinipoolBounds(rplPrice, chain);
      var created := NewNetworkNodeBalanceCheckpoint(id, state.protocol.lastNetworkNodeBalanceCheckPoint, bounds,
                                                     rplPrice, chain.newMinipoolFee, event.block, event.blockTime);
      var acc := NodeFold(created, ZeroMetadata, state.nodes, state.nodeCheckpoints);
      NodeSnapshotsLinked(state.protocol.nodes, acc, chain.stakeOf, event.block, event.blockTime);
      assert r.nodes == GenerateNodeBalanceCheckpoints(state.protocol.nodes, acc, chain.stakeOf, event.block, event.blockTime).nodes;
      SameTimezonesKeepCounts(state.nodes, r.nodes, state.timezones);
    }
  }

  /** A recognised claim keeps every node's id and timezone: it credits
      one node and re-ranks the listed ones. */
  lemma {:induction false} ClaimKeepsNodePlaces(state: State, event: EventInfo, claim: ClaimEvent, chain: RewardsReads, intervalIdPrefix: string)
    requires NodesKeyed(state.nodes) && NoDuplicates(state.protocol.nodes)
    ensures var r := HandleRPLTokensClaimed(state, event, claim, chain, intervalIdPrefix);
      && r.nodes.Keys == state.nodes.Keys
      && (forall k :: k in state.nodes ==> r.nodes[k].id == k && r.nodes[k].timezone == state.nodes[k].timezone)
  {
    var r := HandleRPLTokensClaimed(state, event, claim, chain, intervalIdPrefix);
    if ClaimerType(claim, chain, state.nodes).Some? {
      var credited := CreditClaimingNode(state.nodes, claim);
      assert NodesKeyed(credited);
      RankUpdateOnlySetsRanks(state.protocol.nodes, credited);
      var ranked := UpdateRPLClaimedRewardRank(state.protocol.nodes, credited);
      assert r.nodes == ranked;
      forall k | k in state.nodes ensures ranked[k].id == k && ranked[k].timezone == state.nodes[k].timezone {
        assert credited[k].timezone == state.nodes[k].timezone;
      }
    }
  }

  /** A claim keeps the store consistent. */
  lemma {:induction false} ClaimKeepsConsistent(state: State, event: EventInfo, claim: ClaimEvent, chain: RewardsReads, intervalIdPrefix: string)
    requires Consistent(state)
    ensures Consistent(HandleRPLTokensClaimed(state, event, claim, chain, intervalIdPrefix))
  {
    var r := HandleRPLTokensClaimed(state, event, claim, chain, intervalIdPrefix);
    ClaimKeepsOneOpenInterval(state, event, claim, chain, intervalIdPrefix);
    ClaimKeepsNodePlaces(state, event, claim, chain, intervalIdPrefix);
    SameTimezonesKeepCounts(state.nodes, r.nodes, state.timezones);
    assert r.protocol.nodes == state.protocol.nodes;
    assert r.protocol.lastNetworkStakerBalanceCheckPoint == state.protocol.lastNetworkStakerBalanceCheckPoint;
    assert r.protocol.lastNetworkNodeBalanceCheckPoint == state.protocol.lastNetworkNodeBalanceCheckPoint;
  }

  /** Registration adds a node, listed once, counted in its timezone. */
  lemma {:induction false} RegisterKeepsConsistent(state: State, event: EventInfo, nodeId: string, reportedTimezone: Option<string>)
    requires Consistent(state)
    ensures Consistent(HandleNodeRegister(state, event, nodeId, reportedTimezone))
  {
    var r := HandleNodeRegister(state, event, nodeId, reportedTimezone);
    RegisterKeepsTimezoneCounts(state, event, nodeId, reportedTimezone);
    if nodeId !in state.nodes {
      assert NodesKeyed(r.nodes);
      assert NodesListed(r);
      assert MinipoolsOwned(r);
      assert r.protocol.lastNetworkStakerBalanceCheckPoint == state.protocol.lastNetworkStakerBalanceCheckPoint;
      assert r.protocol.lastNetworkNodeBalanceCheckPoint == state.protocol.lastNetworkNodeBalanceCheckPoint;
      assert r.protocol.lastRPLRewardInterval == state.protocol.lastRPLRewardInterval;
      assert StakerChainWellFormed(r.protocol, r.networkStakerCheckpoints);
      assert NodeChainWellFormed(r.protocol, r.networkNodeCheckpoints);
      assert IntervalLedgerWellFormed(r);
    }
  }

  /** A timezone change moves the node together with its count. */
  lemma {:induction false} TimezoneChangeKeepsConsistent(state: State, event: EventInfo, nodeId: string, reportedTimezone: Option<string>)
    requires Consistent(state)
    ensures Consistent(HandleNodeTimezoneChanged(state, event, nodeId, reportedTimezone))
  {
    TimezoneChangeKeepsTimezoneCounts(state, event, nodeId, reportedTimezone);
  }

  /** The remaining handlers change nodes and minipools only in place. */
  lemma {:induction false} TransferKeepsConsistent(state: State, info: EventInfo, from: string, to: string, amount: int, exchangeRate: int)
    requires Consistent(state)
    ensures Consistent(HandleTransfer(state, info, from, to, amount, exchangeRate))
  {
    var r := HandleTransfer(state, info, from, to, amount, exchangeRate);
    assert r.protocol.lastNetworkStakerBalanceCheckPoint == state.protocol.lastNetworkStakerBalanceCheckPoint;
    assert r.protocol.lastNetworkNodeBalanceCheckPoint == state.protocol.lastNetworkNodeBalanceCheckPoint;
    assert r.protocol.lastRPLRewardInterval == state.protocol.lastRPLRewardInterval;
    assert r.protocol.nodes == state.protocol.nodes;
  }

  lemma {:induction false} BalancesKeepConsistent(state: State, info: EventInfo, balances: BalancesReads)
    requires Consistent(state)
    ensures Consistent(HandleBalancesUpdated(state, info, balances))
  {
    BalancesUpdatedKeepsChain(state, info, balances);
  }

  lemma {:induction false} StakeKeepsConsistent(state: State, info: EventInfo, stakeEvent: StakeEvent, rplPrice: int, balances: StakeBalances)
    requires Consistent(state)
    ensures Consistent(HandleStakeEvent(state, info, stakeEvent, rplPrice, balances))
  {
    var r := HandleStakeEvent(state, info, stakeEvent, rplPrice, balances);
    InPlaceNodeChangeKeepsConsistent(state, r);
  }

  lemma {:induction false} DestroyedKeepsConsistent(state: State, minipoolId: string, nodeId: string, reading: StakeReading, blockTime: int)
    requires Consistent(state)
    ensures Consistent(HandleMinipoolDestroyed(state, minipoolId, nodeId, reading, blockTime))
  {
    InPlaceNodeChangeKeepsConsistent(state, HandleMinipoolDestroyed(state, minipoolId, nodeId, reading, blockTime));
  }

  lemma {:induction false} StakingIncrementKeepsConsistent(state: State, from: string, blockTime: int)
    requires Consistent(state)
    ensures Consistent(HandleIncrementNodeStakingMinipoolCount(state, from, blockTime))
  {
    InPlaceNodeChangeKeepsConsistent(state, HandleIncrementNodeStakingMinipoolCount(state, from, blockTime));
  }

  lemma {:induction false} StakingDecrementKeepsConsistent(state: State, from: string, blockTime: int)
    requires Consistent(state)
    ensures Consistent(HandleDecrementNodeStakingMinipoolCount(state, from, blockTime))
  {
    InPlaceNodeChangeKeepsConsistent(state, HandleDecrementNodeStakingMinipoolCount(state, from, blockTime));
  }

  lemma {:induction false} FinalisedKeepsConsistent(state: State, from: string, blockTime: int, reading: StakeReading)
    requires Consistent(state)
    ensures Consistent(HandleFinalised(state, from, blockTime, reading))
  {
    InPlaceNodeChangeKeepsConsistent(state, HandleFinalised(state, from, blockTime, reading));
  }

  lemma {:induction false} UnbondedIncrementKeepsConsistent(state: State, from: string, minipoolManager: string, nodeId: string)
    requires Consistent(state)
    ensures Consistent(HandleIncrementMemberUnbondedValidatorCount(state, from, minipoolManager, nodeId))
  {
    InPlaceNodeChangeKeepsConsistent(state, HandleIncrementMemberUnbondedValidatorCount(state, from, minipoolManager, nodeId));
  }

  lemma {:induction false} UnbondedDecrementKeepsConsistent(state: State, from: string, nodeId: string)
    requires Consistent(state)
    ensures Consistent(HandleDecrementMemberUnbondedValidatorCount(state, from, nodeId))
  {
    InPlaceNodeChangeKeepsConsistent(state, HandleDecrementMemberUnbondedValidatorCount(state, from, nodeId));
  }

  /** Every event keeps the store consistent. */
  lemma {:induction false} ApplyKeepsConsistent(state: State, e: Event)
    requires Consistent(state)
    ensures Consistent(Apply(state, e))
  {
    match e
    case RocketETHTransfer(info, from, to, amount, exchangeRate) =>
      TransferKeepsConsistent(state, info, from, to, amount, exchangeRate);
    case BalancesUpdated(info, balances) =>
      BalancesKeepConsistent(state, info, balances);
    case PricesUpdated(info, rplPrice, prices) =>
      PricesUpdatedKeepsConsistent(state, info, rplPrice, prices);
    case NodeRegistered(info, nodeId, timezone) =>
      RegisterKeepsConsistent(state, info, nodeId, timezone);
    case NodeTimezoneLocationChanged(info, nodeId, timezone) =>
      TimezoneChangeKeepsConsistent(state, info, nodeId, timezone);
    case StakeTransaction(info, stakeEvent, rplPrice, stakeBalances) =>
      StakeKeepsConsistent(state, info, stakeEvent, rplPrice, stakeBalances);
    case MinipoolCreated(minipoolId, nodeId, fee, reading) =>
      MinipoolCreatedKeepsConsistent(state, minipoolId, nodeId, fee, reading);
    case MinipoolDestroyed(minipoolId, nodeId, reading, blockTime) =>
      DestroyedKeepsConsistent(state, minipoolId, nodeId, reading, blockTime);
    case StakingMinipoolCountIncremented(from, blockTime) =>
      StakingIncrementKeepsConsistent(state, from, blockTime);
    case StakingMinipoolCountDecremented(from, blockTime) =>
      StakingDecrementKeepsConsistent(state, from, blockTime);
    case FinalisedMinipoolCountIncremented(from, blockTime, reading) =>
      FinalisedKeepsConsistent(state, from, blockTime, reading);
    case UnbondedValidatorCountIncremented(from, minipoolManager, nodeId) =>
      UnbondedIncrementKeepsConsistent(state, from, minipoolManager, nodeId);
    case UnbondedValidatorCountDecremented(from, nodeId) =>
      UnbondedDecrementKeepsConsistent(state, from, nodeId);
    case RPLTokensClaimed(info, claim, rewards, intervalIdPrefix) =>
      ClaimKeepsConsistent(state, info, claim, rewards, intervalIdPrefix);
  }

  /** Every reachable store is consistent: the ranking and the checkpoint
      folds always run on nodes stored under their own ids and listed once. */
  lemma {:induction false} ApplyAllKeepsConsistent(state: State, events: seq<Event>)
    requires Consistent(state)
    ensures Consistent(ApplyAll(state, events))
    decreases |events|
  {
    if |events| > 0 {
      ApplyKeepsConsistent(state, events[0]);
      ApplyAllKeepsConsistent(Apply(state, events[0]), events[1..]);
    }
  }

  /** After any history, a recognised claim gives every indexed node a rank
      between 1 and the number of nodes the protocol lists. */
  lemma {:induction false} ReachableClaimRanksAllNodes(events: seq<Event>, event: EventInfo, claim: ClaimEvent, chain: RewardsReads,
                                                       intervalIdPrefix: string)
    requires ClaimerType(claim, chain, ApplyAll(EmptyState, events).nodes).Some?
    ensures var state := ApplyAll(EmptyState, events);
      var r := HandleRPLTokensClaimed(state, event, claim, chain, intervalIdPrefix);
      && r.nodes.Keys == state.nodes.Keys
      && (forall k :: k in r.nodes ==> 1 <= r.nodes[k].totalRPLClaimedRewardsRank <= |state.protocol.nodes|)
  {
    EmptyStateConsistent();
    ApplyAllKeepsConsistent(EmptyState, events);
    var state := ApplyAll(EmptyState, events);
    var credited := CreditClaimingNode(state.nodes, claim);
    assert NodesKeyed(credited);
    RankUpdateOnlySetsRanks(state.protocol.nodes, credited);
  }
}

=== FILE: minipool_manager.dfy ===
/** Minipool lifecycle (src/mappings/rocketMinipoolManagerMapping.ts):
    creation, destruction and the staking, withdrawable and finalised
    transitions, each keeping the owning node's per-state counters and its
    average fee over active minipools. */
module MinipoolManager {
  import opened Wrappers
  import opened FixedPoint
  import opened GeneralUtilities
  import opened Entities
  import opened NodeAccounting

  /** A minipool counts towards the average while it is indexed and neither
      finalised nor destroyed (a zero time means "not yet"). */
  predicate IsActive(minipools: map<string, Minipool>, id: string) {
    id in minipools && minipools[id].finalizedBlockTime == 0 && minipools[id].destroyedBlockTime == 0
  }

  /** The summed fee and the number of the active minipools among `ids`. */
  datatype FeeTally = FeeTally(totalFee: int, activeCount: nat)

  function ActiveFeeTally(ids: seq<string>, minipools: map<string, Minipool>): (t: FeeTally)
    ensures t.activeCount <= |ids|
    decreases |ids|
  {
    if |ids| == 0 then FeeTally(0, 0)
    else
      var rest := ActiveFeeTally(ids[1..], minipools);
      if IsActive(minipools, ids[0]) then FeeTally(minipools[ids[0]].fee + rest.totalFee, rest.activeCount + 1)
      else rest
  }

  /** setAverageFeeForActiveMinipools: the truncated mean fee of the active
      minipools, or 0 when there is none or their fees sum to nothing. */
  function AverageFeeForActiveMinipools(ids: seq<string>, minipools: map<string, Minipool>): (average: int)
    ensures |ids| == 0 ==> average == 0
    ensures var t := ActiveFeeTally(ids, minipools);
      if t.activeCount > 0 && t.totalFee > 0 then
        average * t.activeCount <= t.totalFee < (average + 1) * t.activeCount
      else average == 0
  {
    var t := ActiveFeeTally(ids, minipools);
    if t.activeCount > 0 && t.totalFee > 0 then TDiv(t.totalFee, t.activeCount) else 0
  }

  /** Every active minipool among `ids` has a fee within [lo, hi]. */
  ghost predicate ActiveFeesWithin(ids: seq<string>, minipools: map<string, Minipool>, lo: int, hi: int) {
    forall i :: 0 <= i < |ids| && IsActive(minipools, ids[i]) ==> lo <= minipools[ids[i]].fee <= hi
  }

  lemma {:induction false} ActiveFeeTallyBounds(ids: seq<string>, minipools: map<string, Minipool>, lo: int, hi: int)
    requires ActiveFeesWithin(ids, minipools, lo, hi)
    ensures var t := ActiveFeeTally(ids, minipools);
      t.activeCount * lo <= t.totalFee <= t.activeCount * hi
    ensures ActiveFeeTally(ids, minipools).activeCount > 0 <==> exists i :: 0 <= i < |ids| && IsActive(minipools, ids[i])
    decreases |ids|
  {
    if |ids| > 0 {
      assert ActiveFeesWithin(ids[1..], minipools, lo, hi) by {
        forall i | 0 <= i < |ids[1..]| && IsActive(minipools, ids[1..][i])
          ensures lo <= minipools[ids[1..][i]].fee <= hi
        {
          assert ids[1..][i] == ids[i + 1];
        }
      }
      ActiveFeeTallyBounds(ids[1..], minipools, lo, hi);
      var rest := ActiveFeeTally(ids[1..], minipools);
      assert (rest.activeCount + 1) * lo == rest.activeCount * lo + lo;
      assert (rest.activeCount + 1) * hi == rest.activeCount * hi + hi;
      if exists i :: 0 <= i < |ids| && IsActive(minipools, ids[i]) {
        var i :| 0 <= i < |ids| && IsActive(minipools, ids[i]);
        if i > 0 { assert ids[1..][i - 1] == ids[i]; }
      }
      if exists i :: 0 <= i < |ids[1..]| && IsActive(minipools, ids[1..][i]) {
        var i :| 0 <= i < |ids[1..]| && IsActive(minipools, ids[1..][i]);
        assert ids[i + 1] == ids[1..][i];
      }
    }
  }

  /** The average fee lies between the smallest and the largest fee of the
      active minipools. */
  lemma {:induction false} AverageFeeWithinActiveFees(ids: seq<string>, minipools: map<string, Minipool>, lo: int, hi: int)
    requires 0 <= lo && ActiveFeesWithin(ids, minipools, lo, hi)
    requires exists i :: 0 <= i < |ids| && IsActive(minipools, ids[i])
    ensures lo <= AverageFeeForActiveMinipools(ids, minipools) <= hi
  {
    ActiveFeeTallyBounds(ids, minipools, lo, hi);
    var t := ActiveFeeTally(ids, minipools);
    MulLeMonotone(0, lo, t.activeCount);
    if t.totalFee > 0 {
      DivBetween(t.totalFee, t.activeCount, lo, hi);
    } else {
      MulLeMonotone(1, t.activeCount, lo);
      MulLeMonotone(lo, hi, t.activeCount);
    }
  }

  /** Two active minipools of fee 0.05 and 0.15 and a finalised one of fee
      0.20 average to 0.10. */
  lemma AverageFeeExample(minipools: map<string, Minipool>)
    requires "a" in minipools && "b" in minipools && "c" in minipools
    requires minipools["a"].fee == 5 * S / 100 && minipools["a"].finalizedBlockTime == 0 && minipools["a"].destroyedBlockTime == 0
    requires minipools["b"].fee == 15 * S / 100 && minipools["b"].finalizedBlockTime == 0 && minipools["b"].destroyedBlockTime == 0
    requires minipools["c"].fee == 20 * S / 100 && minipools["c"].finalizedBlockTime != 0
    ensures AverageFeeForActiveMinipools(["a", "b", "c"], minipools) == 10 * S / 100
  {
    assert ["a", "b", "c"][1..] == ["b", "c"];
    assert ["b", "c"][1..] == ["c"];
    assert ["c"][1..] == [];
  }

  /** Marking an active minipool destroyed takes exactly its fee and one
      minipool out of the tally of a list that holds it once. */
  lemma {:induction false} DestroyLeavesTally(ids: seq<string>, minipools: map<string, Minipool>, id: string, time: int)
    requires NoDuplicates(ids) && id in ids && IsActive(minipools, id) && time != 0
    ensures var before, after := ActiveFeeTally(ids, minipools),
                                 ActiveFeeTally(ids, minipools[id := minipools[id].(destroyedBlockTime := time)]);
      after.activeCount + 1 == before.activeCount && after.totalFee + minipools[id].fee == before.totalFee
    decreases |ids|
  {
    var changed := minipools[id := minipools[id].(destroyedBlockTime := time)];
    assert NoDuplicates(ids[1..]);
    if ids[0] == id {
      assert id !in ids[1..] by {
        forall j | 0 <= j < |ids[1..]| ensures ids[1..][j] != id { assert ids[1..][j] == ids[j + 1]; }
      }
      TallyIgnoresOtherIds(ids[1..], minipools, changed);
    } else {
      DestroyLeavesTally(ids[1..], minipools, id, time);
    }
  }

  /** The tally only looks at the minipools its ids name. */
  lemma {:induction false} TallyIgnoresOtherIds(ids: seq<string>, m1: map<string, Minipool>, m2: map<string, Minipool>)
    requires forall id :: id in ids ==> (id in m1 <==> id in m2) && (id in m1 ==> m1[id] == m2[id])
    ensures ActiveFeeTally(ids, m1) == ActiveFeeTally(ids, m2)
    decreases |ids|
  {
    if |ids| > 0 {
      TallyIgnoresOtherIds(ids[1..], m1, m2);
    }
  }

  /** The node's per-state minipool counters are never negative. */
  predicate CountersNonNegative(node: Node) {
    node.queuedMinipools >= 0 && node.stakingMinipools >= 0 && node.stakingUnbondedMinipools >= 0
    && node.withdrawableMinipools >= 0 && node.totalFinalizedMinipools >= 0
  }

  /** handleMinipoolCreated: a minipool id already indexed, or a node that is
      not, leaves the state as it is. Otherwise the minipool is stored with
      the current network fee, its id joins the node's list once, and the
      node's stake figures and average fee are refreshed. */
  function HandleMinipoolCreated(state: State, minipoolId: string, nodeId: string, fee: int, reading: StakeReading): (r: State)
    ensures r.nodes.Keys == state.nodes.Keys
    ensures minipoolId in state.minipools || nodeId !in state.nodes ==> r == state
    ensures minipoolId !in state.minipools && nodeId in state.nodes ==>
      var node, node' := state.nodes[nodeId], r.nodes[nodeId];
      && r.minipools == state.minipools[minipoolId := Minipool(minipoolId, nodeId, fee, 0, 0, 0, 0)]
      && r.nodes == state.nodes[nodeId := node']
      && node'.minipools == AppendIfAbsent(node.minipools, minipoolId)
      && (NoDuplicates(node.minipools) ==> NoDuplicates(node'.minipools))
      && node'.averageFeeForActiveMinipools == AverageFeeForActiveMinipools(node'.minipools, r.minipools)
      && node' == SetEffectiveRPLStaked(node, reading).(minipools := node'.minipools,
                                                        averageFeeForActiveMinipools := node'.averageFeeForActiveMinipools)
      && r == state.(nodes := r.nodes, minipools := r.minipools)
  {
    if minipoolId in state.minipools || nodeId !in state.nodes then state
    else
      var minipool := Minipool(minipoolId, nodeId, fee, 0, 0, 0, 0);
      var minipools := state.minipools[minipoolId := minipool];
      var node := state.nodes[nodeId];
      var listed := SetEffectiveRPLStaked(node.(minipools := AppendIfAbsent(node.minipools, minipoolId)), reading);
      var averaged := listed.(averageFeeForActiveMinipools := AverageFeeForActiveMinipools(listed.minipools, minipools));
      state.(nodes := state.nodes[nodeId := averaged], minipools := minipools)
  }

  /** handleMinipoolDestroyed as written: the node's average fee is
      recomputed while the minipool still looks active, and only then is its
      destroyed time set. */
  function HandleMinipoolDestroyedAsWritten(state: State, minipoolId: string, nodeId: string, reading: StakeReading, blockTime: int)
    : (r: State)
    ensures r.nodes.Keys == state.nodes.Keys
    ensures r.minipools.Keys == state.minipools.Keys
    ensures minipoolId !in state.minipools || nodeId !in state.nodes ==> r == state
    ensures minipoolId in state.minipools && nodeId in state.nodes ==>
      && r.nodes[nodeId].averageFeeForActiveMinipools
         == AverageFeeForActiveMinipools(state.nodes[nodeId].minipools, state.minipools)
      && r.minipools[minipoolId].destroyedBlockTime == blockTime
      && r.minipools == state.minipools[minipoolId := state.minipools[minipoolId].(destroyedBlockTime := blockTime)]
      && r.nodes == state.nodes[nodeId := r.nodes[nodeId]]
      && r.nodes[nodeId] == SetEffectiveRPLStaked(state.nodes[nodeId], reading).(
           averageFeeForActiveMinipools := r.nodes[nodeId].averageFeeForActiveMinipools)
      && r == state.(nodes := r.nodes, minipools := r.minipools)
  {
    if minipoolId !in state.minipools || nodeId !in state.nodes then state
    else
      var node := SetEffectiveRPLStaked(state.nodes[nodeId], reading);
      var averaged := node.(averageFeeForActiveMinipools := AverageFeeForActiveMinipools(node.minipools, state.minipools));
      var destroyed := state.minipools[minipoolId].(destroyedBlockTime := blockTime);
      state.(nodes := state.nodes[nodeId := averaged], minipools := state.minipools[minipoolId := destroyed])
  }

  /** handleMinipoolDestroyed with the average taken over the minipools as
      they stand after the destruction, so the destroyed minipool no longer
      counts. */
  function HandleMinipoolDestroyed(state: State, minipoolId: string, nodeId: string, reading: StakeReading, blockTime: int)
    : (r: State)
    ensures r.nodes.Keys == state.nodes.Keys
    ensures r.minipools.Keys == state.minipools.Keys
    ensures minipoolId !in state.minipools || nodeId !in state.nodes ==> r == state
    ensures minipoolId in state.minipools && nodeId in state.nodes ==>
      && r.minipools == state.minipools[minipoolId := state.minipools[minipoolId].(destroyedBlockTime := blockTime)]
      && r.nodes == state.nodes[nodeId := r.nodes[nodeId]]
      && r.nodes[nodeId].averageFeeForActiveMinipools
         == AverageFeeForActiveMinipools(state.nodes[nodeId].minipools, r.minipools)
      && (blockTime != 0 ==> !IsActive(r.minipools, minipoolId))
      && r.nodes[nodeId] == SetEffectiveRPLStaked(state.nodes[nodeId], reading).(
           averageFeeForActiveMinipools := r.nodes[nodeId].averageFeeForActiveMinipools)
      && r == state.(nodes := r.nodes, minipools := r.minipools)
  {
    if minipoolId !in state.minipools || nodeId !in state.nodes then state
    else
      var destroyed := state.minipools[minipoolId].(destroyedBlockTime := blockTime);
      var minipools := state.minipools[minipoolId := destroyed];
      var node := SetEffectiveRPLStaked(state.nodes[nodeId], reading);
      var averaged := node.(averageFeeForActiveMinipools := AverageFeeForActiveMinipools(node.minipools, minipools));
      state.(nodes := state.nodes[nodeId := averaged], minipools := minipools)
  }

  /** A node with active minipools of fee 10 and 30: destroying the second
      leaves an average of 20 as written, where 10 is the fee of the one
      minipool still active. */
  lemma DestroyAsWrittenCounterexample(state: State, reading: StakeReading)
    requires "n" in state.nodes && state.nodes["n"].minipools == ["a", "b"]
    requires state.minipools == map["a" := Minipool("a", "n", 10, 0, 0, 0, 0), "b" := Minipool("b", "n", 30, 0, 0, 0, 0)]
    ensures HandleMinipoolDestroyedAsWritten(state, "b", "n", reading, 5).nodes["n"].averageFeeForActiveMinipools == 20
    ensures HandleMinipoolDestroyed(state, "b", "n", reading, 5).nodes["n"].averageFeeForActiveMinipools == 10
  {
    assert ["a", "b"][1..] == ["b"];
    assert ["b"][1..] == [];
  }

  /** Loads the minipool that made the call and its node. */
  function CallingMinipool(state: State, from: string): Option<(Minipool, Node)> {
    if from in state.minipools && state.minipools[from].node in state.nodes then
      Some((state.minipools[from], state.nodes[state.minipools[from].node]))
    else None
  }

  /** handleIncrementNodeStakingMinipoolCount: the calling minipool records
      its staking time and its node counts one more staking minipool. */
  function HandleIncrementNodeStakingMinipoolCount(state: State, from: string, blockTime: int): (r: State)
    ensures r.nodes.Keys == state.nodes.Keys
    ensures CallingMinipool(state, from).None? ==> r == state
    ensures CallingMinipool(state, from).Some? ==>
      var (minipool, node) := CallingMinipool(state, from).value;
      && r.nodes == state.nodes[minipool.node := node.(stakingMinipools := node.stakingMinipools + 1)]
      && r.minipools == state.minipools[from := minipool.(stakingBlockTime := blockTime)]
      && r == state.(nodes := r.nodes, minipools := r.minipools)
  {
    match CallingMinipool(state, from)
    case None => state
    case Some((minipool, node)) =>
      state.(nodes := state.nodes[minipool.node := node.(stakingMinipools := node.stakingMinipools + 1)],
             minipools := state.minipools[from := minipool.(stakingBlockTime := blockTime)])
  }

  /** handleDecrementNodeStakingMinipoolCount: the calling minipool records
      its withdrawable time; its node counts one more withdrawable and one
      fewer staking minipool, never fewer than zero. */
  function HandleDecrementNodeStakingMinipoolCount(state: State, from: string, blockTime: int): (r: State)
    ensures r.nodes.Keys == state.nodes.Keys
    ensures CallingMinipool(state, from).None? ==> r == state
    ensures CallingMinipool(state, from).Some? ==>
      var (minipool, node) := CallingMinipool(state, from).value;
      var node' := r.nodes[minipool.node];
      && r.nodes == state.nodes[minipool.node := node']
      && node'.withdrawableMinipools == node.withdrawableMinipools + 1
      && node'.stakingMinipools >= 0
      && (node.stakingMinipools >= 1 ==> node'.stakingMinipools == node.stakingMinipools - 1)
      && (node.stakingMinipools < 1 ==> node'.stakingMinipools == 0)
      && node' == node.(withdrawableMinipools := node'.withdrawableMinipools, stakingMinipools := node'.stakingMinipools)
      && r.minipools == state.minipools[from := minipool.(withdrawableBlockTime := blockTime)]
      && r == state.(nodes := r.nodes, minipools := r.minipools)
  {
    match CallingMinipool(state, from)
    case None => state
    case Some((minipool, node)) =>
      var node' := node.(withdrawableMinipools := node.withdrawableMinipools + 1,
                         stakingMinipools := Max0(node.stakingMinipools - 1));
      state.(nodes := state.nodes[minipool.node := node'],
             minipools := state.minipools[from := minipool.(withdrawableBlockTime := blockTime)])
  }

  /** handleIncrementNodeFinalisedMinipoolCount as written: after counting
      one more finalised minipool, the withdrawable counter is set from the
      finalised count minus one instead of being decremented; and the
      finalised time is not saved before the average fee reloads the
      node's minipools, so that average still counts the finalised one. */
  function HandleFinalisedAsWritten(state: State, from: string, blockTime: int, reading: StakeReading): (r: State)
    ensures r.nodes.Keys == state.nodes.Keys
    ensures CallingMinipool(state, from).None? ==> r == state
    ensures CallingMinipool(state, from).Some? ==>
      var (minipool, node) := CallingMinipool(state, from).value;
      var node' := r.nodes[minipool.node];
      && r.minipools == state.minipools[from := minipool.(finalizedBlockTime := blockTime)]
      && node'.totalFinalizedMinipools == node.totalFinalizedMinipools + 1
      && node'.withdrawableMinipools == Max0(node.totalFinalizedMinipools)
      && node'.averageFeeForActiveMinipools == AverageFeeForActiveMinipools(node.minipools, state.minipools)
      && r.nodes == state.nodes[minipool.node := node']
      && node' == SetEffectiveRPLStaked(node, reading).(
           totalFinalizedMinipools := node'.totalFinalizedMinipools,
           withdrawableMinipools := node'.withdrawableMinipools,
           averageFeeForActiveMinipools := node'.averageFeeForActiveMinipools)
      && r == state.(nodes := r.nodes, minipools := r.minipools)
  {
    match CallingMinipool(state, from)
    case None => state
    case Some((minipool, node)) =>
      var finalised := minipool.(finalizedBlockTime := blockTime);
      var counted := node.(totalFinalizedMinipools := node.totalFinalizedMinipools + 1);
      var node' := SetEffectiveRPLStaked(counted.(withdrawableMinipools := Max0(counted.totalFinalizedMinipools - 1)), reading);
      var averaged := node'.(averageFeeForActiveMinipools := AverageFeeForActiveMinipools(node'.minipools, state.minipools));
      state.(nodes := state.nodes[minipool.node := averaged], minipools := state.minipools[from := finalised])
  }

  /** handleIncrementNodeFinalisedMinipoolCount as its comment describes it:
      the finalised minipool leaves the withdrawable count (never below
      zero) and joins the finalised count; then the stake figures and the
      average fee, without the finalised minipool, are refreshed. */
  function HandleFinalised(state: State, from: string, blockTime: int, reading: StakeReading): (r: State)
    ensures r.nodes.Keys == state.nodes.Keys
    ensures CallingMinipool(state, from).None? ==> r == state
    ensures CallingMinipool(state, from).Some? ==>
      var (minipool, node) := CallingMinipool(state, from).value;
      var node' := r.nodes[minipool.node];
      && r.minipools == state.minipools[from := minipool.(finalizedBlockTime := blockTime)]
      && r.nodes == state.nodes[minipool.node := node']
      && node'.totalFinalizedMinipools == node.totalFinalizedMinipools + 1
      && (node.withdrawableMinipools >= 1 ==>
            node'.withdrawableMinipools + node'.totalFinalizedMinipools
            == node.withdrawableMinipools + node.totalFinalizedMinipools)
      && node'.withdrawableMinipools == Max0(node.withdrawableMinipools - 1)
      && node'.averageFeeForActiveMinipools == AverageFeeForActiveMinipools(node.minipools, r.minipools)
      && (blockTime != 0 ==> !IsActive(r.minipools, from))
      && node' == SetEffectiveRPLStaked(node, reading).(
           totalFinalizedMinipools := node'.totalFinalizedMinipools,
           withdrawableMinipools := node'.withdrawableMinipools,
           averageFeeForActiveMinipools := node'.averageFeeForActiveMinipools)
      && r == state.(nodes := r.nodes, minipools := r.minipools)
  {
    match CallingMinipool(state, from)
    case None => state
    case Some((minipool, node)) =>
      var finalised := minipool.(finalizedBlockTime := blockTime);
      var minipools := state.minipools[from := finalised];
      var counted := node.(totalFinalizedMinipools := node.totalFinalizedMinipools + 1,
                           withdrawableMinipools := Max0(node.withdrawableMinipools - 1));
      var node' := SetEffectiveRPLStaked(counted, reading);
      var averaged := node'.(averageFeeForActiveMinipools := AverageFeeForActiveMinipools(node'.minipools, minipools));
      state.(nodes := state.nodes[minipool.node := averaged], minipools := minipools)
  }

  /** A node with three withdrawable and no finalised minipools: as written,
      finalising one leaves no withdrawable minipool, where two remain. */
  lemma FinalisedAsWrittenCounterexample(state: State, from: string, blockTime: int, reading: StakeReading)
    requires from in state.minipools && state.minipools[from].node in state.nodes
    requires state.nodes[state.minipools[from].node].withdrawableMinipools == 3
    requires state.nodes[state.minipools[from].node].totalFinalizedMinipools == 0
    ensures HandleFinalisedAsWritten(state, from, blockTime, reading).nodes[state.minipools[from].node].withdrawableMinipools == 0
    ensures HandleFinalised(state, from, blockTime, reading).nodes[state.minipools[from].node].withdrawableMinipools == 2
  {
  }

  /** Two active minipools with fees 10 and 30: as written, finalising the
      second leaves the average at 20, where only the first still counts. */
  lemma FinaliseAverageAsWrittenCounterexample(state: State, reading: StakeReading)
    requires "n" in state.nodes && state.nodes["n"].minipools == ["a", "b"]
    requires state.minipools == map["a" := Minipool("a", "n", 10, 0, 0, 0, 0), "b" := Minipool("b", "n", 30, 0, 0, 0, 0)]
    ensures HandleFinalisedAsWritten(state, "b", 5, reading).nodes["n"].averageFeeForActiveMinipools == 20
    ensures HandleFinalised(state, "b", 5, reading).nodes["n"].averageFeeForActiveMinipools == 10
  {
    assert ["a", "b"][1..] == ["b"];
    assert ["b"][1..] == [];
  }

  /** Every minipool transition keeps the owning node's counters
      non-negative. */
  lemma {:induction false} TransitionsKeepCountersNonNegative(state: State, from: string, blockTime: int, reading: StakeReading)
    requires CallingMinipool(state, from).Some? && CountersNonNegative(CallingMinipool(state, from).value.1)
    ensures var nodeId := state.minipools[from].node;
      && CountersNonNegative(HandleIncrementNodeStakingMinipoolCount(state, from, blockTime).nodes[nodeId])
      && CountersNonNegative(HandleDecrementNodeStakingMinipoolCount(state, from, blockTime).nodes[nodeId])
      && CountersNonNegative(HandleFinalised(state, from, blockTime, reading).nodes[nodeId])
  {
  }
}

=== FILE: network_balances.dfy ===
/** The balances-updated handler (src/mappings/rocketNetworkBalancesMapping.ts):
    a new network staker balance checkpoint is linked after the previous one,
    every active staker holding rETH is rolled into it with its own balance
    checkpoint, and zero running totals fall back to the previous checkpoint. */
module NetworkBalances {
  import opened Wrappers
  import opened FixedPoint
  import opened GeneralUtilities
  import opened Entities
  import opened StakerAccounting

  /** The stakers and their balance checkpoints, as the staker loop sees them. */
  datatype StakerLedger = StakerLedger(stakers: map<string, Staker>, checkpoints: map<string, StakerBalanceCheckpoint>)

  /** Lines 130-137: the loop skips the zero address, unknown ids and stakers
      without rETH. */
  predicate Eligible(stakers: map<string, Staker>, stakerId: string) {
    stakerId != ZERO_ADDRESS && stakerId in stakers && stakers[stakerId].rETHBalance != 0
  }

  /** Same stakers, holding the same rETH. */
  ghost predicate SameHoldings(a: map<string, Staker>, b: map<string, Staker>) {
    a.Keys == b.Keys && forall k :: k in a ==> b[k].rETHBalance == a[k].rETHBalance
  }

  /** The network checkpoint differs only in the three staker counters. */
  ghost predicate OnlyStakerTotalsDiffer(a: NetworkStakerBalanceCheckpoint, b: NetworkStakerBalanceCheckpoint) {
    b == a.(totalStakerETHRewards := b.totalStakerETHRewards,
            stakersWithAnRETHBalance := b.stakersWithAnRETHBalance,
            totalStakersWithETHRewards := b.totalStakersWithETHRewards)
  }

  /** What the loop makes of an eligible staker at a network checkpoint: its
      ETH balance revalued at the checkpoint's rate, the reward since its
      previous snapshot accrued, and a link to its new snapshot `cpId`. */
  function LoopStaker(
    staker: Staker, cpId: string, checkpoints: map<string, StakerBalanceCheckpoint>, rate: int, previousExchangeRate: int)
    : Staker
  {
    var balance := GetStakerBalance(staker, rate, checkpoints);
    var reward := EthRewardsSincePreviousCheckpoint(
      balance.currentRETHBalance, balance.currentETHBalance, balance.previousRETHBalance, balance.previousETHBalance,
      previousExchangeRate, rate);
    AccrueReward(staker.(ethBalance := balance.currentETHBalance), reward).(lastBalanceCheckpoint := Some(cpId))
  }

  /** The snapshot the loop writes for that staker: its current ETH and rETH
      balances and its running reward total after the accrual. */
  function LoopSnapshot(
    stakerId: string, staker: Staker, networkId: string, checkpoints: map<string, StakerBalanceCheckpoint>,
    rate: int, previousExchangeRate: int, block: int, blockTime: int): StakerBalanceCheckpoint
  {
    var cpId := CompositeId(networkId, stakerId);
    var balance := GetStakerBalance(staker, rate, checkpoints);
    StakerBalanceCheckpoint(cpId, stakerId, networkId, balance.currentETHBalance, balance.currentRETHBalance,
                            LoopStaker(staker, cpId, checkpoints, rate, previousExchangeRate).totalETHRewards, block, blockTime)
  }

  /** One iteration of generateStakerBalanceCheckpoints (lines 128-171). */
  function ProcessStaker(
    stakerId: string, ledger: StakerLedger, checkpoint: NetworkStakerBalanceCheckpoint,
    previousExchangeRate: int, block: int, blockTime: int): (r: (StakerLedger, NetworkStakerBalanceCheckpoint))
    ensures !Eligible(ledger.stakers, stakerId) ==> r == (ledger, checkpoint)
    ensures Eligible(ledger.stakers, stakerId) ==>
      stakerId in r.0.stakers && CompositeId(checkpoint.id, stakerId) in r.0.checkpoints
    ensures Eligible(ledger.stakers, stakerId) ==>
      var cpId := CompositeId(checkpoint.id, stakerId);
      var before, after := ledger.stakers[stakerId], r.0.stakers[stakerId];
      && r.0.stakers == ledger.stakers[stakerId := after]
      && r.0.checkpoints == ledger.checkpoints[cpId := r.0.checkpoints[cpId]]
      && after.lastBalanceCheckpoint == Some(cpId)
      && after.rETHBalance == before.rETHBalance
      && r.0.checkpoints[cpId].stakerId == stakerId
      && r.0.checkpoints[cpId].networkCheckpointId == checkpoint.id
      && r.0.checkpoints[cpId].totalETHRewards == after.totalETHRewards
      && r.1 == UpdateNetworkStakerBalanceCheckpoint(checkpoint, after)
    ensures Eligible(ledger.stakers, stakerId) ==>
      var cpId := CompositeId(checkpoint.id, stakerId);
      var before, after := ledger.stakers[stakerId], r.0.stakers[stakerId];
      var balance := GetStakerBalance(before, checkpoint.rETHExchangeRate, ledger.checkpoints);
      var reward := EthRewardsSincePreviousCheckpoint(
        balance.currentRETHBalance, balance.currentETHBalance, balance.previousRETHBalance, balance.previousETHBalance,
        previousExchangeRate, checkpoint.rETHExchangeRate);
      && after.ethBalance == balance.currentETHBalance
      && after.totalETHRewards == before.totalETHRewards + reward
      && (after.hasAccruedETHRewardsDuringLifecycle <==> before.hasAccruedETHRewardsDuringLifecycle || reward != 0)
      && after == LoopStaker(before, cpId, ledger.checkpoints, checkpoint.rETHExchangeRate, previousExchangeRate)
      && r.0.checkpoints[cpId].ethBalance == balance.currentETHBalance
      && r.0.checkpoints[cpId].rETHBalance == balance.currentRETHBalance
      && r.0.checkpoints[cpId] == LoopSnapshot(stakerId, before, checkpoint.id, ledger.checkpoints,
                                               checkpoint.rETHExchangeRate, previousExchangeRate, block, blockTime)
    ensures SameHoldings(ledger.stakers, r.0.stakers)
    ensures OnlyStakerTotalsDiffer(checkpoint, r.1)
  {
    if !Eligible(ledger.stakers, stakerId) then (ledger, checkpoint)
    else
      var staker := ledger.stakers[stakerId];
      var balance := GetStakerBalance(staker, checkpoint.rETHExchangeRate, ledger.checkpoints);
      var revalued := staker.(ethBalance := balance.currentETHBalance);
      var reward := EthRewardsSincePreviousCheckpoint(
        balance.currentRETHBalance, balance.currentETHBalance,
        balance.previousRETHBalance, balance.previousETHBalance,
        previousExchangeRate, checkpoint.rETHExchangeRate);
      var (accrued, rolledUp) := HandleEthRewardsSincePreviousCheckpoint(reward, revalued, checkpoint);
      var cpId := CompositeId(checkpoint.id, stakerId);
      var snapshot := StakerBalanceCheckpoint(
        cpId, stakerId, checkpoint.id, balance.currentETHBalance, balance.currentRETHBalance,
        accrued.totalETHRewards, block, blockTime);
      var linked := accrued.(lastBalanceCheckpoint := Some(cpId));
      (StakerLedger(ledger.stakers[stakerId := linked], ledger.checkpoints[cpId := snapshot]), rolledUp)
  }

  /** generateStakerBalanceCheckpoints: the staker loop, first id to last. */
  function GenerateStakerBalanceCheckpoints(
    stakerIds: seq<string>, ledger: StakerLedger, checkpoint: NetworkStakerBalanceCheckpoint,
    previousExchangeRate: int, block: int, blockTime: int): (r: (StakerLedger, NetworkStakerBalanceCheckpoint))
    decreases |stakerIds|
  {
    if |stakerIds| == 0 then (ledger, checkpoint)
    else
      var (ledger', checkpoint') := ProcessStaker(stakerIds[0], ledger, checkpoint, previousExchangeRate, block, blockTime);
      GenerateStakerBalanceCheckpoints(stakerIds[1..], ledger', checkpoint', previousExchangeRate, block, blockTime)
  }

  /** The loop moves no rETH, changes only the three counters of the network
      checkpoint, leaves every staker it skips untouched, and links every
      eligible staker to a balance checkpoint `networkId - stakerId` of its own. */
  lemma {:induction false} GenerateStakerBalanceCheckpointsEffect(
    stakerIds: seq<string>, ledger: StakerLedger, checkpoint: NetworkStakerBalanceCheckpoint,
    previousExchangeRate: int, block: int, blockTime: int)
    ensures var r := GenerateStakerBalanceCheckpoints(stakerIds, ledger, checkpoint, previousExchangeRate, block, blockTime);
      && SameHoldings(ledger.stakers, r.0.stakers)
      && OnlyStakerTotalsDiffer(checkpoint, r.1)
      && ledger.checkpoints.Keys <= r.0.checkpoints.Keys
      && checkpoint.stakersWithAnRETHBalance <= r.1.stakersWithAnRETHBalance
         <= checkpoint.stakersWithAnRETHBalance + |stakerIds|
      && checkpoint.totalStakersWithETHRewards <= r.1.totalStakersWithETHRewards
         <= checkpoint.totalStakersWithETHRewards + |stakerIds|
      && (forall k :: k in ledger.stakers && !(k in stakerIds && Eligible(ledger.stakers, k)) ==>
            r.0.stakers[k] == ledger.stakers[k])
      && (forall k :: k in stakerIds && Eligible(ledger.stakers, k) ==>
            && r.0.stakers[k].lastBalanceCheckpoint == Some(CompositeId(checkpoint.id, k))
            && CompositeId(checkpoint.id, k) in r.0.checkpoints
            && r.0.checkpoints[CompositeId(checkpoint.id, k)].stakerId == k)
    decreases |stakerIds|
  {
    if |stakerIds| > 0 {
      var id := stakerIds[0];
      var (ledger1, checkpoint1) := ProcessStaker(id, ledger, checkpoint, previousExchangeRate, block, blockTime);
      GenerateStakerBalanceCheckpointsEffect(stakerIds[1..], ledger1, checkpoint1, previousExchangeRate, block, blockTime);
      var r := GenerateStakerBalanceCheckpoints(stakerIds, ledger, checkpoint, previousExchangeRate, block, blockTime);
      assert r == GenerateStakerBalanceCheckpoints(stakerIds[1..], ledger1, checkpoint1, previousExchangeRate, block, blockTime);
      forall k | k in stakerIds && Eligible(ledger.stakers, k)
        ensures && r.0.stakers[k].lastBalanceCheckpoint == Some(CompositeId(checkpoint.id, k))
                && CompositeId(checkpoint.id, k) in r.0.checkpoints
                && r.0.checkpoints[CompositeId(checkpoint.id, k)].stakerId == k
      {
        if k !in stakerIds[1..] {
          assert k == id;
          var cpId := CompositeId(checkpoint.id, k);
          if cpId in r.0.checkpoints && r.0.checkpoints[cpId] != ledger1.checkpoints[cpId] {
            NewCheckpointIdsBelongToEligible(stakerIds[1..], ledger1, checkpoint1, previousExchangeRate, block, blockTime, cpId);
            var k' :| k' in stakerIds[1..] && Eligible(ledger1.stakers, k') && cpId == CompositeId(checkpoint.id, k');
            CompositeIdInjective(checkpoint.id, k, k');
          }
        }
      }
    }
  }

  /** Every balance checkpoint the loop writes is `networkId - k` for an
      eligible staker k of the list (`StakerLoopUpdatesEachStaker` gives its
      contents). */
  lemma {:induction false} NewCheckpointIdsBelongToEligible(
    stakerIds: seq<string>, ledger: StakerLedger, checkpoint: NetworkStakerBalanceCheckpoint,
    previousExchangeRate: int, block: int, blockTime: int, cpId: string)
    requires var r := GenerateStakerBalanceCheckpoints(stakerIds, ledger, checkpoint, previousExchangeRate, block, blockTime);
      cpId in r.0.checkpoints && (cpId !in ledger.checkpoints || r.0.checkpoints[cpId] != ledger.checkpoints[cpId])
    ensures exists k :: k in stakerIds && Eligible(ledger.stakers, k) && cpId == CompositeId(checkpoint.id, k)
    decreases |stakerIds|
  {
    var id := stakerIds[0];
    var (ledger1, checkpoint1) := ProcessStaker(id, ledger, checkpoint, previousExchangeRate, block, blockTime);
    GenerateStakerBalanceCheckpointsEffect(stakerIds[1..], ledger1, checkpoint1, previousExchangeRate, block, blockTime);
    var r := GenerateStakerBalanceCheckpoints(stakerIds[1..], ledger1, checkpoint1, previousExchangeRate, block, blockTime);
    if cpId in ledger1.checkpoints && r.0.checkpoints[cpId] == ledger1.checkpoints[cpId] {
      assert Eligible(ledger.stakers, id) && cpId == CompositeId(checkpoint.id, id);
    } else {
      NewCheckpointIdsBelongToEligible(stakerIds[1..], ledger1, checkpoint1, previousExchangeRate, block, blockTime, cpId);
      var k :| k in stakerIds[1..] && Eligible(ledger1.stakers, k) && cpId == CompositeId(checkpoint.id, k);
      assert k in stakerIds && Eligible(ledger.stakers, k);
    }
  }

  /** The staker's previous snapshot, `last`, is not the snapshot the loop
      writes for another listed staker, so the loop reads it as it was. */
  predicate PastNotOverwritten(last: Option<string>, networkId: string, stakerIds: seq<string>, k: string) {
    forall j :: j in stakerIds && j != k ==> last != Some(CompositeId(networkId, j))
  }

  /** The balances of a staker depend on the checkpoints only through its
      previous snapshot. */
  lemma GetStakerBalanceReadsOnlyPrevious(
    staker: Staker, rate: int, c1: map<string, StakerBalanceCheckpoint>, c2: map<string, StakerBalanceCheckpoint>)
    requires PreviousStakerCheckpoint(staker, c1) == PreviousStakerCheckpoint(staker, c2)
    ensures GetStakerBalance(staker, rate, c1) == GetStakerBalance(staker, rate, c2)
  {
  }

  /** Over a list without repeats, every eligible listed staker whose previous
      snapshot the loop does not overwrite for another staker ends the loop
      revalued, credited with the reward since that snapshot and linked to a
      new snapshot of its balances, exactly as one iteration on the initial
      ledger makes it. */
  lemma {:induction false} StakerLoopUpdatesEachStaker(
    stakerIds: seq<string>, ledger: StakerLedger, checkpoint: NetworkStakerBalanceCheckpoint,
    previousExchangeRate: int, block: int, blockTime: int)
    requires NoDuplicates(stakerIds)
    ensures var r := GenerateStakerBalanceCheckpoints(stakerIds, ledger, checkpoint, previousExchangeRate, block, blockTime);
      forall k :: k in stakerIds && Eligible(ledger.stakers, k)
                  && PastNotOverwritten(ledger.stakers[k].lastBalanceCheckpoint, checkpoint.id, stakerIds, k) ==>
        && k in r.0.stakers
        && r.0.stakers[k] == LoopStaker(ledger.stakers[k], CompositeId(checkpoint.id, k), ledger.checkpoints,
                                        checkpoint.rETHExchangeRate, previousExchangeRate)
        && CompositeId(checkpoint.id, k) in r.0.checkpoints
        && r.0.checkpoints[CompositeId(checkpoint.id, k)]
           == LoopSnapshot(k, ledger.stakers[k], checkpoint.id, ledger.checkpoints,
                           checkpoint.rETHExchangeRate, previousExchangeRate, block, blockTime)
    decreases |stakerIds|
  {
    if |stakerIds| > 0 {
      var id, rest := stakerIds[0], stakerIds[1..];
      NoDuplicatesTail(stakerIds);
      var (ledger1, checkpoint1) := ProcessStaker(id, ledger, checkpoint, previousExchangeRate, block, blockTime);
      StakerLoopUpdatesEachStaker(rest, ledger1, checkpoint1, previousExchangeRate, block, blockTime);
      GenerateStakerBalanceCheckpointsEffect(rest, ledger1, checkpoint1, previousExchangeRate, block, blockTime);
      var r := GenerateStakerBalanceCheckpoints(rest, ledger1, checkpoint1, previousExchangeRate, block, blockTime);
      assert r == GenerateStakerBalanceCheckpoints(stakerIds, ledger, checkpoint, previousExchangeRate, block, blockTime);
      assert checkpoint1.id == checkpoint.id && checkpoint1.rETHExchangeRate == checkpoint.rETHExchangeRate;
      forall k | k in stakerIds && Eligible(ledger.stakers, k)
                 && PastNotOverwritten(ledger.stakers[k].lastBalanceCheckpoint, checkpoint.id, stakerIds, k)
        ensures && k in r.0.stakers
                && r.0.stakers[k] == LoopStaker(ledger.stakers[k], CompositeId(checkpoint.id, k), ledger.checkpoints,
                                                checkpoint.rETHExchangeRate, previousExchangeRate)
                && CompositeId(checkpoint.id, k) in r.0.checkpoints
                && r.0.checkpoints[CompositeId(checkpoint.id, k)]
                   == LoopSnapshot(k, ledger.stakers[k], checkpoint.id, ledger.checkpoints,
                                   checkpoint.rETHExchangeRate, previousExchangeRate, block, blockTime)
      {
        var cpId := CompositeId(checkpoint.id, k);
        if k == id {
          assert r.0.stakers[k] == ledger1.stakers[k];
          if r.0.checkpoints[cpId] != ledger1.checkpoints[cpId] {
            NewCheckpointIdsBelongToEligible(rest, ledger1, checkpoint1, previousExchangeRate, block, blockTime, cpId);
            var k' :| k' in rest && Eligible(ledger1.stakers, k') && cpId == CompositeId(checkpoint1.id, k');
            CompositeIdInjective(checkpoint.id, k, k');
          }
        } else {
          assert k in rest;
          var staker := ledger.stakers[k];
          assert ledger1.stakers[k] == staker;
          assert Eligible(ledger1.stakers, k);
          assert PastNotOverwritten(staker.lastBalanceCheckpoint, checkpoint1.id, rest, k);
          assert staker.lastBalanceCheckpoint != Some(CompositeId(checkpoint.id, id));
          assert PreviousStakerCheckpoint(staker, ledger1.checkpoints) == PreviousStakerCheckpoint(staker, ledger.checkpoints);
          GetStakerBalanceReadsOnlyPrevious(staker, checkpoint.rETHExchangeRate, ledger1.checkpoints, ledger.checkpoints);
        }
      }
    }
  }

  /** The sum of the running reward totals of the eligible stakers of a list. */
  function HolderRewardTotal(stakerIds: seq<string>, stakers: map<string, Staker>): int
    decreases |stakerIds|
  {
    if |stakerIds| == 0 then 0
    else (if Eligible(stakers, stakerIds[0]) then stakers[stakerIds[0]].totalETHRewards else 0)
         + HolderRewardTotal(stakerIds[1..], stakers)
  }

  /** How many eligible stakers of a list hold a positive rETH balance. */
  function HolderCount(stakerIds: seq<string>, stakers: map<string, Staker>): int
    decreases |stakerIds|
  {
    if |stakerIds| == 0 then 0
    else (if Eligible(stakers, stakerIds[0]) && stakers[stakerIds[0]].rETHBalance > 0 then 1 else 0)
         + HolderCount(stakerIds[1..], stakers)
  }

  /** How many eligible stakers of a list have ever accrued a reward. */
  function RewardedHolderCount(stakerIds: seq<string>, stakers: map<string, Staker>): int
    decreases |stakerIds|
  {
    if |stakerIds| == 0 then 0
    else (if Eligible(stakers, stakerIds[0]) && stakers[stakerIds[0]].hasAccruedETHRewardsDuringLifecycle then 1 else 0)
         + RewardedHolderCount(stakerIds[1..], stakers)
  }

  /** Over a list without repeats, the loop adds to the network checkpoint
      exactly the final running totals of the eligible stakers, and counts
      the holders and the rewarded stakers among them. */
  lemma {:induction false} StakerLoopTotals(
    stakerIds: seq<string>, ledger: StakerLedger, checkpoint: NetworkStakerBalanceCheckpoint,
    previousExchangeRate: int, block: int, blockTime: int)
    requires NoDuplicates(stakerIds)
    ensures var r := GenerateStakerBalanceCheckpoints(stakerIds, ledger, checkpoint, previousExchangeRate, block, blockTime);
      && r.1.totalStakerETHRewards == checkpoint.totalStakerETHRewards + HolderRewardTotal(stakerIds, r.0.stakers)
      && r.1.stakersWithAnRETHBalance == checkpoint.stakersWithAnRETHBalance + HolderCount(stakerIds, r.0.stakers)
      && r.1.totalStakersWithETHRewards
         == checkpoint.totalStakersWithETHRewards + RewardedHolderCount(stakerIds, r.0.stakers)
    decreases |stakerIds|
  {
    if |stakerIds| > 0 {
      var id, rest := stakerIds[0], stakerIds[1..];
      var (ledger1, checkpoint1) := ProcessStaker(id, ledger, checkpoint, previousExchangeRate, block, blockTime);
      NoDuplicatesTail(stakerIds);
      StakerLoopTotals(rest, ledger1, checkpoint1, previousExchangeRate, block, blockTime);
      GenerateStakerBalanceCheckpointsEffect(rest, ledger1, checkpoint1, previousExchangeRate, block, blockTime);
      var r := GenerateStakerBalanceCheckpoints(rest, ledger1, checkpoint1, previousExchangeRate, block, blockTime);
      assert r == GenerateStakerBalanceCheckpoints(stakerIds, ledger, checkpoint, previousExchangeRate, block, blockTime);
      assert Eligible(r.0.stakers, id) <==> Eligible(ledger.stakers, id);
      if Eligible(ledger.stakers, id) {
        assert r.0.stakers[id] == ledger1.stakers[id];
      }
    }
  }

  /** The contract reads the handler makes: the deposit pool balance and
      excess, the rETH total collateral and the rETH exchange rate. */
  datatype BalancesReads = BalancesReads(
    depositPoolBalance: int, depositPoolExcessBalance: int, rETHTotalCollateral: int, rETHExchangeRate: int)

  /** createNetworkStakerBalanceCheckpoint: a fresh checkpoint after the
      protocol's last one, with zero running totals. */
  function NewNetworkStakerBalanceCheckpoint(id: string, previousCheckpointId: Option<string>, balances: BalancesReads, event: EventInfo)
    : NetworkStakerBalanceCheckpoint
  {
    NetworkStakerBalanceCheckpoint(
      id, previousCheckpointId, None, balances.depositPoolBalance,
      GetRocketETHBalance(balances.depositPoolExcessBalance, balances.rETHTotalCollateral),
      balances.rETHExchangeRate, 0, 0, 0, 0, event.block, event.blockTime)
  }

  /** The previous checkpoint's running totals and exchange rate, or
      (0, 0, 1) when there is none. */
  datatype PreviousTotals = PreviousTotals(totalStakerETHRewards: int, totalStakersWithETHRewards: int, rETHExchangeRate: int)

  function PreviousStakerTotals(lastId: Option<string>, checkpoints: map<string, NetworkStakerBalanceCheckpoint>): (p: PreviousTotals)
    ensures (lastId.None? || lastId.value !in checkpoints) ==> p == PreviousTotals(0, 0, 1)
    ensures lastId.Some? && lastId.value in checkpoints ==>
      var c := checkpoints[lastId.value];
      p == PreviousTotals(c.totalStakerETHRewards, c.totalStakersWithETHRewards, c.rETHExchangeRate)
  {
    if lastId.Some? && lastId.value in checkpoints then
      var c := checkpoints[lastId.value];
      PreviousTotals(c.totalStakerETHRewards, c.totalStakersWithETHRewards, c.rETHExchangeRate)
    else
      PreviousTotals(0, 0, 1)
  }

  /** Lines 85-90: a running total the staker loop left at zero takes the
      previous checkpoint's value. */
  function FallBackToPreviousTotals(checkpoint: NetworkStakerBalanceCheckpoint, previous: PreviousTotals): (r: NetworkStakerBalanceCheckpoint)
    ensures checkpoint.totalStakerETHRewards != 0 ==> r.totalStakerETHRewards == checkpoint.totalStakerETHRewards
    ensures checkpoint.totalStakersWithETHRewards != 0 ==> r.totalStakersWithETHRewards == checkpoint.totalStakersWithETHRewards
    ensures checkpoint.totalStakerETHRewards == 0 ==> r.totalStakerETHRewards == previous.totalStakerETHRewards
    ensures checkpoint.totalStakersWithETHRewards == 0 ==> r.totalStakersWithETHRewards == previous.totalStakersWithETHRewards
    ensures r.totalStakerETHRewards == 0 <==> checkpoint.totalStakerETHRewards == 0 && previous.totalStakerETHRewards == 0
    ensures r.totalStakersWithETHRewards == 0
            <==> checkpoint.totalStakersWithETHRewards == 0 && previous.totalStakersWithETHRewards == 0
    ensures r == checkpoint.(totalStakerETHRewards := r.totalStakerETHRewards,
                             totalStakersWithETHRewards := r.totalStakersWithETHRewards)
  {
    var withTotal :=
      if checkpoint.totalStakerETHRewards == 0 then checkpoint.(totalStakerETHRewards := previous.totalStakerETHRewards)
      else checkpoint;
    if withTotal.totalStakersWithETHRewards == 0 then
      withTotal.(totalStakersWithETHRewards := previous.totalStakersWithETHRewards)
    else
      withTotal
  }

  /** Lines 93-97 as written: `total != 0 && count ? 0 : count >= 1`.
      `objectOperand` says whether the count, a BigInt object, is truthy as a
      reference (always) or as a number (when nonzero); `conditionalLast` says
      whether `&&` binds before `?:` (the language's precedence) or after. */
  function AverageGuardAsWritten(total: int, count: int, objectOperand: bool, conditionalLast: bool): bool {
    var countTruthy := objectOperand || count != 0;
    if conditionalLast then
      (if total != 0 && countTruthy then false else count >= 1)
    else
      total != 0 && (if countTruthy then false else count >= 1)
  }

  /** Whatever the reading, the guard only admits a zero total over a
      positive count. */
  lemma AverageGuardOnlyAdmitsZeroTotal(total: int, count: int, objectOperand: bool, conditionalLast: bool)
    ensures AverageGuardAsWritten(total, count, objectOperand, conditionalLast) ==> total == 0 && count >= 1
    ensures objectOperand && conditionalLast ==>
      (AverageGuardAsWritten(total, count, objectOperand, conditionalLast) <==> total == 0 && count >= 1)
  {
  }

  /** Lines 93-99 as written: the average is assigned only under the guard. */
  function AverageStakerETHRewardsAsWritten(checkpoint: NetworkStakerBalanceCheckpoint, objectOperand: bool, conditionalLast: bool)
    : (r: NetworkStakerBalanceCheckpoint)
    ensures r.averageStakerETHRewards == 0 || r.averageStakerETHRewards == checkpoint.averageStakerETHRewards
    ensures r == checkpoint.(averageStakerETHRewards := r.averageStakerETHRewards)
  {
    var total, count := checkpoint.totalStakerETHRewards, checkpoint.totalStakersWithETHRewards;
    if AverageGuardAsWritten(total, count, objectOperand, conditionalLast) then
      AverageGuardOnlyAdmitsZeroTotal(total, count, objectOperand, conditionalLast);
      checkpoint.(averageStakerETHRewards := TDiv(total, count))
    else
      checkpoint
  }

  /** The average the comment promises: total rewards over the stakers that
      accrued any, whenever there is at least one such staker. */
  function AverageStakerETHRewards(checkpoint: NetworkStakerBalanceCheckpoint): (r: NetworkStakerBalanceCheckpoint)
    ensures checkpoint.totalStakersWithETHRewards >= 1 && checkpoint.totalStakerETHRewards >= 0 ==>
      var (avg, n) := (r.averageStakerETHRewards, checkpoint.totalStakersWithETHRewards);
      avg * n <= checkpoint.totalStakerETHRewards < (avg + 1) * n
    ensures checkpoint.totalStakersWithETHRewards >= 1 ==>
      Abs(r.averageStakerETHRewards) == Abs(checkpoint.totalStakerETHRewards) / checkpoint.totalStakersWithETHRewards
      && (r.averageStakerETHRewards < 0 ==> checkpoint.totalStakerETHRewards < 0)
    ensures checkpoint.totalStakersWithETHRewards < 1 ==> r == checkpoint
    ensures r == checkpoint.(averageStakerETHRewards := r.averageStakerETHRewards)
  {
    var total, count := checkpoint.totalStakerETHRewards, checkpoint.totalStakersWithETHRewards;
    if count >= 1 then checkpoint.(averageStakerETHRewards := TDiv(total, count)) else checkpoint
  }

  /** A fresh checkpoint with rewards of 10 over 2 stakers keeps the average
      at 0 under the source's guard, where the intended average is 5. */
  lemma AverageAsWrittenCounterexample(checkpoint: NetworkStakerBalanceCheckpoint)
    requires checkpoint.totalStakerETHRewards == 10 && checkpoint.totalStakersWithETHRewards == 2
    requires checkpoint.averageStakerETHRewards == 0
    ensures AverageStakerETHRewardsAsWritten(checkpoint, true, true).averageStakerETHRewards == 0
    ensures AverageStakerETHRewards(checkpoint).averageStakerETHRewards == 5
  {
  }

  /** Under every reading of the guard, a nonzero total over a positive
      count never yields a nonzero average as written. */
  lemma {:induction false} AverageAsWrittenNeverReportsRewards(
    checkpoint: NetworkStakerBalanceCheckpoint, objectOperand: bool, conditionalLast: bool)
    requires checkpoint.averageStakerETHRewards == 0
    ensures AverageStakerETHRewardsAsWritten(checkpoint, objectOperand, conditionalLast).averageStakerETHRewards == 0
    ensures checkpoint.totalStakersWithETHRewards >= 1 && Abs(checkpoint.totalStakerETHRewards) >= checkpoint.totalStakersWithETHRewards ==>
      AverageStakerETHRewards(checkpoint).averageStakerETHRewards != 0
  {
    var total, count := checkpoint.totalStakerETHRewards, checkpoint.totalStakersWithETHRewards;
    AverageGuardOnlyAdmitsZeroTotal(total, count, objectOperand, conditionalLast);
    if count >= 1 && Abs(total) >= count {
      DivBetween(Abs(total), count, 1, Abs(total));
    }
  }

  /** handleBalancesUpdated with the average the comment promises. An event
      already indexed leaves the state as it is; otherwise the new checkpoint
      becomes the protocol's last, linked after the previous one. */
  function HandleBalancesUpdated(state: State, event: EventInfo, balances: BalancesReads): (r: State)
    ensures event.Id() in state.networkStakerCheckpoints ==> r == state
    ensures event.Id() !in state.networkStakerCheckpoints ==>
      var id, last := event.Id(), state.protocol.lastNetworkStakerBalanceCheckPoint;
      && id in r.networkStakerCheckpoints
      && r.protocol == state.protocol.(lastNetworkStakerBalanceCheckPoint := Some(id))
      && r.networkStakerCheckpoints[id].id == id
      && r.networkStakerCheckpoints[id].previousCheckpointId == last
      && r.networkStakerCheckpoints[id].nextCheckpointId == None
      && r.networkStakerCheckpoints[id].rETHExchangeRate == balances.rETHExchangeRate
      && (last.Some? && last.value in state.networkStakerCheckpoints ==>
            last.value in r.networkStakerCheckpoints
            && r.networkStakerCheckpoints[last.value]
              == state.networkStakerCheckpoints[last.value].(nextCheckpointId := Some(id)))
      && (forall k :: k in state.networkStakerCheckpoints && k != id && Some(k) != last ==>
            k in r.networkStakerCheckpoints && r.networkStakerCheckpoints[k] == state.networkStakerCheckpoints[k])
      && r.networkStakerCheckpoints.Keys == state.networkStakerCheckpoints.Keys + {id}
      && SameHoldings(state.stakers, r.stakers)
      && r == state.(protocol := r.protocol, stakers := r.stakers, stakerCheckpoints := r.stakerCheckpoints,
                     networkStakerCheckpoints := r.networkStakerCheckpoints)
    ensures event.Id() !in state.networkStakerCheckpoints ==>
      var last := state.protocol.lastNetworkStakerBalanceCheckPoint;
      var previous := PreviousStakerTotals(last, state.networkStakerCheckpoints);
      (previous.totalStakerETHRewards != 0 ==> r.networkStakerCheckpoints[event.Id()].totalStakerETHRewards != 0)
      && (previous.totalStakersWithETHRewards != 0 ==> r.networkStakerCheckpoints[event.Id()].totalStakersWithETHRewards != 0)
    ensures event.Id() !in state.networkStakerCheckpoints ==>
      var cp := r.networkStakerCheckpoints[event.Id()];
      && cp.stakerETHWaitingInDepositPool == balances.depositPoolBalance
      && cp.stakerETHInRocketETHContract == GetRocketETHBalance(balances.depositPoolExcessBalance, balances.rETHTotalCollateral)
      && cp.block == event.block && cp.blockTime == event.blockTime
      && cp.averageStakerETHRewards
         == (if cp.totalStakersWithETHRewards >= 1 then TDiv(cp.totalStakerETHRewards, cp.totalStakersWithETHRewards) else 0)
    ensures event.Id() !in state.networkStakerCheckpoints && NoDuplicates(state.protocol.activeStakers) ==>
      var cp, active := r.networkStakerCheckpoints[event.Id()], state.protocol.activeStakers;
      var previous := PreviousStakerTotals(state.protocol.lastNetworkStakerBalanceCheckPoint, state.networkStakerCheckpoints);
      var total, rewarded := HolderRewardTotal(active, r.stakers), RewardedHolderCount(active, r.stakers);
      && cp.stakersWithAnRETHBalance == HolderCount(active, r.stakers)
      && cp.totalStakerETHRewards == (if total != 0 then total else previous.totalStakerETHRewards)
      && cp.totalStakersWithETHRewards == (if rewarded != 0 then rewarded else previous.totalStakersWithETHRewards)
  {
    var id := event.Id();
    if id in state.networkStakerCheckpoints then state
    else
      var last := state.protocol.lastNetworkStakerBalanceCheckPoint;
      var created := NewNetworkStakerBalanceCheckpoint(id, last, balances, event);
      var previous := PreviousStakerTotals(last, state.networkStakerCheckpoints);
      var ledger := StakerLedger(state.stakers, state.stakerCheckpoints);
      var (ledger', rolled) := GenerateStakerBalanceCheckpoints(
        state.protocol.activeStakers, ledger, created, previous.rETHExchangeRate, event.block, event.blockTime);
      GenerateStakerBalanceCheckpointsEffect(
        state.protocol.activeStakers, ledger, created, previous.rETHExchangeRate, event.block, event.blockTime);
      var _ := if NoDuplicates(state.protocol.activeStakers) then
        StakerLoopTotals(state.protocol.activeStakers, ledger, created, previous.rETHExchangeRate, event.block, event.blockTime); 0
      else 0;
      var checkpoint := AverageStakerETHRewards(FallBackToPreviousTotals(rolled, previous));
      var linked :=
        if last.Some? && last.value in state.networkStakerCheckpoints then
          state.networkStakerCheckpoints[last.value := state.networkStakerCheckpoints[last.value].(nextCheckpointId := Some(id))]
        else state.networkStakerCheckpoints;
      state.(protocol := state.protocol.(lastNetworkStakerBalanceCheckPoint := Some(id)),
             stakers := ledger'.stakers, stakerCheckpoints := ledger'.checkpoints,
             networkStakerCheckpoints := linked[id := checkpoint])
  }

  /** What the balances handler does to each staker: the stakers the loop
      skips are unchanged, and over a staker list without repeats every
      eligible listed staker whose previous snapshot the loop does not
      overwrite is revalued at the new rate, credited with its reward since
      that snapshot and given its own snapshot of the new checkpoint. */
  lemma {:induction false} BalancesUpdatedUpdatesEachStaker(state: State, event: EventInfo, balances: BalancesReads)
    requires event.Id() !in state.networkStakerCheckpoints
    ensures var r := HandleBalancesUpdated(state, event, balances);
      forall k :: k in state.stakers && !(k in state.protocol.activeStakers && Eligible(state.stakers, k)) ==>
        k in r.stakers && r.stakers[k] == state.stakers[k]
    ensures var r, id, active := HandleBalancesUpdated(state, event, balances), event.Id(), state.protocol.activeStakers;
      var previous := PreviousStakerTotals(state.protocol.lastNetworkStakerBalanceCheckPoint, state.networkStakerCheckpoints);
      NoDuplicates(active) ==>
      forall k :: k in active && Eligible(state.stakers, k)
                  && PastNotOverwritten(state.stakers[k].lastBalanceCheckpoint, id, active, k) ==>
        && k in r.stakers
        && r.stakers[k] == LoopStaker(state.stakers[k], CompositeId(id, k), state.stakerCheckpoints,
                                      balances.rETHExchangeRate, previous.rETHExchangeRate)
        && CompositeId(id, k) in r.stakerCheckpoints
        && r.stakerCheckpoints[CompositeId(id, k)]
           == LoopSnapshot(k, state.stakers[k], id, state.stakerCheckpoints,
                           balances.rETHExchangeRate, previous.rETHExchangeRate, event.block, event.blockTime)
  {
    var id, last := event.Id(), state.protocol.lastNetworkStakerBalanceCheckPoint;
    var created := NewNetworkStakerBalanceCheckpoint(id, last, balances, event);
    var previous := PreviousStakerTotals(last, state.networkStakerCheckpoints);
    var ledger := StakerLedger(state.stakers, state.stakerCheckpoints);
    var loop := GenerateStakerBalanceCheckpoints(
      state.protocol.activeStakers, ledger, created, previous.rETHExchangeRate, event.block, event.blockTime);
    GenerateStakerBalanceCheckpointsEffect(
      state.protocol.activeStakers, ledger, created, previous.rETHExchangeRate, event.block, event.blockTime);
    var r := HandleBalancesUpdated(state, event, balances);
    assert r.stakers == loop.0.stakers && r.stakerCheckpoints == loop.0.checkpoints;
    if NoDuplicates(state.protocol.activeStakers) {
      StakerLoopUpdatesEachStaker(
        state.protocol.activeStakers, ledger, created, previous.rETHExchangeRate, event.block, event.blockTime);
    }
  }

  /** Handling the same balances event twice changes nothing the first
      handling did not. */
  lemma BalancesUpdatedIdempotent(state: State, event: EventInfo, balances: BalancesReads, balances': BalancesReads)
    ensures HandleBalancesUpdated(HandleBalancesUpdated(state, event, balances), event, balances')
            == HandleBalancesUpdated(state, event, balances)
  {
  }

  /** The network staker checkpoints form a chain: each is stored under its
      own id, the protocol's last checkpoint is stored and has no successor,
      and every stored successor link points at a stored checkpoint. */
  ghost predicate StakerChainWellFormed(protocol: Protocol, checkpoints: map<string, NetworkStakerBalanceCheckpoint>) {
    && (forall k :: k in checkpoints ==> checkpoints[k].id == k)
    && (protocol.lastNetworkStakerBalanceCheckPoint.Some? ==>
          protocol.lastNetworkStakerBalanceCheckPoint.value in checkpoints
          && checkpoints[protocol.lastNetworkStakerBalanceCheckPoint.value].nextCheckpointId == None)
    && (protocol.lastNetworkStakerBalanceCheckPoint.None? ==> checkpoints == map[])
    && (forall k :: k in checkpoints && checkpoints[k].nextCheckpointId.Some? ==>
          checkpoints[k].nextCheckpointId.value in checkpoints)
    && (forall k :: k in checkpoints && checkpoints[k].nextCheckpointId.None? ==>
          Some(k) == protocol.lastNetworkStakerBalanceCheckPoint)
  }

  /** The balances handler keeps the chain well formed: the new checkpoint is
      the only tip, and the previous tip now links to it. */
  lemma {:induction false} BalancesUpdatedKeepsChain(state: State, event: EventInfo, balances: BalancesReads)
    requires StakerChainWellFormed(state.protocol, state.networkStakerCheckpoints)
    ensures var r := HandleBalancesUpdated(state, event, balances);
      StakerChainWellFormed(r.protocol, r.networkStakerCheckpoints)
  {
  }
}

=== FILE: network_prices.dfy ===
/** RPL price updates (src/mappings/rocketNetworkPricesMapping.ts): each
    committed price opens a network node balance checkpoint, linked to the
    previous one, into which every indexed node is folded after its
    effective stake is refreshed; each node gets its own snapshot. */
module NetworkPrices {
  import opened Wrappers
  import opened GeneralUtilities
  import opened Entities
  import opened NodeAccounting
  import opened FixedPoint

  /** What the handler reads from the network fees, protocol settings and
      node staking contracts. The node staking contract answers for every
      node address. */
  datatype PricesReads = PricesReads(
    newMinipoolFee: int,
    halfDepositAmount: int,
    minimumPerMinipoolStake: int,
    maximumPerMinipoolStake: int,
    stakeOf: string -> StakeReading)

  /** getEffectiveMinipoolRPLBounds: the RPL a new minipool needs at this
      price, for the half-deposit amount at the minimum and at the maximum
      per-minipool stake ratio. */
  datatype EffectiveMinipoolRPLBounds = EffectiveMinipoolRPLBounds(minimum: int, maximum: int)

  function NewMinipoolBounds(rplPrice: int, chain: PricesReads): (r: EffectiveMinipoolRPLBounds)
    ensures (chain.halfDepositAmount >= 0 && 0 <= chain.minimumPerMinipoolStake <= chain.maximumPerMinipoolStake
             && rplPrice > 0) ==> 0 <= r.minimum <= r.maximum
    ensures rplPrice == 0 || chain.halfDepositAmount == 0 ==> r.minimum == 0 && r.maximum == 0
    ensures chain.halfDepositAmount >= 0 && chain.minimumPerMinipoolStake >= 0 && rplPrice > 0 ==>
      r.minimum * rplPrice <= chain.halfDepositAmount * chain.minimumPerMinipoolStake < (r.minimum + 1) * rplPrice
    ensures chain.halfDepositAmount >= 0 && chain.maximumPerMinipoolStake >= 0 && rplPrice > 0 ==>
      r.maximum * rplPrice <= chain.halfDepositAmount * chain.maximumPerMinipoolStake < (r.maximum + 1) * rplPrice
  {
    var bounds := EffectiveMinipoolRPLBounds(
      RPLForNewMinipool(chain.halfDepositAmount, chain.minimumPerMinipoolStake, rplPrice),
      RPLForNewMinipool(chain.halfDepositAmount, chain.maximumPerMinipoolStake, rplPrice));
    if chain.halfDepositAmount >= 0 && 0 <= chain.minimumPerMinipoolStake <= chain.maximumPerMinipoolStake && rplPrice > 0 then
      NewMinipoolBoundsOrdered(chain.halfDepositAmount, chain.minimumPerMinipoolStake, chain.maximumPerMinipoolStake, rplPrice);
      bounds
    else bounds
  }

  /** What the node loop carries: the checkpoint being filled, the fee
      metadata, and the node and node snapshot stores. */
  datatype NodeFold = NodeFold(
    checkpoint: NetworkNodeBalanceCheckpoint,
    metadata: MinipoolMetadata,
    nodes: map<string, Node>,
    nodeCheckpoints: map<string, NodeBalanceCheckpoint>)

  /** A node as the loop sees it: its stake figures refreshed from the node
      staking contract. */
  function Refreshed(node: Node, stakeOf: string -> StakeReading): Node {
    SetEffectiveRPLStaked(node, stakeOf(node.id))
  }

  /** One iteration of generateNodeBalanceCheckpoints: an id that does not
      load is skipped; otherwise the refreshed node is added to the totals
      and the metadata, snapshotted under `<checkpoint id> - <node id>`, and
      saved pointing at that snapshot; a node ranked first on claimed
      rewards makes its snapshot the checkpoint's highest-ranked one. */
  function FoldNode(acc: NodeFold, nodeId: string, stakeOf: string -> StakeReading, block: int, blockTime: int)
    : (r: NodeFold)
    ensures nodeId !in acc.nodes ==> r == acc
    ensures nodeId in acc.nodes ==>
      var node, snapshotId := Refreshed(acc.nodes[nodeId], stakeOf), CompositeId(acc.checkpoint.id, acc.nodes[nodeId].id);
      && r.checkpoint.totals == AddNode(acc.checkpoint.totals, node)
      && r.metadata == UpdateMinipoolMetadataWithNode(acc.metadata, node)
      && r.nodes == acc.nodes[nodeId := node.(lastNodeBalanceCheckpoint := Some(snapshotId))]
      && r.nodeCheckpoints == acc.nodeCheckpoints[snapshotId := NodeBalanceCheckpoint(snapshotId, acc.checkpoint.id, node, block, blockTime)]
      && r.checkpoint.checkpointWithHighestRPLRewardsRank
         == (if node.totalRPLClaimedRewardsRank == 1 then Some(snapshotId) else acc.checkpoint.checkpointWithHighestRPLRewardsRank)
      && r.checkpoint == acc.checkpoint.(totals := r.checkpoint.totals,
                                         checkpointWithHighestRPLRewardsRank := r.checkpoint.checkpointWithHighestRPLRewardsRank)
  {
    if nodeId !in acc.nodes then acc
    else
      var node := Refreshed(acc.nodes[nodeId], stakeOf);
      var snapshotId := CompositeId(acc.checkpoint.id, node.id);
      var highest := if node.totalRPLClaimedRewardsRank == 1 then Some(snapshotId)
                     else acc.checkpoint.checkpointWithHighestRPLRewardsRank;
      NodeFold(
        acc.checkpoint.(totals := AddNode(acc.checkpoint.totals, node), checkpointWithHighestRPLRewardsRank := highest),
        UpdateMinipoolMetadataWithNode(acc.metadata, node),
        acc.nodes[nodeId := node.(lastNodeBalanceCheckpoint := Some(snapshotId))],
        acc.nodeCheckpoints[snapshotId := NodeBalanceCheckpoint(snapshotId, acc.checkpoint.id, node, block, blockTime)])
  }

  /** generateNodeBalanceCheckpoints: the loop over the protocol's node ids. */
  function GenerateNodeBalanceCheckpoints(ids: seq<string>, acc: NodeFold, stakeOf: string -> StakeReading, block: int, blockTime: int)
    : (r: NodeFold)
    ensures r.checkpoint.id == acc.checkpoint.id
    ensures r.checkpoint == acc.checkpoint.(totals := r.checkpoint.totals,
                                          checkpointWithHighestRPLRewardsRank := r.checkpoint.checkpointWithHighestRPLRewardsRank)
    ensures r.nodes.Keys == acc.nodes.Keys
    decreases |ids|
  {
    if |ids| == 0 then acc
    else GenerateNodeBalanceCheckpoints(ids[1..], FoldNode(acc, ids[0], stakeOf, block, blockTime), stakeOf, block, blockTime)
  }

  /** Reference definition: the refreshed nodes the listed ids load, in
      list order. */
  function RefreshedNodes(ids: seq<string>, nodes: map<string, Node>, stakeOf: string -> StakeReading): (r: seq<Node>)
    ensures |r| <= |ids|
    decreases |ids|
  {
    if |ids| == 0 then []
    else if ids[0] in nodes then [Refreshed(nodes[ids[0]], stakeOf)] + RefreshedNodes(ids[1..], nodes, stakeOf)
    else RefreshedNodes(ids[1..], nodes, stakeOf)
  }

  /** Reference definition: the last listed id whose node is ranked first. */
  function LastTopRanked(ids: seq<string>, nodes: map<string, Node>): Option<string>
    decreases |ids|
  {
    if |ids| == 0 then None
    else match LastTopRanked(ids[1..], nodes)
      case Some(k) => Some(k)
      case None => if ids[0] in nodes && nodes[ids[0]].totalRPLClaimedRewardsRank == 1 then Some(ids[0]) else None
  }

  /** Writing a key the list does not name leaves what the list loads alone. */
  lemma {:induction false} RefreshedNodesIgnoresOtherKeys(ids: seq<string>, nodes: map<string, Node>, stakeOf: string -> StakeReading, k: string, v: Node)
    requires k !in ids
    ensures RefreshedNodes(ids, nodes[k := v], stakeOf) == RefreshedNodes(ids, nodes, stakeOf)
    ensures LastTopRanked(ids, nodes[k := v]) == LastTopRanked(ids, nodes)
    decreases |ids|
  {
    if |ids| > 0 {
      assert k !in ids[1..];
      RefreshedNodesIgnoresOtherKeys(ids[1..], nodes, stakeOf, k, v);
    }
  }

  /** The loop computes the reference definitions: with no id listed twice
      and every node stored under its own id, the totals are the fold of the
      refreshed nodes, the metadata is theirs, and the highest-ranked
      snapshot is the last first-ranked node's. */
  lemma {:induction false} GenerateNodeBalanceCheckpointsComputes(ids: seq<string>, acc: NodeFold, stakeOf: string -> StakeReading, block: int, blockTime: int)
    requires NoDuplicates(ids) && NodesKeyed(acc.nodes)
    ensures var r, loaded := GenerateNodeBalanceCheckpoints(ids, acc, stakeOf, block, blockTime), RefreshedNodes(ids, acc.nodes, stakeOf);
      && r.checkpoint.totals == AddNodes(acc.checkpoint.totals, loaded)
      && r.metadata == AddMetadata(acc.metadata, loaded)
      && r.checkpoint.checkpointWithHighestRPLRewardsRank
         == (match LastTopRanked(ids, acc.nodes)
             case Some(k) => Some(CompositeId(acc.checkpoint.id, k))
             case None => acc.checkpoint.checkpointWithHighestRPLRewardsRank)
    decreases |ids|
  {
    if |ids| > 0 {
      var next := FoldNode(acc, ids[0], stakeOf, block, blockTime);
      assert NoDuplicates(ids[1..]);
      assert ids[0] !in ids[1..];
      if ids[0] in acc.nodes {
        RefreshedNodesIgnoresOtherKeys(ids[1..], acc.nodes, stakeOf, ids[0], next.nodes[ids[0]]);
        assert acc.nodes[ids[0] := next.nodes[ids[0]]] == next.nodes;
      }
      GenerateNodeBalanceCheckpointsComputes(ids[1..], next, stakeOf, block, blockTime);
    }
  }

  /** The loaded nodes depend only on which ids are listed, not on their
      order. */
  lemma {:induction false} RefreshedNodesAppend(xs: seq<string>, ys: seq<string>, nodes: map<string, Node>, stakeOf: string -> StakeReading)
    ensures RefreshedNodes(xs + ys, nodes, stakeOf) == RefreshedNodes(xs, nodes, stakeOf) + RefreshedNodes(ys, nodes, stakeOf)
    decreases |xs|
  {
    if |xs| > 0 {
      assert (xs + ys)[1..] == xs[1..] + ys;
      RefreshedNodesAppend(xs[1..], ys, nodes, stakeOf);
    } else {
      assert xs + ys == ys;
    }
  }

  /** Taking the id at `j` out of the list takes its node, if any, out of
      what the list loads. */
  lemma {:induction false} RefreshedNodesRemove(ys: seq<string>, j: int, nodes: map<string, Node>, stakeOf: string -> StakeReading)
    requires 0 <= j < |ys|
    ensures multiset(RefreshedNodes(ys, nodes, stakeOf))
            == multiset(RefreshedNodes([ys[j]], nodes, stakeOf)) + multiset(RefreshedNodes(ys[..j] + ys[j + 1..], nodes, stakeOf))
  {
    var before, after := ys[..j], ys[j + 1..];
    assert ys == before + ([ys[j]] + after);
    RefreshedNodesAppend(before, [ys[j]] + after, nodes, stakeOf);
    RefreshedNodesAppend([ys[j]], after, nodes, stakeOf);
    RefreshedNodesAppend(before, after, nodes, stakeOf);
  }

  lemma {:induction false} RefreshedNodesPermutation(xs: seq<string>, ys: seq<string>, nodes: map<string, Node>, stakeOf: string -> StakeReading)
    requires multiset(xs) == multiset(ys)
    ensures multiset(RefreshedNodes(xs, nodes, stakeOf)) == multiset(RefreshedNodes(ys, nodes, stakeOf))
    decreases |xs|
  {
    if |xs| == 0 {
      assert |ys| == |multiset(ys)| == 0;
    } else {
      assert xs[0] in multiset(ys);
      var j :| 0 <= j < |ys| && ys[j] == xs[0];
      MultisetRemoveMatching(xs, ys, j);
      RefreshedNodesPermutation(xs[1..], ys[..j] + ys[j + 1..], nodes, stakeOf);
      RefreshedNodesRemove(ys, j, nodes, stakeOf);
      RefreshedNodesRemove(xs, 0, nodes, stakeOf);
      assert xs[..0] + xs[1..] == xs[1..];
    }
  }

  /** The network totals a price update computes do not depend on the order
      of the protocol's node list. */
  lemma {:induction false} NodeTotalsOrderIndependent(xs: seq<string>, ys: seq<string>, acc: NodeFold, stakeOf: string -> StakeReading, block: int, blockTime: int)
    requires multiset(xs) == multiset(ys) && NoDuplicates(xs) && NoDuplicates(ys) && NodesKeyed(acc.nodes)
    ensures GenerateNodeBalanceCheckpoints(xs, acc, stakeOf, block, blockTime).checkpoint.totals
            == GenerateNodeBalanceCheckpoints(ys, acc, stakeOf, block, blockTime).checkpoint.totals
  {
    GenerateNodeBalanceCheckpointsComputes(xs, acc, stakeOf, block, blockTime);
    GenerateNodeBalanceCheckpointsComputes(ys, acc, stakeOf, block, blockTime);
    RefreshedNodesPermutation(xs, ys, acc.nodes, stakeOf);
    AddNodesOrderIndependent(acc.checkpoint.totals, RefreshedNodes(xs, acc.nodes, stakeOf), RefreshedNodes(ys, acc.nodes, stakeOf));
  }

  /** Every listed node that loads gets a snapshot under `<checkpoint id> -
      <node id>` holding its refreshed state and is saved pointing at it,
      with nothing but its stake figures and that link changed; unlisted
      nodes, and snapshots of unlisted nodes, are untouched. */
  lemma {:induction false} NodeSnapshotsLinked(ids: seq<string>, acc: NodeFold, stakeOf: string -> StakeReading, block: int, blockTime: int)
    requires NoDuplicates(ids) && NodesKeyed(acc.nodes)
    ensures var r, cp := GenerateNodeBalanceCheckpoints(ids, acc, stakeOf, block, blockTime), acc.checkpoint.id;
      && NodesKeyed(r.nodes)
      && (forall k :: k in ids && k in acc.nodes ==>
            && r.nodes[k] == Refreshed(acc.nodes[k], stakeOf).(lastNodeBalanceCheckpoint := Some(CompositeId(cp, k)))
            && CompositeId(cp, k) in r.nodeCheckpoints
            && r.nodeCheckpoints[CompositeId(cp, k)]
               == NodeBalanceCheckpoint(CompositeId(cp, k), cp, Refreshed(acc.nodes[k], stakeOf), block, blockTime))
      && (forall k :: k in acc.nodes && k !in ids ==> r.nodes[k] == acc.nodes[k])
      && (forall k :: k !in ids && CompositeId(cp, k) in acc.nodeCheckpoints ==>
            CompositeId(cp, k) in r.nodeCheckpoints
            && r.nodeCheckpoints[CompositeId(cp, k)] == acc.nodeCheckpoints[CompositeId(cp, k)])
    decreases |ids|
  {
    if |ids| > 0 {
      var cp := acc.checkpoint.id;
      var next := FoldNode(acc, ids[0], stakeOf, block, blockTime);
      assert NoDuplicates(ids[1..]);
      assert ids[0] !in ids[1..];
      NodeSnapshotsLinked(ids[1..], next, stakeOf, block, blockTime);
      forall k | k in ids ensures k == ids[0] || k in ids[1..] {
      }
      forall k | k !in ids && CompositeId(cp, k) in acc.nodeCheckpoints
        ensures CompositeId(cp, k) in next.nodeCheckpoints
        ensures next.nodeCheckpoints[CompositeId(cp, k)] == acc.nodeCheckpoints[CompositeId(cp, k)]
      {
        if ids[0] in acc.nodes {
          CompositeIdInjective(cp, k, ids[0]);
        }
      }
    }
  }

  /** A new network node checkpoint as the entity factory creates it:
      linked back to the protocol's last checkpoint, with the price, the fee
      and the new-minipool bounds, and every total at zero. */
  function NewNetworkNodeBalanceCheckpoint(id: string, previousId: Option<string>, bounds: EffectiveMinipoolRPLBounds,
                                           rplPrice: int, newMinipoolFee: int, block: int, blockTime: int)
    : NetworkNodeBalanceCheckpoint
  {
    NetworkNodeBalanceCheckpoint(id, previousId, None, ZeroTotals, 0, 0, 0, bounds.minimum, bounds.maximum,
                                 rplPrice, newMinipoolFee, None, block, blockTime)
  }

  /** The previous checkpoint, if the protocol names one that loads. */
  function PreviousNodeCheckpoint(state: State): Option<NetworkNodeBalanceCheckpoint> {
    match state.protocol.lastNetworkNodeBalanceCheckPoint
    case Some(last) => if last in state.networkNodeCheckpoints then Some(state.networkNodeCheckpoints[last]) else None
    case None => None
  }

  /** handlePricesUpdated. A price update whose checkpoint is already indexed
      changes nothing. Otherwise a checkpoint is created under the event id,
      the previous one is linked forward to it, the nodes are folded in,
      the running totals are filled forward from the previous checkpoint,
      the fee metadata is applied, and the protocol names the new checkpoint
      as its last. */
  function HandlePricesUpdated(state: State, event: EventInfo, rplPrice: int, chain: PricesReads): (r: State)
    ensures event.Id() in state.networkNodeCheckpoints ==> r == state
    ensures event.Id() !in state.networkNodeCheckpoints ==>
      var id, last := event.Id(), state.protocol.lastNetworkNodeBalanceCheckPoint;
      && id in r.networkNodeCheckpoints
      && r.protocol == state.protocol.(lastNetworkNodeBalanceCheckPoint := Some(id))
      && r.networkNodeCheckpoints[id].id == id
      && r.networkNodeCheckpoints[id].previousCheckpointId == last
      && r.networkNodeCheckpoints[id].nextCheckpointId == None
      && r.networkNodeCheckpoints[id].rplPriceInETH == rplPrice
      && r.networkNodeCheckpoints[id].newMinipoolFee == chain.newMinipoolFee
      && r.networkNodeCheckpoints[id].minimumEffectiveRPLNewMinipool == NewMinipoolBounds(rplPrice, chain).minimum
      && r.networkNodeCheckpoints[id].maximumEffectiveRPLNewMinipool == NewMinipoolBounds(rplPrice, chain).maximum
      && (last.Some? && last.value in state.networkNodeCheckpoints ==>
            last.value in r.networkNodeCheckpoints
            && r.networkNodeCheckpoints[last.value]
               == state.networkNodeCheckpoints[last.value].(nextCheckpointId := Some(id)))
      && (forall k :: k in state.networkNodeCheckpoints && k != id && Some(k) != last ==>
            k in r.networkNodeCheckpoints && r.networkNodeCheckpoints[k] == state.networkNodeCheckpoints[k])
      && r.networkNodeCheckpoints.Keys == state.networkNodeCheckpoints.Keys + {id}
      && r.nodes.Keys == state.nodes.Keys
      && r == state.(protocol := r.protocol, nodes := r.nodes, nodeCheckpoints := r.nodeCheckpoints,
                     networkNodeCheckpoints := r.networkNodeCheckpoints)
  {
    var id := event.Id();
    if id in state.networkNodeCheckpoints then state
    else
      var last := state.protocol.lastNetworkNodeBalanceCheckPoint;
      var bounds := NewMinipoolBounds(rplPrice, chain);
      var created := NewNetworkNodeBalanceCheckpoint(id, last, bounds, rplPrice, chain.newMinipoolFee, event.block, event.blockTime);
      var previous := PreviousNodeCheckpoint(state);
      var fold := GenerateNodeBalanceCheckpoints(
        state.protocol.nodes, NodeFold(created, ZeroMetadata, state.nodes, state.nodeCheckpoints),
        chain.stakeOf, event.block, event.blockTime);
      var checkpoint := ApplyMinipoolMetadata(CoerceRunningTotals(fold.checkpoint, previous), fold.metadata);
      var linked :=
        if previous.Some? then state.networkNodeCheckpoints[last.value := previous.value.(nextCheckpointId := Some(id))]
        else state.networkNodeCheckpoints;
      state.(protocol := state.protocol.(lastNetworkNodeBalanceCheckPoint := Some(id)),
             nodes := fold.nodes, nodeCheckpoints := fold.nodeCheckpoints,
             networkNodeCheckpoints := linked[id := checkpoint])
  }

  /** The network node checkpoints form a chain: each is stored under its
      own id, the protocol's last one is stored and has no successor, and
      every successor link points at a stored checkpoint. */
  ghost predicate NodeChainWellFormed(protocol: Protocol, checkpoints: map<string, NetworkNodeBalanceCheckpoint>) {
    && (forall k :: k in checkpoints ==> checkpoints[k].id == k)
    && (protocol.lastNetworkNodeBalanceCheckPoint.Some? ==>
          protocol.lastNetworkNodeBalanceCheckPoint.value in checkpoints
          && checkpoints[protocol.lastNetworkNodeBalanceCheckPoint.value].nextCheckpointId == None)
    && (protocol.lastNetworkNodeBalanceCheckPoint.None? ==> checkpoints == map[])
    && (forall k :: k in checkpoints && checkpoints[k].nextCheckpointId.Some? ==>
          checkpoints[k].nextCheckpointId.value in checkpoints)
    && (forall k :: k in checkpoints && checkpoints[k].nextCheckpointId.None? ==>
          Some(k) == protocol.lastNetworkNodeBalanceCheckPoint)
  }

  /** A price update keeps the chain well formed: the new checkpoint is the
      only tip, and the previous tip now links to it. */
  lemma {:induction false} PricesUpdatedKeepsChain(state: State, event: EventInfo, rplPrice: int, chain: PricesReads)
    requires NodeChainWellFormed(state.protocol, state.networkNodeCheckpoints)
    ensures var r := HandlePricesUpdated(state, event, rplPrice, chain);
      NodeChainWellFormed(r.protocol, r.networkNodeCheckpoints)
  {
  }

  /** What a price update writes into its checkpoint, in terms of the nodes
      the protocol lists (each stored under its own id, none listed twice):
      one registration per loaded node; every total the sum over the
      refreshed nodes, except that a zero claimed, slashed or finalised total
      takes the previous checkpoint's positive value; the effective RPL
      totals from the fee metadata; the highest-ranked snapshot that of the
      last listed node ranked first. */
  lemma {:induction false} PricesUpdatedTotals(state: State, event: EventInfo, rplPrice: int, chain: PricesReads)
    requires NodesKeyed(state.nodes) && NoDuplicates(state.protocol.nodes)
    requires event.Id() !in state.networkNodeCheckpoints
    ensures var r, id := HandlePricesUpdated(state, event, rplPrice, chain), event.Id();
      var loaded := RefreshedNodes(state.protocol.nodes, state.nodes, chain.stakeOf);
      var checkpoint := r.networkNodeCheckpoints[id];
      && checkpoint.totals.nodesRegistered == |loaded|
      && (forall field :: SumOf(loaded, field) != 0 || PreviousNodeCheckpoint(state).None? ==>
            TotalsFieldOf(checkpoint.totals, field) == SumOf(loaded, field))
      && (forall field :: field !in {TotalClaimedRPLRewards, TotalRPLSlashed, TotalFinalizedMinipools} ==>
            TotalsFieldOf(checkpoint.totals, field) == SumOf(loaded, field))
      && (forall field :: SumOf(loaded, field) == 0 && PreviousNodeCheckpoint(state).Some?
                          && field in {TotalClaimedRPLRewards, TotalRPLSlashed, TotalFinalizedMinipools} ==>
            TotalsFieldOf(checkpoint.totals, field) == Max0(TotalsFieldOf(PreviousNodeCheckpoint(state).value.totals, field)))
      && checkpoint.minimumEffectiveRPL == AddMetadata(ZeroMetadata, loaded).totalMinimumEffectiveRPL
      && checkpoint.maximumEffectiveRPL == AddMetadata(ZeroMetadata, loaded).totalMaximumEffectiveRPL
      && checkpoint.checkpointWithHighestRPLRewardsRank
         == (match LastTopRanked(state.protocol.nodes, state.nodes)
             case Some(k) => Some(CompositeId(id, k))
             case None => None)
  {
    var id := event.Id();
    var bounds := NewMinipoolBounds(rplPrice, chain);
    var created := NewNetworkNodeBalanceCheckpoint(id, state.protocol.lastNetworkNodeBalanceCheckPoint, bounds,
                                                   rplPrice, chain.newMinipoolFee, event.block, event.blockTime);
    var acc := NodeFold(created, ZeroMetadata, state.nodes, state.nodeCheckpoints);
    GenerateNodeBalanceCheckpointsComputes(state.protocol.nodes, acc, chain.stakeOf, event.block, event.blockTime);
    var loaded := RefreshedNodes(state.protocol.nodes, state.nodes, chain.stakeOf);
    AddNodesIsSum(ZeroTotals, loaded);
  }

  /** The network fee a price update records lies between the smallest and
      the largest positive average fee among the loaded nodes. */
  lemma {:induction false} PricesUpdatedFeeWithinNodeFees(state: State, event: EventInfo, rplPrice: int, chain: PricesReads, lo: int, hi: int)
    requires NodesKeyed(state.nodes) && NoDuplicates(state.protocol.nodes)
    requires event.Id() !in state.networkNodeCheckpoints
    requires 0 < lo && FeesWithin(RefreshedNodes(state.protocol.nodes, state.nodes, chain.stakeOf), lo, hi)
    requires exists i :: (0 <= i < |RefreshedNodes(state.protocol.nodes, state.nodes, chain.stakeOf)|
                          && RefreshedNodes(state.protocol.nodes, state.nodes, chain.stakeOf)[i].averageFeeForActiveMinipools > 0)
    ensures lo <= HandlePricesUpdated(state, event, rplPrice, chain).networkNodeCheckpoints[event.Id()].averageFeeForActiveMinipools <= hi
  {
    var id := event.Id();
    var bounds := NewMinipoolBounds(rplPrice, chain);
    var created := NewNetworkNodeBalanceCheckpoint(id, state.protocol.lastNetworkNodeBalanceCheckPoint, bounds,
                                                   rplPrice, chain.newMinipoolFee, event.block, event.blockTime);
    var acc := NodeFold(created, ZeroMetadata, state.nodes, state.nodeCheckpoints);
    GenerateNodeBalanceCheckpointsComputes(state.protocol.nodes, acc, chain.stakeOf, event.block, event.blockTime);
    var fold := GenerateNodeBalanceCheckpoints(state.protocol.nodes, acc, chain.stakeOf, event.block, event.blockTime);
    NetworkFeeWithinNodeFees(CoerceRunningTotals(fold.checkpoint, PreviousNodeCheckpoint(state)),
                             RefreshedNodes(state.protocol.nodes, state.nodes, chain.stakeOf), lo, hi);
  }
}

=== FILE: node_accounting.dfy ===
/** Node collateral and network node checkpoint arithmetic
    (src/utilities/nodeutilities.ts): the RPL a new minipool needs, the fold
    of nodes into a network node balance checkpoint, the minipool fee
    metadata, and the forward fill of running totals. */
module NodeAccounting {
  import opened Wrappers
  import opened FixedPoint
  import opened Entities

  /** getMinimumRPLForNewMinipool and getMaximumRPLForNewMinipool share one
      rule: the node deposit times the collateral ratio, divided by the RPL
      price, and zero if any of the three is zero. */
  function RPLForNewMinipool(nodeDepositAmount: int, collateralRatio: int, rplPrice: int): (r: int)
    ensures nodeDepositAmount == 0 || collateralRatio == 0 || rplPrice == 0 ==> r == 0
    ensures rplPrice != 0 ==> Abs(r) == Abs(nodeDepositAmount * collateralRatio) / Abs(rplPrice)
    ensures nodeDepositAmount >= 0 && collateralRatio >= 0 && rplPrice > 0 ==>
      r >= 0 && r * rplPrice <= nodeDepositAmount * collateralRatio < (r + 1) * rplPrice
  {
    if nodeDepositAmount == 0 || collateralRatio == 0 || rplPrice == 0 then 0
    else TDiv(nodeDepositAmount * collateralRatio, rplPrice)
  }

  /** With the same deposit and price, the smaller ratio never asks for more
      RPL than the larger one: the minimum bound is at most the maximum. */
  lemma {:induction false} NewMinipoolBoundsOrdered(nodeDepositAmount: int, minimumRatio: int, maximumRatio: int, rplPrice: int)
    requires nodeDepositAmount >= 0 && 0 <= minimumRatio <= maximumRatio && rplPrice > 0
    ensures 0 <= RPLForNewMinipool(nodeDepositAmount, minimumRatio, rplPrice)
              <= RPLForNewMinipool(nodeDepositAmount, maximumRatio, rplPrice)
  {
    if nodeDepositAmount != 0 && minimumRatio != 0 {
      MulLeMonotone(minimumRatio, maximumRatio, nodeDepositAmount);
      assert nodeDepositAmount * minimumRatio <= nodeDepositAmount * maximumRatio;
      TDivMonotone(nodeDepositAmount * minimumRatio, nodeDepositAmount * maximumRatio, rplPrice);
    }
  }

  /** A dearer RPL never raises the RPL a new minipool needs. */
  lemma {:induction false} NewMinipoolBoundFallsWithPrice(nodeDepositAmount: int, collateralRatio: int, price1: int, price2: int)
    requires nodeDepositAmount >= 0 && collateralRatio >= 0 && 0 < price1 <= price2
    ensures 0 <= RPLForNewMinipool(nodeDepositAmount, collateralRatio, price2)
              <= RPLForNewMinipool(nodeDepositAmount, collateralRatio, price1)
  {
    if nodeDepositAmount != 0 && collateralRatio != 0 {
      var x := nodeDepositAmount * collateralRatio;
      var q2 := RPLForNewMinipool(nodeDepositAmount, collateralRatio, price2);
      var q1 := RPLForNewMinipool(nodeDepositAmount, collateralRatio, price1);
      MulLeMonotone(price1, price2, q2);
      assert q2 * price1 <= x;
      assert x < (q1 + 1) * price1;
      MulStrictCancel(q2, q1 + 1, price1);
    }
  }

  /** The node's effective, minimum and maximum RPL stake as the node
      staking contract reports them. */
  datatype StakeReading = StakeReading(effectiveRPLStaked: int, minimumEffectiveRPL: int, maximumEffectiveRPL: int)

  /** setEffectiveRPLStaked: the three stake figures are taken from the
      reading. */
  function SetEffectiveRPLStaked(node: Node, reading: StakeReading): Node {
    node.(effectiveRPLStaked := reading.effectiveRPLStaked,
          minimumEffectiveRPL := reading.minimumEffectiveRPL,
          maximumEffectiveRPL := reading.maximumEffectiveRPL)
  }

  /** The per-node quantities a network node checkpoint adds up. */
  datatype TotalsField =
    | RPLStaked | EffectiveRPLStaked | TotalRPLSlashed | TotalClaimedRPLRewards
    | QueuedMinipools | StakingMinipools | StakingUnbondedMinipools | WithdrawableMinipools | TotalFinalizedMinipools

  function NodeField(node: Node, field: TotalsField): int {
    match field
    case RPLStaked => node.rplStaked
    case EffectiveRPLStaked => node.effectiveRPLStaked
    case TotalRPLSlashed => node.totalRPLSlashed
    case TotalClaimedRPLRewards => node.totalClaimedRPLRewards
    case QueuedMinipools => node.queuedMinipools
    case StakingMinipools => node.stakingMinipools
    case StakingUnbondedMinipools => node.stakingUnbondedMinipools
    case WithdrawableMinipools => node.withdrawableMinipools
    case TotalFinalizedMinipools => node.totalFinalizedMinipools
  }

  function TotalsFieldOf(totals: NodeTotals, field: TotalsField): int {
    match field
    case RPLStaked => totals.rplStaked
    case EffectiveRPLStaked => totals.effectiveRPLStaked
    case TotalRPLSlashed => totals.totalRPLSlashed
    case TotalClaimedRPLRewards => totals.totalClaimedRPLRewards
    case QueuedMinipools => totals.queuedMinipools
    case StakingMinipools => totals.stakingMinipools
    case StakingUnbondedMinipools => totals.stakingUnbondedMinipools
    case WithdrawableMinipools => totals.withdrawableMinipools
    case TotalFinalizedMinipools => totals.totalFinalizedMinipools
  }

  /** Two totals records agree when they count the same nodes and agree on
      every summed quantity. */
  lemma TotalsExtensional(a: NodeTotals, b: NodeTotals)
    requires a.nodesRegistered == b.nodesRegistered
    requires forall field :: TotalsFieldOf(a, field) == TotalsFieldOf(b, field)
    ensures a == b
  {
    assert TotalsFieldOf(a, RPLStaked) == TotalsFieldOf(b, RPLStaked);
    assert TotalsFieldOf(a, EffectiveRPLStaked) == TotalsFieldOf(b, EffectiveRPLStaked);
    assert TotalsFieldOf(a, TotalRPLSlashed) == TotalsFieldOf(b, TotalRPLSlashed);
    assert TotalsFieldOf(a, TotalClaimedRPLRewards) == TotalsFieldOf(b, TotalClaimedRPLRewards);
    assert TotalsFieldOf(a, QueuedMinipools) == TotalsFieldOf(b, QueuedMinipools);
    assert TotalsFieldOf(a, StakingMinipools) == TotalsFieldOf(b, StakingMinipools);
    assert TotalsFieldOf(a, StakingUnbondedMinipools) == TotalsFieldOf(b, StakingUnbondedMinipools);
    assert TotalsFieldOf(a, WithdrawableMinipools) == TotalsFieldOf(b, WithdrawableMinipools);
    assert TotalsFieldOf(a, TotalFinalizedMinipools) == TotalsFieldOf(b, TotalFinalizedMinipools);
  }

  /** updateNetworkNodeBalanceCheckpointForNode: one more registered node,
      and each of the node's quantities added to its running total. */
  function AddNode(totals: NodeTotals, node: Node): (r: NodeTotals)
    ensures r.nodesRegistered == totals.nodesRegistered + 1
    ensures forall field :: TotalsFieldOf(r, field) == TotalsFieldOf(totals, field) + NodeField(node, field)
  {
    NodeTotals(
      totals.nodesRegistered + 1,
      totals.rplStaked + node.rplStaked,
      totals.effectiveRPLStaked + node.effectiveRPLStaked,
      totals.totalRPLSlashed + node.totalRPLSlashed,
      totals.totalClaimedRPLRewards + node.totalClaimedRPLRewards,
      totals.queuedMinipools + node.queuedMinipools,
      totals.stakingMinipools + node.stakingMinipools,
      totals.stakingUnbondedMinipools + node.stakingUnbondedMinipools,
      totals.withdrawableMinipools + node.withdrawableMinipools,
      totals.totalFinalizedMinipools + node.totalFinalizedMinipools)
  }

  /** Folding a list of nodes into the totals, first to last. */
  function AddNodes(totals: NodeTotals, nodes: seq<Node>): NodeTotals
    decreases |nodes|
  {
    if |nodes| == 0 then totals else AddNodes(AddNode(totals, nodes[0]), nodes[1..])
  }

  /** The sum of one quantity over a list of nodes. */
  function SumOf(nodes: seq<Node>, field: TotalsField): int
    decreases |nodes|
  {
    if |nodes| == 0 then 0 else NodeField(nodes[0], field) + SumOf(nodes[1..], field)
  }

  lemma {:induction false} SumOfAppend(xs: seq<Node>, ys: seq<Node>, field: TotalsField)
    ensures SumOf(xs + ys, field) == SumOf(xs, field) + SumOf(ys, field)
    decreases |xs|
  {
    if |xs| == 0 {
      assert xs + ys == ys;
    } else {
      assert (xs + ys)[1..] == xs[1..] + ys;
      SumOfAppend(xs[1..], ys, field);
    }
  }

  /** Taking the element at i out of a list takes its quantity out of the
      sum. */
  lemma {:induction false} SumOfRemove(ys: seq<Node>, i: int, field: TotalsField)
    requires 0 <= i < |ys|
    ensures SumOf(ys, field) == NodeField(ys[i], field) + SumOf(ys[..i] + ys[i + 1..], field)
  {
    assert ys == ys[..i] + ([ys[i]] + ys[i + 1..]);
    SumOfAppend(ys[..i], [ys[i]] + ys[i + 1..], field);
    assert ([ys[i]] + ys[i + 1..])[1..] == ys[i + 1..];
    SumOfAppend(ys[..i], ys[i + 1..], field);
  }

  /** Removing the same element from two permutations of each other leaves
      permutations of each other. */
  lemma MultisetRemoveMatching<T>(xs: seq<T>, ys: seq<T>, i: int)
    requires multiset(xs) == multiset(ys) && |xs| > 0
    requires 0 <= i < |ys| && ys[i] == xs[0]
    ensures multiset(xs[1..]) == multiset(ys[..i] + ys[i + 1..])
  {
    assert xs == [xs[0]] + xs[1..];
    assert ys == ys[..i] + [ys[i]] + ys[i + 1..];
    assert multiset(xs[1..]) == multiset(xs) - multiset{xs[0]};
    assert multiset(ys[..i] + ys[i + 1..]) == multiset(ys) - multiset{ys[i]};
  }

  /** A sum does not depend on the order of the nodes. */
  lemma {:induction false} SumOfPermutation(xs: seq<Node>, ys: seq<Node>, field: TotalsField)
    requires multiset(xs) == multiset(ys)
    ensures SumOf(xs, field) == SumOf(ys, field)
    decreases |xs|
  {
    if |xs| == 0 {
      assert |ys| == |multiset(ys)| == 0;
    } else {
      assert xs[0] in multiset(ys);
      var i :| 0 <= i < |ys| && ys[i] == xs[0];
      MultisetRemoveMatching(xs, ys, i);
      SumOfPermutation(xs[1..], ys[..i] + ys[i + 1..], field);
      SumOfRemove(ys, i, field);
    }
  }

  /** Folding nodes adds one registration per node and, per quantity, the
      sum over the nodes. */
  lemma {:induction false} AddNodesIsSum(totals: NodeTotals, nodes: seq<Node>)
    ensures AddNodes(totals, nodes).nodesRegistered == totals.nodesRegistered + |nodes|
    ensures forall field :: TotalsFieldOf(AddNodes(totals, nodes), field) == TotalsFieldOf(totals, field) + SumOf(nodes, field)
    decreases |nodes|
  {
    if |nodes| > 0 {
      AddNodesIsSum(AddNode(totals, nodes[0]), nodes[1..]);
    }
  }

  /** The network totals do not depend on the order in which nodes are
      folded in. */
  lemma {:induction false} AddNodesOrderIndependent(totals: NodeTotals, xs: seq<Node>, ys: seq<Node>)
    requires multiset(xs) == multiset(ys)
    ensures AddNodes(totals, xs) == AddNodes(totals, ys)
  {
    AddNodesIsSum(totals, xs);
    AddNodesIsSum(totals, ys);
    assert |xs| == |multiset(xs)| == |multiset(ys)| == |ys|;
    forall field
      ensures TotalsFieldOf(AddNodes(totals, xs), field) == TotalsFieldOf(AddNodes(totals, ys), field)
    {
      SumOfPermutation(xs, ys, field);
    }
    TotalsExtensional(AddNodes(totals, xs), AddNodes(totals, ys));
  }

  /** NetworkNodeBalanceMinipoolMetadata: what the network fee average and
      the effective RPL totals are computed from. */
  datatype MinipoolMetadata = MinipoolMetadata(
    totalNodesWithActiveMinipools: int,
    totalAverageFeeForAllActiveMinipools: int,
    totalMinimumEffectiveRPL: int,
    totalMaximumEffectiveRPL: int)

  const ZeroMetadata := MinipoolMetadata(0, 0, 0, 0)

  /** updateMinipoolMetadataWithNode as written: a node with a positive
      average fee adds that fee divided by S, which truncates every fee below
      one ether to nothing. */
  function UpdateMinipoolMetadataWithNodeAsWritten(metadata: MinipoolMetadata, node: Node): (r: MinipoolMetadata)
    ensures node.averageFeeForActiveMinipools > 0 ==>
      r.totalAverageFeeForAllActiveMinipools
      == metadata.totalAverageFeeForAllActiveMinipools + node.averageFeeForActiveMinipools / S
    ensures node.averageFeeForActiveMinipools <= 0 ==>
      r.totalAverageFeeForAllActiveMinipools == metadata.totalAverageFeeForAllActiveMinipools
    ensures 0 < node.averageFeeForActiveMinipools < S ==>
      r.totalAverageFeeForAllActiveMinipools == metadata.totalAverageFeeForAllActiveMinipools
    ensures r.totalNodesWithActiveMinipools
            == metadata.totalNodesWithActiveMinipools + (if node.averageFeeForActiveMinipools > 0 then 1 else 0)
    ensures r.totalMinimumEffectiveRPL == metadata.totalMinimumEffectiveRPL + node.minimumEffectiveRPL
    ensures r.totalMaximumEffectiveRPL == metadata.totalMaximumEffectiveRPL + node.maximumEffectiveRPL
  {
    var withFee :=
      if node.averageFeeForActiveMinipools > 0 then
        metadata.(totalAverageFeeForAllActiveMinipools :=
                    metadata.totalAverageFeeForAllActiveMinipools + TDiv(node.averageFeeForActiveMinipools, S),
                  totalNodesWithActiveMinipools := metadata.totalNodesWithActiveMinipools + 1)
      else metadata;
    withFee.(totalMinimumEffectiveRPL := withFee.totalMinimumEffectiveRPL + node.minimumEffectiveRPL,
             totalMaximumEffectiveRPL := withFee.totalMaximumEffectiveRPL + node.maximumEffectiveRPL)
  }

  /** updateMinipoolMetadataWithNode as the network average needs it: a node
      with a positive average fee adds that fee, in wei, and counts once; the
      effective RPL bounds are always added. */
  function UpdateMinipoolMetadataWithNode(metadata: MinipoolMetadata, node: Node): (r: MinipoolMetadata)
    ensures node.averageFeeForActiveMinipools > 0 ==>
      && r.totalAverageFeeForAllActiveMinipools
         == metadata.totalAverageFeeForAllActiveMinipools + node.averageFeeForActiveMinipools
      && r.totalNodesWithActiveMinipools == metadata.totalNodesWithActiveMinipools + 1
    ensures node.averageFeeForActiveMinipools <= 0 ==>
      && r.totalAverageFeeForAllActiveMinipools == metadata.totalAverageFeeForAllActiveMinipools
      && r.totalNodesWithActiveMinipools == metadata.totalNodesWithActiveMinipools
    ensures r.totalMinimumEffectiveRPL == metadata.totalMinimumEffectiveRPL + node.minimumEffectiveRPL
    ensures r.totalMaximumEffectiveRPL == metadata.totalMaximumEffectiveRPL + node.maximumEffectiveRPL
  {
    var withFee :=
      if node.averageFeeForActiveMinipools > 0 then
        metadata.(totalAverageFeeForAllActiveMinipools :=
                    metadata.totalAverageFeeForAllActiveMinipools + node.averageFeeForActiveMinipools,
                  totalNodesWithActiveMinipools := metadata.totalNodesWithActiveMinipools + 1)
      else metadata;
    withFee.(totalMinimumEffectiveRPL := withFee.totalMinimumEffectiveRPL + node.minimumEffectiveRPL,
             totalMaximumEffectiveRPL := withFee.totalMaximumEffectiveRPL + node.maximumEffectiveRPL)
  }

  function AddMetadataAsWritten(metadata: MinipoolMetadata, nodes: seq<Node>): MinipoolMetadata
    decreases |nodes|
  {
    if |nodes| == 0 then metadata else AddMetadataAsWritten(UpdateMinipoolMetadataWithNodeAsWritten(metadata, nodes[0]), nodes[1..])
  }

  function AddMetadata(metadata: MinipoolMetadata, nodes: seq<Node>): MinipoolMetadata
    decreases |nodes|
  {
    if |nodes| == 0 then metadata else AddMetadata(UpdateMinipoolMetadataWithNode(metadata, nodes[0]), nodes[1..])
  }

  /** updateNetworkNodeBalanceCheckpointForMinipoolMetadata as written: the
      summed fees, taken to be in ether, are averaged and scaled back by S. */
  function ApplyMinipoolMetadataAsWritten(checkpoint: NetworkNodeBalanceCheckpoint, metadata: MinipoolMetadata)
    : (r: NetworkNodeBalanceCheckpoint)
    ensures metadata.totalNodesWithActiveMinipools > 0 && metadata.totalAverageFeeForAllActiveMinipools > 0 ==>
      && r.averageFeeForActiveMinipools % S == 0
      && r.averageFeeForActiveMinipools
         == (metadata.totalAverageFeeForAllActiveMinipools / metadata.totalNodesWithActiveMinipools) * S
    ensures !(metadata.totalNodesWithActiveMinipools > 0 && metadata.totalAverageFeeForAllActiveMinipools > 0) ==>
      r.averageFeeForActiveMinipools == checkpoint.averageFeeForActiveMinipools
    ensures r == checkpoint.(averageFeeForActiveMinipools := r.averageFeeForActiveMinipools,
                             minimumEffectiveRPL := metadata.totalMinimumEffectiveRPL,
                             maximumEffectiveRPL := metadata.totalMaximumEffectiveRPL)
  {
    var count, total := metadata.totalNodesWithActiveMinipools, metadata.totalAverageFeeForAllActiveMinipools;
    var averaged :=
      if count > 0 && total > 0 then checkpoint.(averageFeeForActiveMinipools := TDiv(total, count) * S)
      else checkpoint;
    averaged.(minimumEffectiveRPL := metadata.totalMinimumEffectiveRPL,
              maximumEffectiveRPL := metadata.totalMaximumEffectiveRPL)
  }

  /** updateNetworkNodeBalanceCheckpointForMinipoolMetadata with the fees
      kept in wei: the network fee is the mean of the node averages, set only
      when some node has a positive average; the effective RPL totals are
      copied. */
  function ApplyMinipoolMetadata(checkpoint: NetworkNodeBalanceCheckpoint, metadata: MinipoolMetadata)
    : (r: NetworkNodeBalanceCheckpoint)
    ensures metadata.totalNodesWithActiveMinipools > 0 && metadata.totalAverageFeeForAllActiveMinipools > 0 ==>
      var (average, count) := (r.averageFeeForActiveMinipools, metadata.totalNodesWithActiveMinipools);
      average * count <= metadata.totalAverageFeeForAllActiveMinipools < (average + 1) * count
    ensures !(metadata.totalNodesWithActiveMinipools > 0 && metadata.totalAverageFeeForAllActiveMinipools > 0) ==>
      r.averageFeeForActiveMinipools == checkpoint.averageFeeForActiveMinipools
    ensures r == checkpoint.(averageFeeForActiveMinipools := r.averageFeeForActiveMinipools,
                             minimumEffectiveRPL := metadata.totalMinimumEffectiveRPL,
                             maximumEffectiveRPL := metadata.totalMaximumEffectiveRPL)
  {
    var count, total := metadata.totalNodesWithActiveMinipools, metadata.totalAverageFeeForAllActiveMinipools;
    var averaged :=
      if count > 0 && total > 0 then checkpoint.(averageFeeForActiveMinipools := TDiv(total, count))
      else checkpoint;
    averaged.(minimumEffectiveRPL := metadata.totalMinimumEffectiveRPL,
              maximumEffectiveRPL := metadata.totalMaximumEffectiveRPL)
  }

  /** Every node's average fee lies in [lo, hi] whenever it is positive. */
  ghost predicate FeesWithin(nodes: seq<Node>, lo: int, hi: int) {
    forall i :: 0 <= i < |nodes| && nodes[i].averageFeeForActiveMinipools > 0 ==>
      lo <= nodes[i].averageFeeForActiveMinipools <= hi
  }

  /** The fee metadata grows by the positive fees and by their count, and
      its fee total stays between the count times the smallest and times the
      largest fee. */
  lemma {:induction false} AddMetadataFeeBounds(metadata: MinipoolMetadata, nodes: seq<Node>, lo: int, hi: int)
    requires FeesWithin(nodes, lo, hi)
    ensures var r := AddMetadata(metadata, nodes);
      var added, count := r.totalAverageFeeForAllActiveMinipools - metadata.totalAverageFeeForAllActiveMinipools,
                          r.totalNodesWithActiveMinipools - metadata.totalNodesWithActiveMinipools;
      && 0 <= count <= |nodes|
      && count * lo <= added <= count * hi
    decreases |nodes|
  {
    if |nodes| > 0 {
      var next := UpdateMinipoolMetadataWithNode(metadata, nodes[0]);
      assert FeesWithin(nodes[1..], lo, hi) by {
        forall i | 0 <= i < |nodes[1..]| && nodes[1..][i].averageFeeForActiveMinipools > 0
          ensures lo <= nodes[1..][i].averageFeeForActiveMinipools <= hi
        {
          assert nodes[1..][i] == nodes[i + 1];
        }
      }
      AddMetadataFeeBounds(next, nodes[1..], lo, hi);
      var r := AddMetadata(next, nodes[1..]);
      var count' := r.totalNodesWithActiveMinipools - next.totalNodesWithActiveMinipools;
      if nodes[0].averageFeeForActiveMinipools > 0 {
        assert (count' + 1) * lo == count' * lo + lo;
        assert (count' + 1) * hi == count' * hi + hi;
      }
    }
  }

  /** Some node has a positive average fee exactly when the metadata counts
      at least one more node with active minipools. */
  lemma {:induction false} AddMetadataCountsPositiveFees(metadata: MinipoolMetadata, nodes: seq<Node>)
    ensures AddMetadata(metadata, nodes).totalNodesWithActiveMinipools > metadata.totalNodesWithActiveMinipools
            <==> exists i :: 0 <= i < |nodes| && nodes[i].averageFeeForActiveMinipools > 0
    ensures AddMetadata(metadata, nodes).totalNodesWithActiveMinipools >= metadata.totalNodesWithActiveMinipools
    decreases |nodes|
  {
    if |nodes| > 0 {
      var next := UpdateMinipoolMetadataWithNode(metadata, nodes[0]);
      AddMetadataCountsPositiveFees(next, nodes[1..]);
      if exists i :: 0 <= i < |nodes[1..]| && nodes[1..][i].averageFeeForActiveMinipools > 0 {
        var i :| 0 <= i < |nodes[1..]| && nodes[1..][i].averageFeeForActiveMinipools > 0;
        assert nodes[i + 1] == nodes[1..][i];
      }
      if exists i :: 0 <= i < |nodes| && nodes[i].averageFeeForActiveMinipools > 0 {
        var i :| 0 <= i < |nodes| && nodes[i].averageFeeForActiveMinipools > 0;
        if i > 0 { assert nodes[1..][i - 1] == nodes[i]; }
      }
    }
  }

  /** The network fee average lies between the smallest and the largest
      positive node average that went into it. */
  lemma {:induction false} NetworkFeeWithinNodeFees(checkpoint: NetworkNodeBalanceCheckpoint, nodes: seq<Node>, lo: int, hi: int)
    requires 0 < lo && FeesWithin(nodes, lo, hi)
    requires exists i :: 0 <= i < |nodes| && nodes[i].averageFeeForActiveMinipools > 0
    ensures var r := ApplyMinipoolMetadata(checkpoint, AddMetadata(ZeroMetadata, nodes));
      lo <= r.averageFeeForActiveMinipools <= hi
  {
    AddMetadataFeeBounds(ZeroMetadata, nodes, lo, hi);
    AddMetadataCountsPositiveFees(ZeroMetadata, nodes);
    var m := AddMetadata(ZeroMetadata, nodes);
    MulLeMonotone(1, m.totalNodesWithActiveMinipools, lo);
    DivBetween(m.totalAverageFeeForAllActiveMinipools, m.totalNodesWithActiveMinipools, lo, hi);
  }

  /** As written, fees below one ether (every real minipool fee) never reach
      the network average: it keeps whatever value it had. */
  lemma {:induction false} NetworkFeeAsWrittenIgnoresSubEtherFees(checkpoint: NetworkNodeBalanceCheckpoint, nodes: seq<Node>)
    requires forall i :: 0 <= i < |nodes| ==> nodes[i].averageFeeForActiveMinipools < S
    ensures AddMetadataAsWritten(ZeroMetadata, nodes).totalAverageFeeForAllActiveMinipools == 0
    ensures ApplyMinipoolMetadataAsWritten(checkpoint, AddMetadataAsWritten(ZeroMetadata, nodes)).averageFeeForActiveMinipools
            == checkpoint.averageFeeForActiveMinipools
  {
    AddMetadataAsWrittenKeepsFeeTotal(ZeroMetadata, nodes);
  }

  lemma {:induction false} AddMetadataAsWrittenKeepsFeeTotal(metadata: MinipoolMetadata, nodes: seq<Node>)
    requires forall i :: 0 <= i < |nodes| ==> nodes[i].averageFeeForActiveMinipools < S
    ensures AddMetadataAsWritten(metadata, nodes).totalAverageFeeForAllActiveMinipools
            == metadata.totalAverageFeeForAllActiveMinipools
    decreases |nodes|
  {
    if |nodes| > 0 {
      AddMetadataAsWrittenKeepsFeeTotal(UpdateMinipoolMetadataWithNodeAsWritten(metadata, nodes[0]), nodes[1..]);
    }
  }

  /** One node with a 10% average fee: as written the network average stays
      0; the intended average is that node's 10%. */
  lemma NetworkFeeCounterexample(checkpoint: NetworkNodeBalanceCheckpoint, node: Node)
    requires node.averageFeeForActiveMinipools == S / 10
    requires checkpoint.averageFeeForActiveMinipools == 0
    ensures ApplyMinipoolMetadataAsWritten(checkpoint, AddMetadataAsWritten(ZeroMetadata, [node])).averageFeeForActiveMinipools == 0
    ensures ApplyMinipoolMetadata(checkpoint, AddMetadata(ZeroMetadata, [node])).averageFeeForActiveMinipools == S / 10
  {
    assert AddMetadataAsWritten(ZeroMetadata, [node]) == UpdateMinipoolMetadataWithNodeAsWritten(ZeroMetadata, node);
    assert AddMetadata(ZeroMetadata, [node]) == UpdateMinipoolMetadataWithNode(ZeroMetadata, node);
  }

  /** coerceRunningTotalsBasedOnPreviousCheckpoint: claimed RPL, slashed RPL
      and finalised minipools left at zero take the previous checkpoint's
      positive value. */
  function CoerceRunningTotals(checkpoint: NetworkNodeBalanceCheckpoint, previous: Option<NetworkNodeBalanceCheckpoint>)
    : (r: NetworkNodeBalanceCheckpoint)
    ensures previous.None? ==> r == checkpoint
    ensures forall field :: field !in {TotalClaimedRPLRewards, TotalRPLSlashed, TotalFinalizedMinipools} ==>
      TotalsFieldOf(r.totals, field) == TotalsFieldOf(checkpoint.totals, field)
    ensures forall field :: TotalsFieldOf(checkpoint.totals, field) != 0 ==>
      TotalsFieldOf(r.totals, field) == TotalsFieldOf(checkpoint.totals, field)
    ensures previous.Some? ==> forall field :: field in {TotalClaimedRPLRewards, TotalRPLSlashed, TotalFinalizedMinipools} ==>
      (TotalsFieldOf(r.totals, field) == 0 <==>
         TotalsFieldOf(checkpoint.totals, field) == 0 && TotalsFieldOf(previous.value.totals, field) <= 0)
    ensures previous.Some? ==> forall field :: field in {TotalClaimedRPLRewards, TotalRPLSlashed, TotalFinalizedMinipools} ==>
      TotalsFieldOf(checkpoint.totals, field) == 0 ==>
        TotalsFieldOf(r.totals, field) == Max0(TotalsFieldOf(previous.value.totals, field))
    ensures r == checkpoint.(totals := r.totals)
    ensures r.totals.nodesRegistered == checkpoint.totals.nodesRegistered
  {
    if previous.None? then checkpoint
    else
      var p, t := previous.value.totals, checkpoint.totals;
      var claimed := if t.totalClaimedRPLRewards == 0 && p.totalClaimedRPLRewards > 0 then p.totalClaimedRPLRewards else t.totalClaimedRPLRewards;
      var slashed := if t.totalRPLSlashed == 0 && p.totalRPLSlashed > 0 then p.totalRPLSlashed else t.totalRPLSlashed;
      var finalized := if t.totalFinalizedMinipools == 0 && p.totalFinalizedMinipools > 0 then p.totalFinalizedMinipools else t.totalFinalizedMinipools;
      checkpoint.(totals := t.(totalClaimedRPLRewards := claimed, totalRPLSlashed := slashed, totalFinalizedMinipools := finalized))
  }

  /** Coercing twice against the same previous checkpoint is coercing once. */
  lemma {:induction false} CoerceRunningTotalsIdempotent(checkpoint: NetworkNodeBalanceCheckpoint, previous: Option<NetworkNodeBalanceCheckpoint>)
    ensures CoerceRunningTotals(CoerceRunningTotals(checkpoint, previous), previous) == CoerceRunningTotals(checkpoint, previous)
  {
    var once := CoerceRunningTotals(checkpoint, previous);
    var twice := CoerceRunningTotals(once, previous);
    forall field ensures TotalsFieldOf(twice.totals, field) == TotalsFieldOf(once.totals, field) {
      if TotalsFieldOf(once.totals, field) == 0 && previous.Some? {
        assert field in {TotalClaimedRPLRewards, TotalRPLSlashed, TotalFinalizedMinipools} ==>
          TotalsFieldOf(previous.value.totals, field) <= 0;
      }
    }
    TotalsExtensional(twice.totals, once.totals);
  }
}

=== FILE: node_manager.dfy ===
/** Node registration and timezones (src/mappings/rocketNodeManager.ts):
    each timezone counts the nodes registered in it, and the protocol lists
    every registered node once. */
module NodeManager {
  import opened Wrappers
  import opened FixedPoint
  import opened GeneralUtilities
  import opened Entities

  /** getNodeTimezoneId: the timezone the node manager reports, or
      "UNKNOWN" when it reports none. */
  function TimezoneId(reported: Option<string>): (id: string)
    ensures reported.Some? ==> id == reported.value
    ensures reported.None? ==> id == "UNKNOWN"
  {
    reported.GetOr("UNKNOWN")
  }

  /** The stored timezone, or a new one with no nodes stamped with the
      event's block. */
  function LoadOrCreateTimezone(timezones: map<string, NetworkNodeTimezone>, id: string, block: int, blockTime: int)
    : (t: NetworkNodeTimezone)
    ensures id in timezones ==> t == timezones[id]
    ensures id !in timezones ==> t == NetworkNodeTimezone(id, 0, block, blockTime)
  {
    if id in timezones then timezones[id] else NetworkNodeTimezone(id, 0, block, blockTime)
  }

  /** handleNodeRegister: a node already indexed is left alone. Otherwise its
      timezone (created if missing) counts one more node, the node is created
      in that timezone, and the protocol lists it once. */
  function HandleNodeRegister(state: State, event: EventInfo, nodeId: string, reportedTimezone: Option<string>): (r: State)
    ensures nodeId in state.nodes ==> r == state
    ensures nodeId !in state.nodes ==>
      var tz := TimezoneId(reportedTimezone);
      && tz in r.timezones
      && r.timezones == state.timezones[tz := r.timezones[tz]]
      && r.timezones[tz].totalRegisteredNodes
         == (if tz in state.timezones then state.timezones[tz].totalRegisteredNodes else 0) + 1
      && r.nodes == state.nodes[nodeId := NewNode(nodeId, tz, event.block, event.blockTime)]
      && nodeId in r.protocol.nodes
      && (forall k :: k in r.protocol.nodes <==> k in state.protocol.nodes || k == nodeId)
      && (NoDuplicates(state.protocol.nodes) ==> NoDuplicates(r.protocol.nodes))
      && r == state.(protocol := state.protocol.(nodes := r.protocol.nodes), nodes := r.nodes, timezones := r.timezones)
  {
    if nodeId in state.nodes then state
    else
      var tzId := TimezoneId(reportedTimezone);
      var timezone := LoadOrCreateTimezone(state.timezones, tzId, event.block, event.blockTime);
      var counted := timezone.(totalRegisteredNodes := timezone.totalRegisteredNodes + 1);
      var node := NewNode(nodeId, tzId, event.block, event.blockTime);
      state.(protocol := state.protocol.(nodes := AppendIfAbsent(state.protocol.nodes, nodeId)),
             nodes := state.nodes[nodeId := node],
             timezones := state.timezones[tzId := counted])
  }

  /** Moves one node out of `from` (never below zero, and only if indexed)
      and into `to` (created if missing), in that order. */
  function MoveBetweenTimezones(timezones: map<string, NetworkNodeTimezone>, from: string, to: string, block: int, blockTime: int)
    : (r: map<string, NetworkNodeTimezone>)
    ensures r.Keys == timezones.Keys + {to}
    ensures from != to && from in timezones ==>
      r[from] == timezones[from].(totalRegisteredNodes := Max0(timezones[from].totalRegisteredNodes - 1))
    ensures from != to ==> r[to] == LoadOrCreateTimezone(timezones, to, block, blockTime).(
      totalRegisteredNodes := LoadOrCreateTimezone(timezones, to, block, blockTime).totalRegisteredNodes + 1)
    ensures from == to && from in timezones && timezones[from].totalRegisteredNodes >= 1 ==> r == timezones
    ensures forall k :: k in timezones && k != from && k != to ==> r[k] == timezones[k]
  {
    var decremented :=
      if from in timezones then
        timezones[from := timezones[from].(totalRegisteredNodes := Max0(timezones[from].totalRegisteredNodes - 1))]
      else timezones;
    var target := LoadOrCreateTimezone(decremented, to, block, blockTime);
    decremented[to := target.(totalRegisteredNodes := target.totalRegisteredNodes + 1)]
  }

  /** Lines 65-90 as written: the old and the new timezone are loaded as two
      separate copies of the store, the old copy loses one node (never below
      zero), the new copy (created if missing) gains one, and the new copy is
      saved last. When both are the same timezone, the saved count is one
      higher than before instead of unchanged. */
  function MoveBetweenTimezonesAsWritten(timezones: map<string, NetworkNodeTimezone>, from: string, to: string, block: int, blockTime: int)
    : (r: map<string, NetworkNodeTimezone>)
    ensures r.Keys == timezones.Keys + {to}
    ensures from != to ==> r == MoveBetweenTimezones(timezones, from, to, block, blockTime)
    ensures from == to ==> r[to] == LoadOrCreateTimezone(timezones, to, block, blockTime).(
      totalRegisteredNodes := LoadOrCreateTimezone(timezones, to, block, blockTime).totalRegisteredNodes + 1)
    ensures forall k :: k in timezones && k != from && k != to ==> r[k] == timezones[k]
  {
    var target := LoadOrCreateTimezone(timezones, to, block, blockTime);
    var decremented :=
      if from in timezones then
        timezones[from := timezones[from].(totalRegisteredNodes := Max0(timezones[from].totalRegisteredNodes - 1))]
      else timezones;
    decremented[to := target.(totalRegisteredNodes := target.totalRegisteredNodes + 1)]
  }

  /** handleNodeTimezoneChanged as written: the counts move from the node's
      timezone to the reported one, but the node keeps its old timezone. */
  function HandleNodeTimezoneChangedAsWritten(state: State, event: EventInfo, nodeId: string, reportedTimezone: Option<string>)
    : (r: State)
    ensures nodeId !in state.nodes ==> r == state
    ensures nodeId in state.nodes ==>
      && r.nodes == state.nodes
      && r.timezones == MoveBetweenTimezonesAsWritten(state.timezones, state.nodes[nodeId].timezone, TimezoneId(reportedTimezone),
                                                      event.block, event.blockTime)
      && r == state.(timezones := r.timezones)
  {
    if nodeId !in state.nodes then state
    else
      state.(timezones := MoveBetweenTimezonesAsWritten(state.timezones, state.nodes[nodeId].timezone, TimezoneId(reportedTimezone),
                                                        event.block, event.blockTime))
  }

  /** handleNodeTimezoneChanged with the node moved along with the counts. */
  function HandleNodeTimezoneChanged(state: State, event: EventInfo, nodeId: string, reportedTimezone: Option<string>)
    : (r: State)
    ensures nodeId !in state.nodes ==> r == state
    ensures nodeId in state.nodes ==>
      && r.nodes == state.nodes[nodeId := state.nodes[nodeId].(timezone := TimezoneId(reportedTimezone))]
      && r.timezones == MoveBetweenTimezones(state.timezones, state.nodes[nodeId].timezone, TimezoneId(reportedTimezone),
                                             event.block, event.blockTime)
      && r == state.(nodes := r.nodes, timezones := r.timezones)
  {
    if nodeId !in state.nodes then state
    else
      var tzId := TimezoneId(reportedTimezone);
      state.(nodes := state.nodes[nodeId := state.nodes[nodeId].(timezone := tzId)],
             timezones := MoveBetweenTimezones(state.timezones, state.nodes[nodeId].timezone, tzId, event.block, event.blockTime))
  }

  /** The ids of the nodes registered in a timezone. */
  function NodesIn(nodes: map<string, Node>, tz: string): set<string> {
    set n | n in nodes && nodes[n].timezone == tz
  }

  /** Every node's timezone is indexed, and every timezone counts exactly
      the nodes in it. */
  ghost predicate TimezonesCountNodes(nodes: map<string, Node>, timezones: map<string, NetworkNodeTimezone>) {
    && (forall n :: n in nodes ==> nodes[n].timezone in timezones)
    && (forall tz :: tz in timezones ==> timezones[tz].totalRegisteredNodes == |NodesIn(nodes, tz)|)
  }

  /** Storing a node under an id drops the id from every timezone's set
      and adds it to the set of the node's timezone. */
  lemma NodesInAfterStore(nodes: map<string, Node>, id: string, node: Node, tz: string)
    ensures NodesIn(nodes[id := node], tz) == (NodesIn(nodes, tz) - {id}) + (if node.timezone == tz then {id} else {})
  {
  }

  lemma CardinalityAddRemove(a: set<string>, x: string)
    ensures x !in a ==> |a + {x}| == |a| + 1
    ensures x in a ==> |a - {x}| == |a| - 1
  {
  }

  /** Storing a new node in timezone tz (counted once more, created if
      missing) keeps every timezone's count exact. */
  lemma {:induction false} StoreNewNodeKeepsCounts(
    nodes: map<string, Node>, timezones: map<string, NetworkNodeTimezone>, id: string, node: Node, block: int, blockTime: int)
    requires TimezonesCountNodes(nodes, timezones) && id !in nodes
    ensures var target := LoadOrCreateTimezone(timezones, node.timezone, block, blockTime);
      TimezonesCountNodes(nodes[id := node],
                          timezones[node.timezone := target.(totalRegisteredNodes := target.totalRegisteredNodes + 1)])
  {
    var target := LoadOrCreateTimezone(timezones, node.timezone, block, blockTime);
    var timezones' := timezones[node.timezone := target.(totalRegisteredNodes := target.totalRegisteredNodes + 1)];
    forall tz | tz in timezones' ensures timezones'[tz].totalRegisteredNodes == |NodesIn(nodes[id := node], tz)| {
      StoreNewNodeCountAt(nodes, timezones, id, node, block, blockTime, tz);
    }
  }

  /** One timezone's count after storing a new node. */
  lemma {:induction false} StoreNewNodeCountAt(
    nodes: map<string, Node>, timezones: map<string, NetworkNodeTimezone>, id: string, node: Node, block: int, blockTime: int,
    tz: string)
    requires TimezonesCountNodes(nodes, timezones) && id !in nodes
    requires tz in timezones || tz == node.timezone
    ensures var target := LoadOrCreateTimezone(timezones, node.timezone, block, blockTime);
      timezones[node.timezone := target.(totalRegisteredNodes := target.totalRegisteredNodes + 1)][tz].totalRegisteredNodes
      == |NodesIn(nodes[id := node], tz)|
  {
    NodesInAfterStore(nodes, id, node, tz);
    assert id !in NodesIn(nodes, tz);
    assert NodesIn(nodes, tz) - {id} == NodesIn(nodes, tz);
    if tz == node.timezone {
      CardinalityAddRemove(NodesIn(nodes, tz), id);
      if tz !in timezones {
        assert NodesIn(nodes, tz) == {};
      }
    }
  }

  /** Registration keeps every timezone's count exact. */
  lemma {:induction false} RegisterKeepsTimezoneCounts(state: State, event: EventInfo, nodeId: string, reportedTimezone: Option<string>)
    requires TimezonesCountNodes(state.nodes, state.timezones)
    ensures var r := HandleNodeRegister(state, event, nodeId, reportedTimezone);
      TimezonesCountNodes(r.nodes, r.timezones)
  {
    if nodeId !in state.nodes {
      StoreNewNodeKeepsCounts(state.nodes, state.timezones, nodeId,
                              NewNode(nodeId, TimezoneId(reportedTimezone), event.block, event.blockTime), event.block, event.blockTime);
    }
  }

  /** A move takes one from the source count and adds one to the target
      count, when the source counts at least one node. */
  lemma MoveCountDelta(timezones: map<string, NetworkNodeTimezone>, from: string, to: string, block: int, blockTime: int, tz: string)
    requires from in timezones && timezones[from].totalRegisteredNodes >= 1
    requires tz in MoveBetweenTimezones(timezones, from, to, block, blockTime)
    ensures MoveBetweenTimezones(timezones, from, to, block, blockTime)[tz].totalRegisteredNodes
            == (if tz in timezones then timezones[tz].totalRegisteredNodes else 0)
               - (if tz == from then 1 else 0) + (if tz == to then 1 else 0)
  {
  }

  /** Moving a node takes its id out of the old timezone's set and into the
      new one's. */
  lemma {:induction false} NodesInDelta(nodes: map<string, Node>, id: string, to: string, tz: string)
    requires id in nodes
    ensures |NodesIn(nodes[id := nodes[id].(timezone := to)], tz)|
            == |NodesIn(nodes, tz)| - (if tz == nodes[id].timezone then 1 else 0) + (if tz == to then 1 else 0)
  {
    var before := NodesIn(nodes, tz);
    NodesInAfterStore(nodes, id, nodes[id].(timezone := to), tz);
    CardinalityAddRemove(before, id);
    CardinalityAddRemove(before - {id}, id);
    assert (id in before) == (tz == nodes[id].timezone);
    if id !in before {
      assert before - {id} == before;
    }
  }

  /** One timezone's count after moving an indexed node to `to`. */
  lemma {:induction false} MoveNodeCountAt(
    nodes: map<string, Node>, timezones: map<string, NetworkNodeTimezone>, id: string, to: string, block: int, blockTime: int,
    tz: string)
    requires TimezonesCountNodes(nodes, timezones) && id in nodes
    requires tz in MoveBetweenTimezones(timezones, nodes[id].timezone, to, block, blockTime)
    ensures MoveBetweenTimezones(timezones, nodes[id].timezone, to, block, blockTime)[tz].totalRegisteredNodes
            == |NodesIn(nodes[id := nodes[id].(timezone := to)], tz)|
  {
    var from := nodes[id].timezone;
    assert id in NodesIn(nodes, from);
    assert timezones[from].totalRegisteredNodes >= 1;
    MoveCountDelta(timezones, from, to, block, blockTime, tz);
    NodesInDelta(nodes, id, to, tz);
    if tz !in timezones {
      assert NodesIn(nodes, tz) == {};
    }
  }

  /** Moving an indexed node to timezone `to`, with its count, keeps every
      timezone's count exact. */
  lemma {:induction false} MoveNodeKeepsCounts(
    nodes: map<string, Node>, timezones: map<string, NetworkNodeTimezone>, id: string, to: string, block: int, blockTime: int)
    requires TimezonesCountNodes(nodes, timezones) && id in nodes
    ensures TimezonesCountNodes(nodes[id := nodes[id].(timezone := to)],
                                MoveBetweenTimezones(timezones, nodes[id].timezone, to, block, blockTime))
  {
    var timezones' := MoveBetweenTimezones(timezones, nodes[id].timezone, to, block, blockTime);
    forall tz | tz in timezones'
      ensures timezones'[tz].totalRegisteredNodes == |NodesIn(nodes[id := nodes[id].(timezone := to)], tz)|
    {
      MoveNodeCountAt(nodes, timezones, id, to, block, blockTime, tz);
    }
  }

  /** Moving a node with its counts keeps every timezone's count exact. */
  lemma {:induction false} TimezoneChangeKeepsTimezoneCounts(state: State, event: EventInfo, nodeId: string, reportedTimezone: Option<string>)
    requires TimezonesCountNodes(state.nodes, state.timezones)
    ensures var r := HandleNodeTimezoneChanged(state, event, nodeId, reportedTimezone);
      TimezonesCountNodes(r.nodes, r.timezones)
  {
    if nodeId in state.nodes {
      MoveNodeKeepsCounts(state.nodes, state.timezones, nodeId, TimezoneId(reportedTimezone), event.block, event.blockTime);
    }
  }

  /** A node alone in timezone "A" moves to "B": as written "A" counts no
      node although the node still says "A", so the counts are no longer
      exact; moving the node as well keeps them exact. */
  lemma TimezoneChangeAsWrittenCounterexample(state: State, event: EventInfo, node: Node)
    requires node.timezone == "A"
    requires state.nodes == map["n" := node]
    requires state.timezones == map["A" := NetworkNodeTimezone("A", 1, 0, 0)]
    ensures TimezonesCountNodes(state.nodes, state.timezones)
    ensures !TimezonesCountNodes(HandleNodeTimezoneChangedAsWritten(state, event, "n", Some("B")).nodes,
                                 HandleNodeTimezoneChangedAsWritten(state, event, "n", Some("B")).timezones)
    ensures TimezonesCountNodes(HandleNodeTimezoneChanged(state, event, "n", Some("B")).nodes,
                                HandleNodeTimezoneChanged(state, event, "n", Some("B")).timezones)
  {
    assert NodesIn(state.nodes, "A") == {"n"};
    TimezoneChangeKeepsTimezoneCounts(state, event, "n", Some("B"));
    var r := HandleNodeTimezoneChangedAsWritten(state, event, "n", Some("B"));
    assert NodesIn(r.nodes, "A") == {"n"};
    assert r.timezones["A"].totalRegisteredNodes == 0;
  }

  /** A node alone in timezone "A" reports "A" again: as written "A" counts
      two nodes; the intended handler leaves the count at one. */
  lemma SameTimezoneAsWrittenCounterexample(state: State, event: EventInfo, node: Node)
    requires node.timezone == "A"
    requires state.nodes == map["n" := node]
    requires state.timezones == map["A" := NetworkNodeTimezone("A", 1, 0, 0)]
    ensures TimezonesCountNodes(state.nodes, state.timezones)
    ensures HandleNodeTimezoneChangedAsWritten(state, event, "n", Some("A")).timezones["A"].totalRegisteredNodes == 2
    ensures HandleNodeTimezoneChanged(state, event, "n", Some("A")).timezones["A"].totalRegisteredNodes == 1
  {
    assert NodesIn(state.nodes, "A") == {"n"};
  }
}

=== FILE: node_staking.dfy ===
/** RPL staking transactions (src/mappings/rocketNodeStakingMapping.ts):
    staking, slashing and withdrawal events are recorded against an indexed
    node, which takes its RPL stake from the staking contract and keeps its
    own slashed tally. */
module NodeStaking {
  import opened FixedPoint
  import opened Entities

  /** The three staking events and the address each names. */
  datatype StakeEvent =
    | RPLStaked(from: string, amount: int)
    | RPLSlashed(node: string, amount: int)
    | RPLWithdrawn(to: string, amount: int)
  {
    /** The node a transaction of this event is recorded against. */
    function NodeId(): string {
      match this
      case RPLStaked(from, _) => from
      case RPLSlashed(node, _) => node
      case RPLWithdrawn(to, _) => to
    }

    function TransactionType(): NodeRPLStakeTransactionType {
      match this
      case RPLStaked(_, _) => Staked
      case RPLSlashed(_, _) => Slashed
      case RPLWithdrawn(_, _) => Withdrawal
    }
  }

  /** The node's total and effective RPL stake as the staking contract
      reports them after the transaction. */
  datatype StakeBalances = StakeBalances(rplStaked: int, effectiveRPLStaked: int)

  /** updateNodeRPLBalances: the stake figures come from the contract; only
      a slashing of a positive amount adds to the slashed tally. */
  function UpdateNodeRPLBalances(node: Node, amount: int, transactionType: NodeRPLStakeTransactionType, balances: StakeBalances)
    : (r: Node)
    ensures r.rplStaked == balances.rplStaked && r.effectiveRPLStaked == balances.effectiveRPLStaked
    ensures r.totalRPLSlashed > node.totalRPLSlashed <==> transactionType == Slashed && amount > 0
    ensures r.totalRPLSlashed >= node.totalRPLSlashed
    ensures transactionType == Slashed && amount > 0 ==> r.totalRPLSlashed == node.totalRPLSlashed + amount
    ensures r == node.(rplStaked := r.rplStaked, effectiveRPLStaked := r.effectiveRPLStaked, totalRPLSlashed := r.totalRPLSlashed)
  {
    var staked := node.(rplStaked := balances.rplStaked, effectiveRPLStaked := balances.effectiveRPLStaked);
    if transactionType == Slashed && amount > 0 then staked.(totalRPLSlashed := staked.totalRPLSlashed + amount)
    else staked
  }

  /** saveNodeRPLStakeTransaction: nothing happens for a node that is not
      indexed. Otherwise the transaction is stored under the event id with
      its value in ETH at the RPL price (no zero-price guard), and the node's
      balances are brought up to date. */
  function HandleStakeEvent(state: State, event: EventInfo, stakeEvent: StakeEvent, rplPrice: int, balances: StakeBalances)
    : (r: State)
    ensures stakeEvent.NodeId() !in state.nodes ==> r == state
    ensures stakeEvent.NodeId() in state.nodes ==>
      var id, nodeId := event.Id(), stakeEvent.NodeId();
      && id in r.nodeStakeTransactions
      && r.nodeStakeTransactions == state.nodeStakeTransactions[id := r.nodeStakeTransactions[id]]
      && r.nodeStakeTransactions[id].node == nodeId
      && r.nodeStakeTransactions[id].amount == stakeEvent.amount
      && r.nodeStakeTransactions[id].transactionType == stakeEvent.TransactionType()
      && Abs(r.nodeStakeTransactions[id].ethAmount) == Abs(stakeEvent.amount * rplPrice) / S
      && (stakeEvent.amount * rplPrice >= 0 ==>
            r.nodeStakeTransactions[id].ethAmount * S <= stakeEvent.amount * rplPrice
            < (r.nodeStakeTransactions[id].ethAmount + 1) * S)
      && r.nodes == state.nodes[nodeId := UpdateNodeRPLBalances(state.nodes[nodeId], stakeEvent.amount,
                                                                stakeEvent.TransactionType(), balances)]
      && r == state.(nodes := r.nodes, nodeStakeTransactions := r.nodeStakeTransactions)
  {
    var nodeId := stakeEvent.NodeId();
    if nodeId !in state.nodes then state
    else
      var ethAmount := FixedMul(stakeEvent.amount, rplPrice);
      var transaction := NodeRPLStakeTransaction(
        event.Id(), nodeId, stakeEvent.amount, ethAmount, stakeEvent.TransactionType(), event.block, event.blockTime);
      var node := UpdateNodeRPLBalances(state.nodes[nodeId], stakeEvent.amount, stakeEvent.TransactionType(), balances);
      state.(nodes := state.nodes[nodeId := node], nodeStakeTransactions := state.nodeStakeTransactions[event.Id() := transaction])
  }

  /** Staking events carry no check for an event already indexed: the same
      slashing delivered twice is tallied twice. */
  lemma {:induction false} SlashingRedeliveredCountsTwice(state: State, event: EventInfo, nodeId: string, amount: int, rplPrice: int, balances: StakeBalances)
    requires nodeId in state.nodes && amount > 0
    ensures var once := HandleStakeEvent(state, event, RPLSlashed(nodeId, amount), rplPrice, balances);
      var twice := HandleStakeEvent(once, event, RPLSlashed(nodeId, amount), rplPrice, balances);
      twice.nodes[nodeId].totalRPLSlashed == state.nodes[nodeId].totalRPLSlashed + 2 * amount
  {
    var once := HandleStakeEvent(state, event, RPLSlashed(nodeId, amount), rplPrice, balances);
    assert once.nodes[nodeId].totalRPLSlashed == state.nodes[nodeId].totalRPLSlashed + amount;
  }
}

=== FILE: ranking.dfy ===
/** The RPL claimed-reward rank (updateRPLClaimedRewardRank in
    src/mappings/rocketRewardsPoolMapping.ts): after every claim the indexed
    nodes are sorted by total RPL claimed, most first, earlier registration
    block first on a tie, and numbered 1, 2, 3, ... in that order. */
module Ranking {
  import opened GeneralUtilities
  import opened Entities

  /** `a` may be ranked ahead of `b`: it claimed more, or as much and
      registered no later. */
  predicate RanksBefore(a: Node, b: Node) {
    a.totalClaimedRPLRewards > b.totalClaimedRPLRewards
    || (a.totalClaimedRPLRewards == b.totalClaimedRPLRewards && a.block <= b.block)
  }

  /** Any two nodes can be ordered, and the order chains. */
  lemma RanksBeforeTotalPreorder(a: Node, b: Node, c: Node)
    ensures RanksBefore(a, b) || RanksBefore(b, a)
    ensures RanksBefore(a, b) && RanksBefore(b, c) ==> RanksBefore(a, c)
  {
  }

  predicate SortedByRank(xs: seq<Node>) {
    forall i, j :: 0 <= i < j < |xs| ==> RanksBefore(xs[i], xs[j])
  }

  /** No two of the nodes carry the same id. */
  predicate DistinctIds(xs: seq<Node>) {
    forall i, j :: 0 <= i < j < |xs| ==> xs[i].id != xs[j].id
  }

  /** The nodes the listed ids load, in list order; ids with no indexed node
      are skipped. */
  function LoadNodes(ids: seq<string>, nodes: map<string, Node>): (r: seq<Node>)
    ensures |r| <= |ids|
    ensures forall k :: k in ids && k in nodes ==> nodes[k] in r
    ensures forall n :: n in r ==> exists k :: k in ids && k in nodes && nodes[k] == n
    ensures NodesKeyed(nodes) && NoDuplicates(ids) ==> DistinctIds(r)
    decreases |ids|
  {
    if |ids| == 0 then []
    else
      var rest := LoadNodes(ids[1..], nodes);
      assert forall k :: k in ids[1..] ==> k in ids;
      assert forall k :: k in ids ==> k == ids[0] || k in ids[1..];
      if ids[0] in nodes then
        var r := [nodes[ids[0]]] + rest;
        assert NodesKeyed(nodes) && NoDuplicates(ids) ==> DistinctIds(r) by {
          if NodesKeyed(nodes) && NoDuplicates(ids) {
            assert NoDuplicates(ids[1..]);
            forall n | n in rest ensures n.id != ids[0] {
              var k :| k in ids[1..] && k in nodes && nodes[k] == n;
            }
          }
        }
        r
      else
        assert NoDuplicates(ids) ==> NoDuplicates(ids[1..]);
        rest
  }

  /** Places `x` ahead of the first node it ranks before. */
  function Insert(x: Node, xs: seq<Node>): (r: seq<Node>)
    ensures multiset(r) == multiset(xs) + multiset{x}
    decreases |xs|
  {
    if |xs| == 0 then [x]
    else if RanksBefore(x, xs[0]) then [x] + xs
    else
      assert xs == [xs[0]] + xs[1..];
      [xs[0]] + Insert(x, xs[1..])
  }

  /** Inserting into a sorted sequence keeps it sorted. */
  lemma {:induction false} InsertKeepsSorted(x: Node, xs: seq<Node>)
    requires SortedByRank(xs)
    ensures SortedByRank(Insert(x, xs))
    decreases |xs|
  {
    var r := Insert(x, xs);
    if |xs| == 0 {
    } else if RanksBefore(x, xs[0]) {
      forall i, j | 0 <= i < j < |r| ensures RanksBefore(r[i], r[j]) {
        if i == 0 {
          RanksBeforeTotalPreorder(x, xs[0], xs[j - 1]);
        } else {
          assert r[i] == xs[i - 1] && r[j] == xs[j - 1];
        }
      }
    } else {
      var tail := Insert(x, xs[1..]);
      InsertKeepsSorted(x, xs[1..]);
      RanksBeforeTotalPreorder(x, xs[0], x);
      forall i, j | 0 <= i < j < |r| ensures RanksBefore(r[i], r[j]) {
        if i == 0 {
          var y := tail[j - 1];
          assert y in multiset(tail);
          if y != x {
            assert y in multiset(xs[1..]);
            var k :| 0 <= k < |xs[1..]| && xs[1..][k] == y;
            assert xs[k + 1] == y;
          }
        } else {
          assert r[i] == tail[i - 1] && r[j] == tail[j - 1];
        }
      }
    }
  }

  /** Inserting a node whose id is new keeps the ids distinct. */
  lemma {:induction false} InsertKeepsDistinctIds(x: Node, xs: seq<Node>)
    requires DistinctIds(xs) && forall y :: y in xs ==> y.id != x.id
    ensures DistinctIds(Insert(x, xs))
    decreases |xs|
  {
    var r := Insert(x, xs);
    if |xs| == 0 {
    } else if RanksBefore(x, xs[0]) {
      forall i, j | 0 <= i < j < |r| ensures r[i].id != r[j].id {
        if i == 0 {
          assert r[j] == xs[j - 1];
        } else {
          assert r[i] == xs[i - 1] && r[j] == xs[j - 1];
        }
      }
    } else {
      var tail := Insert(x, xs[1..]);
      assert DistinctIds(xs[1..]);
      InsertKeepsDistinctIds(x, xs[1..]);
      forall i, j | 0 <= i < j < |r| ensures r[i].id != r[j].id {
        if i == 0 {
          var y := tail[j - 1];
          assert y in multiset(tail);
          if y == x {
            assert xs[0] in xs;
          } else {
            assert y in multiset(xs[1..]);
            var k :| 0 <= k < |xs[1..]| && xs[1..][k] == y;
            assert xs[k + 1] == y;
          }
        } else {
          assert r[i] == tail[i - 1] && r[j] == tail[j - 1];
        }
      }
    }
  }

  /** Sorting keeps the ids distinct. */
  lemma {:induction false} SortKeepsDistinctIds(xs: seq<Node>)
    requires DistinctIds(xs)
    ensures DistinctIds(SortByRank(xs))
    decreases |xs|
  {
    if |xs| > 0 {
      var rest := SortByRank(xs[1..]);
      assert DistinctIds(xs[1..]);
      SortKeepsDistinctIds(xs[1..]);
      forall y | y in rest ensures y.id != xs[0].id {
        assert y in multiset(rest);
        assert y in multiset(xs[1..]);
        var k :| 0 <= k < |xs[1..]| && xs[1..][k] == y;
        assert xs[k + 1] == y;
      }
      InsertKeepsDistinctIds(xs[0], rest);
    }
  }

  /** The sort of the loaded nodes: a permutation of them ordered by
      `RanksBefore`. */
  function SortByRank(xs: seq<Node>): (r: seq<Node>)
    ensures SortedByRank(r)
    ensures multiset(r) == multiset(xs)
    decreases |xs|
  {
    if |xs| == 0 then []
    else
      var rest := SortByRank(xs[1..]);
      assert xs == [xs[0]] + xs[1..];
      InsertKeepsSorted(xs[0], rest);
      Insert(xs[0], rest)
  }

  /** Numbers the sorted nodes 1, 2, 3, ... from the front. */
  function AssignRanks(sorted: seq<Node>, first: int): (r: seq<Node>)
    ensures |r| == |sorted|
    ensures forall i :: 0 <= i < |r| ==>
      r[i].totalRPLClaimedRewardsRank == first + i && r[i] == sorted[i].(totalRPLClaimedRewardsRank := first + i)
    decreases |sorted|
  {
    if |sorted| == 0 then []
    else [sorted[0].(totalRPLClaimedRewardsRank := first)] + AssignRanks(sorted[1..], first + 1)
  }

  /** The ids of the given nodes. */
  function IdsOf(xs: seq<Node>): set<string> {
    set n | n in xs :: n.id
  }

  /** Saves each node under its own id, in order. */
  function SaveNodes(nodes: map<string, Node>, saved: seq<Node>): (r: map<string, Node>)
    ensures r.Keys == nodes.Keys + IdsOf(saved)
    ensures forall k :: k in nodes && k !in IdsOf(saved) ==> r[k] == nodes[k]
    ensures NodesKeyed(nodes) ==> NodesKeyed(r)
    decreases |saved|
  {
    if |saved| == 0 then nodes
    else
      assert saved == [saved[0]] + saved[1..];
      assert IdsOf(saved) == {saved[0].id} + IdsOf(saved[1..]);
      SaveNodes(nodes[saved[0].id := saved[0]], saved[1..])
  }

  /** With distinct ids, every saved node ends up stored as saved. */
  lemma {:induction false} SaveNodesStoresEach(nodes: map<string, Node>, saved: seq<Node>, i: int)
    requires DistinctIds(saved) && 0 <= i < |saved|
    ensures SaveNodes(nodes, saved)[saved[i].id] == saved[i]
    decreases |saved|
  {
    assert saved == [saved[0]] + saved[1..];
    if i == 0 {
      forall n | n in saved[1..] ensures n.id != saved[0].id {
        var j :| 0 <= j < |saved[1..]| && saved[1..][j] == n;
        assert saved[j + 1] == n;
      }
      assert saved[0].id !in IdsOf(saved[1..]);
    } else {
      assert DistinctIds(saved[1..]);
      assert saved[i] == saved[1..][i - 1];
      SaveNodesStoresEach(nodes[saved[0].id := saved[0]], saved[1..], i - 1);
    }
  }

  /** updateRPLClaimedRewardRank: nothing changes when no listed id loads;
      otherwise the loaded nodes are sorted and numbered from 1, each saved
      with its new rank. */
  function UpdateRPLClaimedRewardRank(ids: seq<string>, nodes: map<string, Node>): (r: map<string, Node>)
    ensures |ids| == 0 ==> r == nodes
    ensures NodesKeyed(nodes) ==> r.Keys == nodes.Keys && NodesKeyed(r)
  {
    var loaded := LoadNodes(ids, nodes);
    if |loaded| == 0 then nodes
    else
      var ranked := AssignRanks(SortByRank(loaded), 1);
      var saved := SaveNodes(nodes, ranked);
      assert NodesKeyed(nodes) ==> saved.Keys == nodes.Keys by {
        if NodesKeyed(nodes) {
          forall i | 0 <= i < |ranked| ensures ranked[i].id in nodes {
            assert ranked[i].id == SortByRank(loaded)[i].id;
            assert SortByRank(loaded)[i] in multiset(SortByRank(loaded));
            assert SortByRank(loaded)[i] in loaded;
          }
        }
      }
      saved
  }

  /** Position `p` of the sort holds a listed, indexed node, stored with
      rank `p + 1`. */
  lemma {:induction false} SortedEntryStored(ids: seq<string>, nodes: map<string, Node>, p: int)
    requires NodesKeyed(nodes) && NoDuplicates(ids)
    requires 0 <= p < |SortByRank(LoadNodes(ids, nodes))|
    ensures var k := SortByRank(LoadNodes(ids, nodes))[p].id;
      && k in ids && k in nodes && nodes[k] == SortByRank(LoadNodes(ids, nodes))[p]
      && UpdateRPLClaimedRewardRank(ids, nodes)[k] == nodes[k].(totalRPLClaimedRewardsRank := p + 1)
  {
    var loaded := LoadNodes(ids, nodes);
    var sorted := SortByRank(loaded);
    assert sorted[p] in multiset(loaded);
    assert sorted[p] in loaded;
    var ranked := AssignRanks(sorted, 1);
    SortKeepsDistinctIds(loaded);
    assert DistinctIds(ranked) by {
      forall a, b | 0 <= a < b < |ranked| ensures ranked[a].id != ranked[b].id {
        assert ranked[a].id == sorted[a].id && ranked[b].id == sorted[b].id;
      }
    }
    SaveNodesStoresEach(nodes, ranked, p);
  }

  /** Where a listed, indexed node lands: at some position `i` of the sort,
      stored with rank `i + 1`. */
  lemma {:induction false} RankedPosition(ids: seq<string>, nodes: map<string, Node>, k: string) returns (i: int)
    requires NodesKeyed(nodes) && NoDuplicates(ids) && k in ids && k in nodes
    ensures var sorted := SortByRank(LoadNodes(ids, nodes));
      && 0 <= i < |sorted| && sorted[i] == nodes[k]
      && UpdateRPLClaimedRewardRank(ids, nodes)[k] == nodes[k].(totalRPLClaimedRewardsRank := i + 1)
  {
    var sorted := SortByRank(LoadNodes(ids, nodes));
    assert nodes[k] in multiset(sorted);
    i :| 0 <= i < |sorted| && sorted[i] == nodes[k];
    SortedEntryStored(ids, nodes, i);
  }

  /** Some listed, indexed node holds rank `rank`. */
  ghost predicate RankTaken(ranked: map<string, Node>, ids: seq<string>, rank: int) {
    exists k :: k in ids && k in ranked && ranked[k].totalRPLClaimedRewardsRank == rank
  }

  /** The update touches only the rank, and only of listed nodes; each of
      the N listed nodes that load gets a rank in 1..N. (Each node is stored
      under its own id and no id is listed twice.) */
  lemma {:induction false} RankUpdateOnlySetsRanks(ids: seq<string>, nodes: map<string, Node>)
    requires NodesKeyed(nodes) && NoDuplicates(ids)
    ensures var r, n := UpdateRPLClaimedRewardRank(ids, nodes), |LoadNodes(ids, nodes)|;
      && r.Keys == nodes.Keys
      && (forall k :: k in nodes && k !in ids ==> r[k] == nodes[k])
      && (forall k :: k in nodes && k in ids ==>
            && r[k] == nodes[k].(totalRPLClaimedRewardsRank := r[k].totalRPLClaimedRewardsRank)
            && 1 <= r[k].totalRPLClaimedRewardsRank <= n)
  {
    var r := UpdateRPLClaimedRewardRank(ids, nodes);
    var loaded := LoadNodes(ids, nodes);
    var sorted := SortByRank(loaded);
    if |loaded| > 0 {
      var ranked := AssignRanks(sorted, 1);
      forall k | k in nodes && k !in ids ensures r[k] == nodes[k] {
        forall m | m in ranked ensures m.id != k {
          var a :| 0 <= a < |ranked| && ranked[a] == m;
          SortedEntryStored(ids, nodes, a);
        }
      }
      forall k | k in nodes && k in ids
        ensures r[k] == nodes[k].(totalRPLClaimedRewardsRank := r[k].totalRPLClaimedRewardsRank)
        ensures 1 <= r[k].totalRPLClaimedRewardsRank <= |loaded|
      {
        var i := RankedPosition(ids, nodes, k);
      }
    }
  }

  /** No rank in 1..N is skipped: the ranks are dense. */
  lemma {:induction false} RankUpdateIsDense(ids: seq<string>, nodes: map<string, Node>)
    requires NodesKeyed(nodes) && NoDuplicates(ids)
    ensures forall rank :: 1 <= rank <= |LoadNodes(ids, nodes)| ==>
      RankTaken(UpdateRPLClaimedRewardRank(ids, nodes), ids, rank)
  {
    var r := UpdateRPLClaimedRewardRank(ids, nodes);
    var loaded := LoadNodes(ids, nodes);
    var sorted := SortByRank(loaded);
    assert |sorted| == |multiset(sorted)| == |multiset(loaded)| == |loaded|;
    forall rank | 1 <= rank <= |loaded| ensures RankTaken(r, ids, rank) {
      SortedEntryStored(ids, nodes, rank - 1);
      var k := sorted[rank - 1].id;
      assert k in r;
    }
  }

  /** No two listed nodes share a rank, and a lower rank means more RPL
      claimed, or as much and an earlier registration block. */
  lemma {:induction false} RankUpdateIsOrdered(ids: seq<string>, nodes: map<string, Node>, k1: string, k2: string)
    requires NodesKeyed(nodes) && NoDuplicates(ids)
    requires k1 in ids && k1 in nodes && k2 in ids && k2 in nodes
    ensures var r := UpdateRPLClaimedRewardRank(ids, nodes);
      && (k1 != k2 ==> r[k1].totalRPLClaimedRewardsRank != r[k2].totalRPLClaimedRewardsRank)
      && (r[k1].totalRPLClaimedRewardsRank < r[k2].totalRPLClaimedRewardsRank ==> RanksBefore(nodes[k1], nodes[k2]))
      && (nodes[k1].totalClaimedRPLRewards > nodes[k2].totalClaimedRPLRewards ==>
            r[k1].totalRPLClaimedRewardsRank < r[k2].totalRPLClaimedRewardsRank)
  {
    var i1 := RankedPosition(ids, nodes, k1);
    var i2 := RankedPosition(ids, nodes, k2);
  }
}

=== FILE: reth_transfers.dfy ===
/** rETH transfers (src/mappings/rocketTokenRETHMapping.ts): each Transfer
    event is indexed once, debits the sender, credits the receiver and
    registers both as protocol stakers. */
module RETHTransfers {
  import opened Wrappers
  import opened GeneralUtilities
  import opened Entities
  import opened StakerAccounting

  /** getTransactionStakers: the stored staker, or a new one with zero
      balances. */
  function LoadOrCreateStaker(stakers: map<string, Staker>, id: string, block: int, blockTime: int): (s: Staker)
    ensures s.id == id || id in stakers
    ensures id in stakers ==> s == stakers[id]
    ensures id !in stakers ==> s.rETHBalance == 0 && s.totalETHRewards == 0 && s.lastBalanceCheckpoint.None?
  {
    if id in stakers then stakers[id] else NewStaker(id, block, blockTime)
  }

  /** handleRocketETHTransaction. Both stakers are loaded before either is
      changed and the receiver is saved last, so on a transfer to oneself
      the credit overwrites the debit. */
  function HandleTransfer(state: State, event: EventInfo, from: string, to: string, rETHAmount: int, exchangeRate: int)
    : (r: State)
    ensures event.Id() in state.rethTransactions ==> r == state
    ensures event.Id() !in state.rethTransactions ==>
      && r.rethTransactions == state.rethTransactions[event.Id() :=
           RocketETHTransaction(event.Id(), from, to, rETHAmount, event.block, event.blockTime)]
      && r.stakers.Keys == state.stakers.Keys + {from, to}
      && (forall k :: k in state.stakers && k != from && k != to ==> r.stakers[k] == state.stakers[k])
      && r.stakers[to] == ChangeStakerBalances(LoadOrCreateStaker(state.stakers, to, event.block, event.blockTime),
                                               rETHAmount, exchangeRate, true)
      && (from != to ==>
            r.stakers[from] == ChangeStakerBalances(LoadOrCreateStaker(state.stakers, from, event.block, event.blockTime),
                                                    rETHAmount, exchangeRate, false))
      && from in r.protocol.stakers && to in r.protocol.stakers
      && (forall k :: k in r.protocol.stakers <==> k in state.protocol.stakers || k == from || k == to)
      && |state.protocol.stakers| <= |r.protocol.stakers| && r.protocol.stakers[..|state.protocol.stakers|] == state.protocol.stakers
      && (NoDuplicates(state.protocol.stakers) ==> NoDuplicates(r.protocol.stakers))
      && r == state.(protocol := state.protocol.(stakers := r.protocol.stakers), stakers := r.stakers,
                     rethTransactions := r.rethTransactions)
  {
    var id := event.Id();
    if id in state.rethTransactions then state
    else
      var fromStaker := LoadOrCreateStaker(state.stakers, from, event.block, event.blockTime);
      var toStaker := LoadOrCreateStaker(state.stakers, to, event.block, event.blockTime);
      var debited := ChangeStakerBalances(fromStaker, rETHAmount, exchangeRate, false);
      var credited := ChangeStakerBalances(toStaker, rETHAmount, exchangeRate, true);
      var transaction := RocketETHTransaction(id, from, to, rETHAmount, event.block, event.blockTime);
      var stakerIds := AppendIfAbsent(AppendIfAbsent(state.protocol.stakers, from), to);
      state.(protocol := state.protocol.(stakers := stakerIds),
             stakers := state.stakers[from := debited][to := credited],
             rethTransactions := state.rethTransactions[id := transaction])
  }

  /** A transfer between two distinct stakers, neither the zero address,
      moves the amount from one balance to the other and leaves the total
      rETH held by indexed stakers unchanged. */
  lemma {:induction false} TransferConservesIndexedRETH(
    state: State, event: EventInfo, from: string, to: string, rETHAmount: int, exchangeRate: int)
    requires event.Id() !in state.rethTransactions
    requires from != to && from != ZERO_ADDRESS && to != ZERO_ADDRESS
    requires from in state.stakers && state.stakers[from].id == from
    requires to in state.stakers && state.stakers[to].id == to
    requires 0 <= rETHAmount <= state.stakers[from].rETHBalance
    ensures var r := HandleTransfer(state, event, from, to, rETHAmount, exchangeRate);
      && r.stakers[from].rETHBalance == state.stakers[from].rETHBalance - rETHAmount
      && r.stakers[to].rETHBalance == state.stakers[to].rETHBalance + rETHAmount
      && r.stakers[from].rETHBalance + r.stakers[to].rETHBalance
         == state.stakers[from].rETHBalance + state.stakers[to].rETHBalance
  {
    TransferConservesRETH(state.stakers[from], state.stakers[to], rETHAmount, exchangeRate);
  }

  /** Re-delivering a Transfer event changes nothing. */
  lemma TransferIdempotent(state: State, event: EventInfo, from: string, to: string, rETHAmount: int, exchangeRate: int)
    ensures var once := HandleTransfer(state, event, from, to, rETHAmount, exchangeRate);
      HandleTransfer(once, event, from, to, rETHAmount, exchangeRate) == once
  {
  }
}

=== FILE: rewards_pool.dfy ===
/** RPL reward claims (handleRPLTokensClaimed in
    src/mappings/rocketRewardsPoolMapping.ts): each claim is classified by
    claimant, attributed to the open reward interval (closing the previous
    interval and opening a new one when the rewards pool has rolled over),
    added to the claiming node's total, and the nodes are re-ranked. */
module RewardsPool {
  import opened Wrappers
  import opened FixedPoint
  import opened GeneralUtilities
  import opened Entities
  import opened Ranking

  /** The RPLTokensClaimed event's parameters. */
  datatype ClaimEvent = ClaimEvent(claimingContract: string, claimingAddress: string, amount: int)

  /** What the handler reads from the storage registry, the rewards pool,
      the trusted-node DAO and the network prices contracts while handling
      one claim. */
  datatype RewardsReads = RewardsReads(
    pdaoClaimContract: Option<string>,
    claimerIsTrustedMember: bool,
    intervalStartTime: int,
    intervalRewardsTotal: int,
    intervalDuration: int,
    rplPrice: int)

  /** getRplRewardClaimerType: the protocol DAO's claim contract first, then
      a valid trusted-node member, then an indexed node; anything else is not
      recognised. */
  function ClaimerType(claim: ClaimEvent, chain: RewardsReads, nodes: map<string, Node>)
    : (r: Option<RPLRewardClaimerType>)
    ensures r == Some(PDAO) <==> chain.pdaoClaimContract == Some(claim.claimingContract)
    ensures r == Some(TrustedNode) <==>
      chain.pdaoClaimContract != Some(claim.claimingContract) && chain.claimerIsTrustedMember
    ensures r == Some(RegularNode) <==>
      chain.pdaoClaimContract != Some(claim.claimingContract) && !chain.claimerIsTrustedMember
      && claim.claimingAddress in nodes
  {
    if chain.pdaoClaimContract == Some(claim.claimingContract) then Some(PDAO)
    else if chain.claimerIsTrustedMember then Some(TrustedNode)
    else if claim.claimingAddress in nodes then Some(RegularNode)
    else None
  }

  /** Whether a claim meets the test of one claimer class, independently of
      the other classes. */
  predicate Qualifies(c: RPLRewardClaimerType, claim: ClaimEvent, chain: RewardsReads, nodes: map<string, Node>) {
    match c
    case PDAO => chain.pdaoClaimContract == Some(claim.claimingContract)
    case TrustedNode => chain.claimerIsTrustedMember
    case RegularNode => claim.claimingAddress in nodes
  }

  /** The order in which the classes are tried. */
  function Priority(c: RPLRewardClaimerType): nat {
    match c
    case PDAO => 0
    case TrustedNode => 1
    case RegularNode => 2
  }

  /** The class chosen is the first, in the order tried, whose test the
      claim meets; a claim is rejected exactly when it meets none. */
  lemma ClaimerTypeIsFirstQualifying(claim: ClaimEvent, chain: RewardsReads, nodes: map<string, Node>)
    ensures var r := ClaimerType(claim, chain, nodes);
      && (r.None? <==> forall c :: !Qualifies(c, claim, chain, nodes))
      && (r.Some? ==> Qualifies(r.value, claim, chain, nodes))
      && (r.Some? ==> forall c :: Qualifies(c, claim, chain, nodes) ==> Priority(r.value) <= Priority(c))
  {
    if ClaimerType(claim, chain, nodes).None? {
      forall c ensures !Qualifies(c, claim, chain, nodes) {
        match c
        case PDAO =>
        case TrustedNode =>
        case RegularNode =>
      }
    } else {
      assert Qualifies(ClaimerType(claim, chain, nodes).value, claim, chain, nodes);
    }
  }

  /** An interval as the entity factory opens it: open, with nothing claimed
      yet. */
  function NewInterval(id: string, previousId: Option<string>, chain: RewardsReads, block: int, blockTime: int)
    : RPLRewardInterval
  {
    RPLRewardInterval(id, previousId, None, chain.intervalRewardsTotal, chain.intervalStartTime,
                      chain.intervalDuration, 0, None, false, 0, 0, [], block, blockTime)
  }

  /** Closing an interval at `blockTime`: its actual duration is the time
      since its start, or its nominal duration if that would be negative. */
  function CloseInterval(interval: RPLRewardInterval, blockTime: int): (r: RPLRewardInterval)
    ensures r.isClosed && r.intervalClosedTime == Some(blockTime)
    ensures r.intervalDurationActual >= 0 || r.intervalDurationActual == interval.intervalDuration
    ensures blockTime >= interval.intervalStartTime ==> r.intervalDurationActual + interval.intervalStartTime == blockTime
    ensures blockTime < interval.intervalStartTime ==> r.intervalDurationActual == interval.intervalDuration
    ensures r == interval.(isClosed := true, intervalClosedTime := Some(blockTime),
                           intervalDurationActual := r.intervalDurationActual)
  {
    var elapsed := blockTime - interval.intervalStartTime;
    interval.(intervalClosedTime := Some(blockTime), isClosed := true,
              intervalDurationActual := if elapsed < 0 then interval.intervalDuration else elapsed)
  }

  /** Closing is idempotent: closing an interval again at the same time
      changes nothing, since the duration is measured from the unchanged
      start time. */
  lemma CloseIntervalIdempotent(interval: RPLRewardInterval, blockTime: int)
    ensures CloseInterval(CloseInterval(interval, blockTime), blockTime) == CloseInterval(interval, blockTime)
  {
  }

  /** An interval with a non-negative nominal duration is closed with a
      non-negative actual duration, which never exceeds the elapsed time
      unless the close precedes the start. */
  lemma CloseIntervalDurationNonNegative(interval: RPLRewardInterval, blockTime: int)
    requires interval.intervalDuration >= 0
    ensures CloseInterval(interval, blockTime).intervalDurationActual >= 0
    ensures blockTime >= interval.intervalStartTime ==>
      CloseInterval(interval, blockTime).intervalDurationActual <= blockTime - interval.intervalStartTime
  {
  }

  /** The interval a claim is attributed to, and the interval closed to make
      way for it, if any. */
  datatype IntervalChoice = IntervalChoice(rolledOver: bool, closed: Option<RPLRewardInterval>, active: RPLRewardInterval)

  /** The indexed interval the protocol names as its last, if it loads. */
  function ActiveIndexedInterval(state: State): Option<RPLRewardInterval> {
    match state.protocol.lastRPLRewardInterval
    case Some(id) => if id in state.rewardIntervals then Some(state.rewardIntervals[id]) else None
    case None => None
  }

  /** The interval rollover: the indexed interval stays active while its
      start time matches the rewards pool's; otherwise it (if it loaded) is
      closed and linked forward to a new interval opened under `newId`, which
      links back to it. */
  function ChooseInterval(state: State, chain: RewardsReads, newId: string, block: int, blockTime: int)
    : (r: IntervalChoice)
    ensures r.rolledOver <==>
      (ActiveIndexedInterval(state).None? || ActiveIndexedInterval(state).value.intervalStartTime != chain.intervalStartTime)
    ensures !r.rolledOver ==> r.closed.None? && Some(r.active) == ActiveIndexedInterval(state)
    ensures r.rolledOver ==>
      && r.active.id == newId && !r.active.isClosed && r.active.nextIntervalId.None?
      && r.active.intervalStartTime == chain.intervalStartTime
      && r.active.rplRewardClaims == [] && r.active.totalRPLClaimed == 0
      && r.active.previousIntervalId == (if ActiveIndexedInterval(state).Some? then Some(ActiveIndexedInterval(state).value.id) else None)
      && r.active == NewInterval(newId, r.active.previousIntervalId, chain, block, blockTime)
    ensures r.closed.Some? <==> r.rolledOver && ActiveIndexedInterval(state).Some?
    ensures r.closed.Some? ==>
      var current := ActiveIndexedInterval(state).value;
      && r.closed.value.id == current.id && r.closed.value.isClosed
      && r.closed.value.nextIntervalId == Some(r.active.id)
      && r.active.previousIntervalId == Some(r.closed.value.id)
      && r.closed.value == CloseInterval(current, blockTime).(nextIntervalId := Some(newId))
  {
    match ActiveIndexedInterval(state)
    case Some(current) =>
      if current.intervalStartTime == chain.intervalStartTime then IntervalChoice(false, None, current)
      else
        IntervalChoice(true, Some(CloseInterval(current, blockTime).(nextIntervalId := Some(newId))),
                       NewInterval(newId, Some(current.id), chain, block, blockTime))
    case None => IntervalChoice(true, None, NewInterval(newId, None, chain, block, blockTime))
  }

  /** The claim's value in ETH: amount times the RPL price, scaled down and
      truncated, or 0 when the price is not positive. */
  function ClaimETHAmount(amount: int, rplPrice: int): (r: int)
    ensures rplPrice <= 0 ==> r == 0
    ensures rplPrice > 0 ==> Abs(r) == Abs(amount * rplPrice) / S
    ensures rplPrice > 0 && amount >= 0 ==> r * S <= amount * rplPrice < (r + 1) * S
  {
    if rplPrice > 0 then FixedMul(amount, rplPrice) else 0
  }

  /** Claim bookkeeping as written: the total grows by the amount, and the
      average divides the new total by the number of claims recorded
      BEFORE this one (so it is left alone on the first claim). */
  function AddClaimToIntervalAsWritten(interval: RPLRewardInterval, claimId: string, amount: int)
    : (r: RPLRewardInterval)
    ensures r.totalRPLClaimed == interval.totalRPLClaimed + amount
    ensures r.rplRewardClaims == interval.rplRewardClaims + [claimId]
    ensures r.totalRPLClaimed > 0 && |interval.rplRewardClaims| > 0 ==>
      var n := |interval.rplRewardClaims|;
      r.averageRPLClaimed * n <= r.totalRPLClaimed < (r.averageRPLClaimed + 1) * n
    ensures r.totalRPLClaimed <= 0 || |interval.rplRewardClaims| == 0 ==> r.averageRPLClaimed == interval.averageRPLClaimed
    ensures r == interval.(totalRPLClaimed := r.totalRPLClaimed, averageRPLClaimed := r.averageRPLClaimed,
                           rplRewardClaims := r.rplRewardClaims)
  {
    var total := interval.totalRPLClaimed + amount;
    var count := |interval.rplRewardClaims|;
    var average := if total > 0 && count > 0 then TDiv(total, count) else interval.averageRPLClaimed;
    interval.(totalRPLClaimed := total, averageRPLClaimed := average,
              rplRewardClaims := interval.rplRewardClaims + [claimId])
  }

  /** Claim bookkeeping as intended: the average is the new total over the
      number of claims including this one. */
  function AddClaimToInterval(interval: RPLRewardInterval, claimId: string, amount: int)
    : (r: RPLRewardInterval)
    ensures r.totalRPLClaimed == interval.totalRPLClaimed + amount
    ensures r.rplRewardClaims == interval.rplRewardClaims + [claimId]
    ensures r.totalRPLClaimed > 0 ==>
      r.averageRPLClaimed * |r.rplRewardClaims| <= r.totalRPLClaimed < (r.averageRPLClaimed + 1) * |r.rplRewardClaims|
    ensures r.totalRPLClaimed <= 0 ==> r.averageRPLClaimed == interval.averageRPLClaimed
    ensures r == interval.(totalRPLClaimed := r.totalRPLClaimed, averageRPLClaimed := r.averageRPLClaimed,
                           rplRewardClaims := r.rplRewardClaims)
  {
    var total := interval.totalRPLClaimed + amount;
    var claims := interval.rplRewardClaims + [claimId];
    var average := if total > 0 then TDiv(total, |claims|) else interval.averageRPLClaimed;
    interval.(totalRPLClaimed := total, averageRPLClaimed := average, rplRewardClaims := claims)
  }

  /** The claimer's record after the claim: its claimed total grows by the
      amount when it is an indexed node. */
  function CreditClaimingNode(nodes: map<string, Node>, claim: ClaimEvent): (r: map<string, Node>)
    ensures r.Keys == nodes.Keys
    ensures claim.claimingAddress in nodes ==>
      r[claim.claimingAddress].totalClaimedRPLRewards == nodes[claim.claimingAddress].totalClaimedRPLRewards + claim.amount
    ensures forall k :: k in nodes && k != claim.claimingAddress ==> r[k] == nodes[k]
  {
    if claim.claimingAddress in nodes then
      var node := nodes[claim.claimingAddress];
      nodes[claim.claimingAddress := node.(totalClaimedRPLRewards := node.totalClaimedRPLRewards + claim.amount)]
    else nodes
  }

  /** handleRPLTokensClaimed. A claim no class recognises changes nothing.
      Otherwise the claim is stored under the event id with its class and
      ETH value; the claiming node, if indexed, adds the amount to its total;
      the claim is recorded on the interval chosen by the rollover (a closed
      predecessor is saved first); a newly opened interval becomes the
      protocol's last; and the protocol's nodes are re-ranked. Nothing else
      in the store changes. There is no check for a claim already indexed. */
  function HandleRPLTokensClaimed(state: State, event: EventInfo, claim: ClaimEvent, chain: RewardsReads, intervalIdPrefix: string)
    : (r: State)
    ensures ClaimerType(claim, chain, state.nodes) == None ==> r == state
    ensures ClaimerType(claim, chain, state.nodes) != None ==>
      var id := event.Id();
      && r.rewardClaims == state.rewardClaims[id := RPLRewardClaim(
           id, claim.claimingAddress, ClaimerType(claim, chain, state.nodes).value, claim.amount,
           ClaimETHAmount(claim.amount, chain.rplPrice), event.block, event.blockTime)]
      && r.protocol.lastRPLRewardInterval.Some?
      && r.protocol == state.protocol.(lastRPLRewardInterval := r.protocol.lastRPLRewardInterval)
      && (NodesKeyed(state.nodes) ==> r.nodes.Keys == state.nodes.Keys)
      && r == state.(rewardClaims := r.rewardClaims, nodes := r.nodes, rewardIntervals := r.rewardIntervals,
                     protocol := r.protocol)
  {
    var claimerType := ClaimerType(claim, chain, state.nodes);
    if claimerType.None? then state
    else
      var id := event.Id();
      var choice := ChooseInterval(state, chain, intervalIdPrefix + id, event.block, event.blockTime);
      var record := RPLRewardClaim(id, claim.claimingAddress, claimerType.value, claim.amount,
                                   ClaimETHAmount(claim.amount, chain.rplPrice), event.block, event.blockTime);
      var credited := CreditClaimingNode(state.nodes, claim);
      var active := AddClaimToInterval(choice.active, id, claim.amount);
      var intervals := match choice.closed
        case Some(closed) => state.rewardIntervals[closed.id := closed]
        case None => state.rewardIntervals;
      var protocol := if choice.rolledOver then state.protocol.(lastRPLRewardInterval := Some(active.id)) else state.protocol;
      assert protocol.lastRPLRewardInterval.Some?;
      state.(rewardClaims := state.rewardClaims[id := record],
             nodes := UpdateRPLClaimedRewardRank(protocol.nodes, credited),
             rewardIntervals := intervals[active.id := active],
             protocol := protocol)
  }

  /** The interval ledger's invariant: every interval is stored under its
      own id, and only the protocol's last interval may be open. */
  ghost predicate IntervalLedgerWellFormed(state: State) {
    forall k :: k in state.rewardIntervals ==>
      && state.rewardIntervals[k].id == k
      && (!state.rewardIntervals[k].isClosed ==> state.protocol.lastRPLRewardInterval == Some(k))
  }

  /** A claim keeps at most one interval open: opening a new one closes the
      one it replaces. */
  lemma {:induction false} ClaimKeepsOneOpenInterval(state: State, event: EventInfo, claim: ClaimEvent, chain: RewardsReads, intervalIdPrefix: string)
    requires IntervalLedgerWellFormed(state)
    ensures IntervalLedgerWellFormed(HandleRPLTokensClaimed(state, event, claim, chain, intervalIdPrefix))
  {
    var r := HandleRPLTokensClaimed(state, event, claim, chain, intervalIdPrefix);
    if ClaimerType(claim, chain, state.nodes).Some? {
      var id := event.Id();
      var choice := ChooseInterval(state, chain, intervalIdPrefix + id, event.block, event.blockTime);
      var active := AddClaimToInterval(choice.active, id, claim.amount);
      assert r.rewardIntervals[active.id] == active;
      forall k | k in r.rewardIntervals
        ensures r.rewardIntervals[k].id == k
        ensures !r.rewardIntervals[k].isClosed ==> r.protocol.lastRPLRewardInterval == Some(k)
      {
        if k != active.id && k in state.rewardIntervals && r.rewardIntervals[k] == state.rewardIntervals[k] {
          assert !state.rewardIntervals[k].isClosed ==> state.protocol.lastRPLRewardInterval == Some(k);
        }
      }
    }
  }

  /** On a rollover from an indexed interval, that interval is closed at the
      block time and linked forward to the new one, which links back to it,
      holds just this claim, and becomes the protocol's last interval. */
  lemma {:induction false} RolloverLinksIntervals(state: State, event: EventInfo, claim: ClaimEvent, chain: RewardsReads, intervalIdPrefix: string)
    requires IntervalLedgerWellFormed(state)
    requires ClaimerType(claim, chain, state.nodes).Some?
    requires ActiveIndexedInterval(state).Some?
    requires ActiveIndexedInterval(state).value.intervalStartTime != chain.intervalStartTime
    requires state.protocol.lastRPLRewardInterval != Some(intervalIdPrefix + event.Id())
    ensures var r, last, newId := HandleRPLTokensClaimed(state, event, claim, chain, intervalIdPrefix),
                                  state.protocol.lastRPLRewardInterval.value, intervalIdPrefix + event.Id();
      && r.protocol.lastRPLRewardInterval == Some(newId)
      && last in r.rewardIntervals && newId in r.rewardIntervals
      && r.rewardIntervals[last].isClosed
      && r.rewardIntervals[last].intervalClosedTime == Some(event.blockTime)
      && r.rewardIntervals[last].nextIntervalId == Some(newId)
      && r.rewardIntervals[last].rplRewardClaims == state.rewardIntervals[last].rplRewardClaims
      && !r.rewardIntervals[newId].isClosed
      && r.rewardIntervals[newId].previousIntervalId == Some(last)
      && r.rewardIntervals[newId].intervalStartTime == chain.intervalStartTime
      && r.rewardIntervals[newId].rplRewardClaims == [event.Id()]
      && r.rewardIntervals[newId].totalRPLClaimed == claim.amount
  {
  }

  /** The first recognised claim, with no indexed interval to continue,
      opens an interval with no predecessor that holds just this claim and
      becomes the protocol's last; the stored intervals are left as they are. */
  lemma {:induction false} FirstClaimOpensInterval(state: State, event: EventInfo, claim: ClaimEvent, chain: RewardsReads, intervalIdPrefix: string)
    requires ClaimerType(claim, chain, state.nodes).Some?
    requires ActiveIndexedInterval(state).None?
    ensures var r, newId := HandleRPLTokensClaimed(state, event, claim, chain, intervalIdPrefix), intervalIdPrefix + event.Id();
      && r.protocol.lastRPLRewardInterval == Some(newId)
      && newId in r.rewardIntervals
      && !r.rewardIntervals[newId].isClosed
      && r.rewardIntervals[newId].previousIntervalId == None
      && r.rewardIntervals[newId].intervalStartTime == chain.intervalStartTime
      && r.rewardIntervals[newId].rplRewardClaims == [event.Id()]
      && r.rewardIntervals[newId].totalRPLClaimed == claim.amount
      && r.rewardIntervals == state.rewardIntervals[newId := r.rewardIntervals[newId]]
  {
  }

  /** Without a rollover the claim joins the protocol's last interval: its
      total grows by the amount, the claim id is appended once, it stays as
      open as it was, and the protocol is unchanged. */
  lemma {:induction false} ClaimJoinsCurrentInterval(state: State, event: EventInfo, claim: ClaimEvent, chain: RewardsReads, intervalIdPrefix: string)
    requires IntervalLedgerWellFormed(state)
    requires ClaimerType(claim, chain, state.nodes).Some?
    requires ActiveIndexedInterval(state).Some?
    requires ActiveIndexedInterval(state).value.intervalStartTime == chain.intervalStartTime
    ensures var r, last := HandleRPLTokensClaimed(state, event, claim, chain, intervalIdPrefix),
                           state.protocol.lastRPLRewardInterval.value;
      && r.protocol == state.protocol
      && last in r.rewardIntervals
      && r.rewardIntervals[last].totalRPLClaimed == state.rewardIntervals[last].totalRPLClaimed + claim.amount
      && r.rewardIntervals[last].rplRewardClaims == state.rewardIntervals[last].rplRewardClaims + [event.Id()]
      && r.rewardIntervals[last].isClosed == state.rewardIntervals[last].isClosed
      && r.rewardIntervals.Keys == state.rewardIntervals.Keys
  {
  }

  /** A claim by an indexed node adds exactly the amount to that node's
      claimed total, and the re-ranking changes only ranks. */
  lemma {:induction false} ClaimCreditsNode(state: State, event: EventInfo, claim: ClaimEvent, chain: RewardsReads, intervalIdPrefix: string)
    requires NodesKeyed(state.nodes) && NoDuplicates(state.protocol.nodes)
    requires claim.claimingAddress in state.nodes
    ensures var r, a := HandleRPLTokensClaimed(state, event, claim, chain, intervalIdPrefix), claim.claimingAddress;
      && a in r.nodes
      && r.nodes[a].totalClaimedRPLRewards == state.nodes[a].totalClaimedRPLRewards + claim.amount
      && (forall k :: k in state.nodes && k != a ==>
            r.nodes[k] == state.nodes[k].(totalRPLClaimedRewardsRank := r.nodes[k].totalRPLClaimedRewardsRank))
  {
    var credited := CreditClaimingNode(state.nodes, claim);
    assert NodesKeyed(credited);
    RankUpdateOnlySetsRanks(state.protocol.nodes, credited);
  }

  /** On two claims of 10 and 20 RPL in a fresh interval, the average as
      written is 30 (the total over one earlier claim), not 15. */
  lemma AverageClaimAsWrittenCounterexample(interval: RPLRewardInterval)
    requires interval.totalRPLClaimed == 0 && interval.rplRewardClaims == []
    ensures AddClaimToIntervalAsWritten(AddClaimToIntervalAsWritten(interval, "a", 10), "b", 20).averageRPLClaimed == 30
    ensures AddClaimToInterval(AddClaimToInterval(interval, "a", 10), "b", 20).averageRPLClaimed == 15
  {
  }

  /** The intended average stays within the smallest and largest claim: for
      claims all within [lo, hi] recorded one after another into a fresh
      interval, the average after them lies in [lo, hi]. */
  lemma {:induction false} AverageClaimWithinClaims(interval: RPLRewardInterval, ids: seq<string>, amounts: seq<int>, lo: int, hi: int)
    requires |ids| == |amounts| > 0 && 0 < lo
    requires interval.totalRPLClaimed == 0 && interval.rplRewardClaims == []
    requires forall i :: 0 <= i < |amounts| ==> lo <= amounts[i] <= hi
    ensures var r := AddClaims(interval, ids, amounts);
      && r.totalRPLClaimed == Sum(amounts)
      && lo <= r.averageRPLClaimed <= hi
  {
    AddClaimsTotals(interval, ids, amounts);
    var r := AddClaims(interval, ids, amounts);
    var n := |amounts|;
    SumBounds(amounts, lo, hi);
    QuotientUnique(r.averageRPLClaimed, Sum(amounts), n);
    DivBetween(Sum(amounts), n, lo, hi);
  }

  /** A run of claims recorded one after another. */
  function AddClaims(interval: RPLRewardInterval, ids: seq<string>, amounts: seq<int>): (r: RPLRewardInterval)
    requires |ids| == |amounts|
    ensures |r.rplRewardClaims| == |interval.rplRewardClaims| + |ids|
    decreases |ids|
  {
    if |ids| == 0 then interval
    else AddClaims(AddClaimToInterval(interval, ids[0], amounts[0]), ids[1..], amounts[1..])
  }

  lemma {:induction false} AddClaimsTotals(interval: RPLRewardInterval, ids: seq<string>, amounts: seq<int>)
    requires |ids| == |amounts| > 0
    requires forall i :: 0 <= i < |amounts| ==> amounts[i] > 0
    requires interval.totalRPLClaimed >= 0
    ensures var r := AddClaims(interval, ids, amounts);
      && r.totalRPLClaimed == interval.totalRPLClaimed + Sum(amounts)
      && r.averageRPLClaimed * |r.rplRewardClaims| <= r.totalRPLClaimed < (r.averageRPLClaimed + 1) * |r.rplRewardClaims|
    decreases |ids|
  {
    var next := AddClaimToInterval(interval, ids[0], amounts[0]);
    if |ids| > 1 {
      AddClaimsTotals(next, ids[1..], amounts[1..]);
    }
  }

  lemma {:induction false} SumBounds(xs: seq<int>, lo: int, hi: int)
    requires forall i :: 0 <= i < |xs| ==> lo <= xs[i] <= hi
    ensures |xs| * lo <= Sum(xs) <= |xs| * hi
    decreases |xs|
  {
    if |xs| > 0 {
      SumBounds(xs[1..], lo, hi);
    }
  }

  /** The only q with q * n <= total < (q + 1) * n is total / n. */
  lemma QuotientUnique(q: int, total: int, n: int)
    requires n > 0 && q * n <= total < (q + 1) * n
    ensures q == total / n
  {
    var d := total / n;
    assert d * n <= total < (d + 1) * n;
    if q < d {
      MulLeMonotone(q + 1, d, n);
    } else if q > d {
      MulLeMonotone(d + 1, q, n);
    }
  }
}

=== FILE: staker_accounting.dfy ===
/** Staker reward accounting (src/utilities/stakerutilities.ts): balance
    changes on rETH transfers, the reward a staker accrued since its previous
    balance checkpoint, and the roll-up of a staker into a network staker
    balance checkpoint. */
module StakerAccounting {
  import opened Wrappers
  import opened FixedPoint
  import opened GeneralUtilities
  import opened Entities

  /** changeStakerBalances: credit or debit an rETH amount (a debit saturates
      at zero) and revalue the ETH balance at the given exchange rate. The
      zero address never holds a balance. */
  function ChangeStakerBalances(staker: Staker, rETHAmount: int, exchangeRate: int, increase: bool): (r: Staker)
    ensures staker.id == ZERO_ADDRESS ==> r == staker
    ensures staker.id != ZERO_ADDRESS ==>
      && r.rETHBalance == (if increase then staker.rETHBalance + rETHAmount else Max0(staker.rETHBalance - rETHAmount))
      && r.ethBalance == (if exchangeRate > 0 && rETHAmount > 0 then FixedMul(r.rETHBalance, exchangeRate) else 0)
      && r == staker.(rETHBalance := r.rETHBalance, ethBalance := r.ethBalance)
    ensures !increase ==> r == staker || r.rETHBalance >= 0
  {
    if staker.id == ZERO_ADDRESS then staker
    else
      var rETH :=
        if increase then staker.rETHBalance + rETHAmount
        else if staker.rETHBalance >= rETHAmount then staker.rETHBalance - rETHAmount
        else 0;
      var eth := if exchangeRate > 0 && rETHAmount > 0 then FixedMul(rETH, exchangeRate) else 0;
      staker.(rETHBalance := rETH, ethBalance := eth)
  }

  /** Receiving an amount and sending the same amount back leaves a
      non-negative rETH balance where it was. */
  lemma CreditThenDebitRestores(staker: Staker, amount: int, exchangeRate: int)
    requires staker.rETHBalance >= 0 && amount >= 0
    ensures ChangeStakerBalances(ChangeStakerBalances(staker, amount, exchangeRate, true), amount, exchangeRate, false).rETHBalance
            == staker.rETHBalance
  {
  }

  /** A transfer between two distinct stakers moves rETH without creating or
      destroying any, except that the zero address mints (as sender) and
      burns (as receiver). */
  lemma TransferConservesRETH(from: Staker, to: Staker, amount: int, exchangeRate: int)
    requires 0 <= amount <= from.rETHBalance
    ensures var from', to' := ChangeStakerBalances(from, amount, exchangeRate, false),
                              ChangeStakerBalances(to, amount, exchangeRate, true);
      from'.rETHBalance + to'.rETHBalance
      == from.rETHBalance + to.rETHBalance
         + (if from.id == ZERO_ADDRESS then amount else 0)
         - (if to.id == ZERO_ADDRESS then amount else 0)
  {
  }

  /** The current and previous (rETH, ETH) balance pair of a staker. */
  datatype StakerBalance = StakerBalance(
    currentRETHBalance: int,
    currentETHBalance: int,
    previousRETHBalance: int,
    previousETHBalance: int)

  /** The staker's last balance checkpoint, if it is set and loads. */
  function PreviousStakerCheckpoint(staker: Staker, checkpoints: map<string, StakerBalanceCheckpoint>): Option<StakerBalanceCheckpoint> {
    match staker.lastBalanceCheckpoint
    case None => None
    case Some(cpId) => if cpId in checkpoints then Some(checkpoints[cpId]) else None
  }

  /** getStakerBalance: the current balances valued at the current exchange
      rate, and the balances of the staker's last checkpoint (the current
      ones when there is none). Every balance is clamped at zero. */
  function GetStakerBalance(staker: Staker, currentExchangeRate: int, checkpoints: map<string, StakerBalanceCheckpoint>): (b: StakerBalance)
    ensures b.currentRETHBalance == Max0(staker.rETHBalance)
    ensures b.currentETHBalance == Max0(FixedMul(b.currentRETHBalance, currentExchangeRate))
    ensures b.currentRETHBalance >= 0 && b.currentETHBalance >= 0
    ensures b.previousRETHBalance >= 0 && b.previousETHBalance >= 0
    ensures PreviousStakerCheckpoint(staker, checkpoints).None? ==>
      b.previousRETHBalance == b.currentRETHBalance && b.previousETHBalance == b.currentETHBalance
    ensures PreviousStakerCheckpoint(staker, checkpoints).Some? ==>
      var cp := PreviousStakerCheckpoint(staker, checkpoints).value;
      b.previousRETHBalance == Max0(cp.rETHBalance) && b.previousETHBalance == Max0(cp.ethBalance)
  {
    var currentRETH := if staker.rETHBalance < 0 then 0 else staker.rETHBalance;
    var valued := FixedMul(currentRETH, currentExchangeRate);
    var currentETH := if valued < 0 then 0 else valued;
    match PreviousStakerCheckpoint(staker, checkpoints)
    case None => StakerBalance(currentRETH, currentETH, currentRETH, currentETH)
    case Some(cp) =>
      StakerBalance(currentRETH, currentETH,
        if cp.rETHBalance < 0 then 0 else cp.rETHBalance,
        if cp.ethBalance < 0 then 0 else cp.ethBalance)
  }

  /** getETHRewardsSincePreviousStakerBalanceCheckpoint as written: the
      signed ETH reward a staker accrued since its previous checkpoint. In the
      branch where the staker received rETH, the balance change minus the
      received rETH valued at the previous rate already holds the rate gain on
      that rETH, and the code then adds that gain a second time. */
  function EthRewardsSincePreviousCheckpointAsWritten(
    activeRETHBalance: int, activeETHBalance: int,
    previousRETHBalance: int, previousETHBalance: int,
    previousExchangeRate: int, currentExchangeRate: int): (reward: int)
    ensures previousRETHBalance <= 0 || activeETHBalance == previousETHBalance ==> reward == 0
    ensures previousRETHBalance > 0 && activeETHBalance != previousETHBalance ==>
      && (activeRETHBalance == previousRETHBalance ==> reward == activeETHBalance - previousETHBalance)
      && (activeRETHBalance < previousRETHBalance ==>
            reward == activeETHBalance - (previousETHBalance - FixedMul(previousRETHBalance - activeRETHBalance, previousExchangeRate)))
      && (activeRETHBalance > previousRETHBalance ==>
            var received := activeRETHBalance - previousRETHBalance;
            reward == activeETHBalance - previousETHBalance
                      - 2 * FixedMul(received, previousExchangeRate) + FixedMul(received, currentExchangeRate))
  {
    if previousRETHBalance > 0 && (activeETHBalance > previousETHBalance || activeETHBalance < previousETHBalance) then
      if activeRETHBalance == previousRETHBalance then
        activeETHBalance - previousETHBalance
      else if activeRETHBalance < previousRETHBalance then
        var transferredAway := FixedMul(previousRETHBalance - activeRETHBalance, previousExchangeRate);
        activeETHBalance - (previousETHBalance - transferredAway)
      else
        var receivedAtPrevious := FixedMul(activeRETHBalance - previousRETHBalance, previousExchangeRate);
        var withoutRateChange := activeETHBalance - receivedAtPrevious - previousETHBalance;
        var receivedAtCurrent := FixedMul(activeRETHBalance - previousRETHBalance, currentExchangeRate);
        if receivedAtCurrent > receivedAtPrevious then
          withoutRateChange + (receivedAtCurrent - receivedAtPrevious)
        else
          withoutRateChange - (receivedAtPrevious - receivedAtCurrent)
    else
      0
  }

  /** The ETH value of a signed rETH movement: positive when received,
      negative when sent away. */
  function MovedValue(rETHMoved: int, exchangeRate: int): int {
    if rETHMoved >= 0 then FixedMul(rETHMoved, exchangeRate) else -FixedMul(-rETHMoved, exchangeRate)
  }

  /** The reward since the previous checkpoint as the code's own comments
      describe it: the change of the ETH balance, less the principal moved in
      (or plus the principal moved out) valued at the previous rate. The
      rate gain on received rETH is counted once, inside the balance change. */
  function EthRewardsSincePreviousCheckpoint(
    activeRETHBalance: int, activeETHBalance: int,
    previousRETHBalance: int, previousETHBalance: int,
    previousExchangeRate: int, currentExchangeRate: int): (reward: int)
    ensures previousRETHBalance <= 0 || activeETHBalance == previousETHBalance ==> reward == 0
    ensures previousRETHBalance > 0 && activeETHBalance != previousETHBalance ==>
      reward == (activeETHBalance - previousETHBalance) - MovedValue(activeRETHBalance - previousRETHBalance, previousExchangeRate)
  {
    if previousRETHBalance > 0 && (activeETHBalance > previousETHBalance || activeETHBalance < previousETHBalance) then
      if activeRETHBalance == previousRETHBalance then
        activeETHBalance - previousETHBalance
      else if activeRETHBalance < previousRETHBalance then
        var transferredAway := FixedMul(previousRETHBalance - activeRETHBalance, previousExchangeRate);
        activeETHBalance - (previousETHBalance - transferredAway)
      else
        var receivedAtPrevious := FixedMul(activeRETHBalance - previousRETHBalance, previousExchangeRate);
        activeETHBalance - receivedAtPrevious - previousETHBalance
    else
      0
  }

  /** The code as written and the corrected reward differ exactly by the rate
      gain (or loss) on received rETH, so they agree whenever no rETH was
      received or the exchange rate did not move. */
  lemma AsWrittenRewardCountsReceivedGainTwice(
    activeRETH: int, activeETH: int, previousRETH: int, previousETH: int, previousRate: int, currentRate: int)
    ensures var received := activeRETH - previousRETH;
      var extra := if previousRETH > 0 && activeETH != previousETH && received > 0
                   then FixedMul(received, currentRate) - FixedMul(received, previousRate) else 0;
      EthRewardsSincePreviousCheckpointAsWritten(activeRETH, activeETH, previousRETH, previousETH, previousRate, currentRate)
        == EthRewardsSincePreviousCheckpoint(activeRETH, activeETH, previousRETH, previousETH, previousRate, currentRate) + extra
  {
  }

  /** 100 rETH worth 100 ETH at a rate of 1.0; 100 more rETH arrive at that
      rate and the rate rises to 1.1, so the 200 rETH are worth 220 ETH. The
      held and the received rETH each gained 10 ETH, a reward of 20; the code
      as written reports 30. */
  lemma ReceivedRETHDoubleCountExample()
    ensures FixedMul(200, 1_100_000_000_000_000_000) == 220
    ensures EthRewardsSincePreviousCheckpointAsWritten(200, 220, 100, 100, 1_000_000_000_000_000_000, 1_100_000_000_000_000_000) == 30
    ensures EthRewardsSincePreviousCheckpoint(200, 220, 100, 100, 1_000_000_000_000_000_000, 1_100_000_000_000_000_000) == 20
  {
  }

  /** At an unchanged exchange rate the code as written needs no correction:
      its reward is the change of the ETH balance minus the value of the rETH
      moved in (or plus the value moved out). */
  lemma RewardAtStableRateExcludesPrincipal(activeRETH: int, activeETH: int, previousRETH: int, previousETH: int, rate: int)
    requires previousRETH > 0 && activeETH != previousETH
    ensures EthRewardsSincePreviousCheckpointAsWritten(activeRETH, activeETH, previousRETH, previousETH, rate, rate)
            == (activeETH - previousETH) - MovedValue(activeRETH - previousRETH, rate)
  {
  }

  /** A staker who moved no rETH earns a non-negative reward when the rate
      rose and a non-positive one when it fell. */
  lemma RewardFollowsExchangeRate(rETH: int, previousRate: int, currentRate: int)
    requires rETH > 0 && previousRate >= 0 && currentRate >= 0
    ensures var reward := EthRewardsSincePreviousCheckpoint(
              rETH, FixedMul(rETH, currentRate), rETH, FixedMul(rETH, previousRate), previousRate, currentRate);
      && (previousRate <= currentRate ==> reward >= 0)
      && (currentRate <= previousRate ==> reward <= 0)
  {
    if previousRate <= currentRate {
      FixedMulMonotoneInRate(rETH, previousRate, currentRate);
    } else {
      FixedMulMonotoneInRate(rETH, currentRate, previousRate);
    }
  }

  /** 100 rETH worth 110 ETH at a rate of 1.1; 40 rETH leave and the rate
      rises to 1.2, leaving 60 rETH worth 72 ETH: the 40 rETH that left were
      worth 44 ETH at the previous rate, so the reward is 72 - (110 - 44) = 6. */
  lemma PartialExitExample()
    ensures FixedMul(100 - 60, 1_100_000_000_000_000_000) == 44
    ensures FixedMul(60, 1_200_000_000_000_000_000) == 72
    ensures EthRewardsSincePreviousCheckpoint(60, 72, 100, 110, 1_100_000_000_000_000_000, 1_200_000_000_000_000_000) == 6
  {
  }

  /** Lines 258-269 of handleEthRewardsSincePreviousCheckpoint: the reward is
      added to the staker's running total and the "has ever accrued" flag is
      raised by the first nonzero reward. */
  function AccrueReward(staker: Staker, reward: int): (r: Staker)
    ensures r.totalETHRewards == staker.totalETHRewards + reward
    ensures r.hasAccruedETHRewardsDuringLifecycle <==> staker.hasAccruedETHRewardsDuringLifecycle || reward != 0
    ensures r == staker.(totalETHRewards := r.totalETHRewards,
                         hasAccruedETHRewardsDuringLifecycle := r.hasAccruedETHRewardsDuringLifecycle)
  {
    var flagged := if reward != 0 && !staker.hasAccruedETHRewardsDuringLifecycle then true
                   else staker.hasAccruedETHRewardsDuringLifecycle;
    staker.(totalETHRewards := staker.totalETHRewards + reward,
            hasAccruedETHRewardsDuringLifecycle := flagged)
  }

  /** A staker's rewards over a run of checkpoints, oldest first. */
  function AccrueRewards(staker: Staker, rewards: seq<int>): Staker
    decreases |rewards|
  {
    if |rewards| == 0 then staker else AccrueRewards(AccrueReward(staker, rewards[0]), rewards[1..])
  }

  /** Over any run of checkpoints the running total is the initial total plus
      the sum of the rewards, and the flag is raised exactly when it was
      already raised or some reward was nonzero: it is never reset. */
  lemma {:induction false} AccruedRewardsAddUp(staker: Staker, rewards: seq<int>)
    ensures AccrueRewards(staker, rewards).totalETHRewards == staker.totalETHRewards + Sum(rewards)
    ensures AccrueRewards(staker, rewards).hasAccruedETHRewardsDuringLifecycle
            <==> staker.hasAccruedETHRewardsDuringLifecycle || exists i :: 0 <= i < |rewards| && rewards[i] != 0
    decreases |rewards|
  {
    if |rewards| > 0 {
      var next := AccrueReward(staker, rewards[0]);
      AccruedRewardsAddUp(next, rewards[1..]);
      if exists i :: 0 <= i < |rewards[1..]| && rewards[1..][i] != 0 {
        var i :| 0 <= i < |rewards[1..]| && rewards[1..][i] != 0;
        assert rewards[i + 1] != 0;
      }
      if exists i :: 0 <= i < |rewards| && rewards[i] != 0 {
        var i :| 0 <= i < |rewards| && rewards[i] != 0;
        if i > 0 {
          assert rewards[1..][i - 1] != 0;
        }
      }
    }
  }

  /** updateNetworkStakerBalanceCheckpoint: the network checkpoint adds the
      staker's cumulative reward total, and counts the staker among those
      holding rETH and among those that ever accrued a reward. */
  function UpdateNetworkStakerBalanceCheckpoint(checkpoint: NetworkStakerBalanceCheckpoint, staker: Staker): (r: NetworkStakerBalanceCheckpoint)
    ensures r.totalStakerETHRewards == checkpoint.totalStakerETHRewards + staker.totalETHRewards
    ensures r.stakersWithAnRETHBalance == checkpoint.stakersWithAnRETHBalance + (if staker.rETHBalance > 0 then 1 else 0)
    ensures r.totalStakersWithETHRewards
            == checkpoint.totalStakersWithETHRewards + (if staker.hasAccruedETHRewardsDuringLifecycle then 1 else 0)
    ensures r == checkpoint.(totalStakerETHRewards := r.totalStakerETHRewards,
                             stakersWithAnRETHBalance := r.stakersWithAnRETHBalance,
                             totalStakersWithETHRewards := r.totalStakersWithETHRewards)
  {
    var withTotal := checkpoint.(totalStakerETHRewards := checkpoint.totalStakerETHRewards + staker.totalETHRewards);
    var withHolders :=
      if staker.rETHBalance > 0 then withTotal.(stakersWithAnRETHBalance := withTotal.stakersWithAnRETHBalance + 1)
      else withTotal;
    if staker.hasAccruedETHRewardsDuringLifecycle then
      withHolders.(totalStakersWithETHRewards := withHolders.totalStakersWithETHRewards + 1)
    else
      withHolders
  }

  /** handleEthRewardsSincePreviousCheckpoint: accrue the reward on the staker,
      then roll the updated staker into the network checkpoint. */
  function HandleEthRewardsSincePreviousCheckpoint(reward: int, staker: Staker, checkpoint: NetworkStakerBalanceCheckpoint)
    : (r: (Staker, NetworkStakerBalanceCheckpoint))
    ensures r.0 == AccrueReward(staker, reward)
    ensures r.1 == UpdateNetworkStakerBalanceCheckpoint(checkpoint, r.0)
    ensures r.1.totalStakerETHRewards == checkpoint.totalStakerETHRewards + staker.totalETHRewards + reward
  {
    var accrued := AccrueReward(staker, reward);
    (accrued, UpdateNetworkStakerBalanceCheckpoint(checkpoint, accrued))
  }
}

=== FILE: wrappers.dfy ===
/** The "found / not found" result of an entity-store load, and the nullable
    fields of the indexed entities. */
module Wrappers {

  datatype Option<+T> = None | Some(value: T) {

    /** The wrapped value, or `default` when there is none. */
    function GetOr(default: T): T {
      match this
      case Some(v) => v
      case None => default
    }
  }
}
